=== FILE: README.md ===
# Smart-contract analysis backend — a Dafny model of its decision logic

This project models the pure decision logic of a smart-contract analysis
backend, a FastAPI service. The model covers:

- how the comprehensive analysis merges, deduplicates, scores and summarises static-tool
  and AI results;
- the AI service's own merge, score, summary, retry schedule and progress steps;
- how Slither, Mythril and Semgrep output is normalised onto the finding enums;
- the WebSocket connection registry (connect, disconnect, broadcast with eviction of
  failed sockets, statistics and message dispatch);
- the derived properties of the database models (scores, flags, counts, dictionaries);
- the request-schema and settings validators;
- access control: project and contract access, permission checks, token claims, and the
  order of the current-user checks;
- status bookkeeping: status transitions, idempotent contract creation, project updates,
  recent activity, and the enhanced contract endpoints.

Everything is a pure function over immutable datatypes. JSON dictionaries are records
whose `Option` fields stand for keys the code reads with `.get(key, default)`. Scores and
times are `real`. Anything the code gets from outside is a parameter: tool output, model
replies, socket sends, clocks, identifiers, database lookups and the password hash.

Files, one module each:

| file | module | models |
|---|---|---|
| wrappers.dfy | Wrappers | `Option` and `Result` |
| text.dfy | Text | ASCII case mapping, `strip`, `split`/`join`, decimal rendering |
| seqs.dfy | Seqs | sums and counts, filtering, first-wins deduplication, subsequences, descending sort |
| numbers.dfy | Numbers | truncation toward zero, `min`, powers of two |
| json.dfy | Json | JSON values and optional field reads |
| payloads.dfy | Payloads | the result dictionaries the analysis services exchange |
| entities.dfy | Entities | `models/*.py`: findings, risks, contracts, projects, reports, users |
| analysis.dfy | Analysis | `services/analysis_service.py` |
| ai.dfy | Ai | `services/ai_service.py` |
| static_tools.dfy | StaticTools | `services/static_analysis_service.py` |
| registry.dfy | Registry | `core/websocket.py` |
| schemas.dfy | Schemas | `schemas/contract.py`, `schemas/auth.py` |
| config.dfy | Config | `core/config.py` |
| access.dfy | Access | access checks in `services/project_service.py`, `services/contract_service.py`, `services/auth_service.py`, `dependencies.py` |
| lifecycle.dfy | Lifecycle | state changes in `services/contract_service.py` and `services/project_service.py` |
| endpoints.dfy | Endpoints | `api/v1/contracts_enhanced.py` |

## Model

Source paths are relative to the repository root.

| member | source | states |
|---|---|---|
| Analysis.DeduplicateFindings | apps/api/app/services/analysis_service.py:315-333 | the result is a subsequence of the input, has no two findings with the same (lower-cased title, line, severity) key, loses no key, and each kept finding is the first of its key in the input |
| Analysis.DeduplicateFindingsLoop | apps/api/app/services/analysis_service.py:319-333 | the seen-set loop computes exactly the first-wins selection |
| Analysis.DeduplicateFindingsIdempotent | apps/api/app/services/analysis_service.py:319-333 | deduplicating twice is deduplicating once |
| Analysis.DeduplicateRisks | apps/api/app/services/analysis_service.py:335-352 | the same first-wins guarantees over the (lower-cased title, category, risk level) key |
| Analysis.DeduplicateRisksIdempotent | apps/api/app/services/analysis_service.py:339-352 | deduplicating risks twice is deduplicating them once |
| Analysis.TagStaticFindings | apps/api/app/services/analysis_service.py:220-224 | one output per input, equal to it with its source overwritten by "static_analysis" |
| Analysis.TagAiFindings | apps/api/app/services/analysis_service.py:226-231 | one output per input; an existing source is kept, a missing one becomes "ai_analysis" |
| Analysis.TagStaticRisks | apps/api/app/services/analysis_service.py:234-238 | static risks are tagged "static_analysis", overwriting any tag |
| Analysis.TagAiRisks | apps/api/app/services/analysis_service.py:240-245 | AI risks keep their tag or get "ai_analysis" |
| Analysis.TagStaticResults | apps/api/app/services/analysis_service.py:220-238 | the static result dictionary after the merge tagged it in place: its findings and risks are the statically tagged ones, its gas and compliance sections unchanged |
| Analysis.TagAiResults | apps/api/app/services/analysis_service.py:226-245 | the AI result dictionary after the merge tagged it in place: its findings and risks keep their tags or get "ai_analysis", its gas and compliance sections unchanged |
| Analysis.MergeAnalysisResults | apps/api/app/services/analysis_service.py:204-269 | the merged findings and risks are deduplicated selections, with unique keys, of the tagged static list followed by the tagged AI list; the gas optimisations and compliance issues are both sides' lists, static first; each raw result is present exactly when its side produced one |
| Analysis.MergeKeepsIdentities | apps/api/app/services/analysis_service.py:219-267 | the merged findings carry exactly the identities of both sides' findings, and the merged risks exactly those of both sides' risks |
| Analysis.MergeTagsRawEntries | apps/api/app/services/analysis_service.py:215-245 | the raw results the merge returns hold the tagged dictionaries: their findings and risks, static then AI, are exactly the lists that were deduplicated, and their gas lists are unchanged |
| Analysis.MergedItemsHaveSource | apps/api/app/services/analysis_service.py:219-245 | every merged finding and risk carries a source tag |
| Analysis.MergeStaticWins | apps/api/app/services/analysis_service.py:219-231 | a merged finding whose key the static side reports is the static one |
| Analysis.AiFindingsKeepProviderTag | apps/api/app/services/analysis_service.py:226-231 | every AI security finding carries its provider tag, so the AI-side tagging leaves the AI findings unchanged |
| Analysis.MergeWithoutStatic | apps/api/app/services/analysis_service.py:220-263 | with no static result the merge is the deduplicated AI side alone |
| Analysis.MergeWithoutAi | apps/api/app/services/analysis_service.py:220-263 | with no AI result the merge is the deduplicated static side alone |
| Analysis.MergeNothing | apps/api/app/services/analysis_service.py:210-269 | two missing sides give empty lists and a zero score |
| Analysis.SaveFinding | apps/api/app/services/analysis_service.py:279-294 | each column is the dictionary's entry or its default: title "Unknown Issue", description and recommendation "", severity "low", category "other", tool the merge tag or "unknown"; line, names and confidence are copied, and the metadata column is the dictionary itself, from which the finding reads back unchanged |
| Analysis.SaveRisk | apps/api/app/services/analysis_service.py:296-312 | each column is the dictionary's entry or its default: title "Unknown Risk", description, impact and mitigation "", level "low", category "technical", probability 0.5; both scores are copied, and the metadata column is the dictionary itself, from which the risk reads back unchanged |
| Analysis.SavedMergedFindingsHaveTool | apps/api/app/services/analysis_service.py:277-294 | a saved merged finding's tool is its merge tag, never the default |
| Analysis.SavedRiskScoreInUnit | apps/api/app/services/analysis_service.py:297-312 | a saved risk with supplied scores in [0, 1] has a calculated score in [0, 1] |
| Analysis.CombinedRiskScore | apps/api/app/services/analysis_service.py:354-405 | the score is the minimum of the weighted sum and 1.0: it exceeds neither, equals one of them, and is non-negative for non-negative confidences and probabilities |
| Analysis.RawCombinedScoreNonneg | apps/api/app/services/analysis_service.py:356-402 | the uncapped sum is non-negative for non-negative inputs |
| Analysis.CombinedRiskScoreOrderFree | apps/api/app/services/analysis_service.py:356-405 | permuting findings, risks or compliance issues, or replacing the gas list by one of the same length, leaves the score unchanged |
| Analysis.CombinedRiskScoreMonotone | apps/api/app/services/analysis_service.py:359-371 | adding a finding with non-negative confidence never lowers the score |
| Analysis.Part | apps/api/app/services/analysis_service.py:425-446 | a count contributes one summary part exactly when it is positive |
| Analysis.PartsCount | apps/api/app/services/analysis_service.py:423-446 | there is one part per non-zero count |
| Analysis.PartsMembers | apps/api/app/services/analysis_service.py:425-446 | the parts are exactly the renderings of the positive counts with their nouns |
| Analysis.NonZeroZero | apps/api/app/services/analysis_service.py:448-449 | no count is positive exactly when every count is zero |
| Analysis.AnalysisSummary | apps/api/app/services/analysis_service.py:407-451 | the no-issues sentence is returned exactly when all eight counts are zero; otherwise the summary ends with "." |
| Analysis.AnalysisSummaryRoundTrip | apps/api/app/services/analysis_service.py:423-451 | a summary other than the no-issues sentence, without its final full stop, splits at ". " into exactly the parts of the positive counts, in order |
| Analysis.SelectResultsPicksOwnOutcome | apps/api/app/services/analysis_service.py:86-101 | reading the gathered list at index 0 and at index 1 (or 0 without static analysis) gives each service its own outcome, an exception read as no result |
| Analysis.SelectResults | apps/api/app/services/analysis_service.py:86-101 | a service's result is read only when that service is enabled, only as a success, and from its own index in the gathered list (0 for static analysis; 1 for the AI service, or 0 without static analysis); a successful static outcome is always read |
| Analysis.FinalContract | apps/api/app/services/analysis_service.py:106-160 | from the contract the services left: a run in which no step raises ends "completed" with the capped score, the summary and the whole seconds since the start the contract holds; a raising start or save ends "failed" and keeps the score, summary and duration already there; a raising completion notice ends "failed" over the completed columns; the end time and `updated_at` are always stamped with the run's end, and the identity and contents are unchanged |
| Analysis.ServicesContract | apps/api/app/services/analysis_service.py:56-104 | the contract once the gathered tasks are done: it holds the AI service's start time when that service ran, this service's start otherwise; it is "failed" exactly when the AI run raised, and still "analyzing" when the AI service did not run; it holds the AI service's score, summary and duration when the AI loop completed, even if the AI completion notice then raised, and the columns it held before otherwise; identity is kept |
| Analysis.StaticTaskOutcome | apps/api/app/services/analysis_service.py:169-184 | the gathered static outcome is a success exactly when the static task's progress notice did not raise and the static service succeeded, and it is then the service's outcome |
| Analysis.AiOutcome | apps/api/app/services/analysis_service.py:186-202 | the gathered AI outcome is a success exactly when neither the AI task's progress notice nor the AI run raised, and it then carries the results of the AI loop over the run's types |
| Analysis.Notices | apps/api/app/services/analysis_service.py:61-164 | the notices start at ("analyzing", 0), end at ("completed", 100) or ("failed", 0), and progress strictly increases up to any failure notice |
| Analysis.AnalyzeComprehensive | apps/api/app/services/analysis_service.py:23-167 | the run raises exactly when one of its own steps raises, whatever the tasks and their notices do; it merges the gathered outcomes unless the start notice raised; its contract ends "completed" exactly when it does not raise; at least an opening and a closing notice are sent |
| Analysis.RunTimes | apps/api/app/services/analysis_service.py:56-154 | the run's contract is stamped at the run's end and holds the AI service's start time when that service ran, this service's otherwise; identity is kept |
| Analysis.CompletedRunDuration | apps/api/app/services/analysis_service.py:118-120 | a completed run's duration is the whole seconds from the start the contract holds (the AI service's when it ran) to the run's end |
| Analysis.ServicesDuration | apps/api/app/services/analysis_service.py:118-120 | finishing the services' contract without a raise measures the duration from the AI service's start when it ran, from this service's start otherwise |
| Analysis.ServicesStart | apps/api/app/services/ai_service.py:64-65 | without a raising step, the contract holds the AI service's start when it ran |
| Analysis.ComprehensiveContract | apps/api/app/services/analysis_service.py:56-160 | the run's contract is the services' contract finished by the run's own writes |
| Analysis.FinishedDuration | apps/api/app/services/analysis_service.py:118-120 | a run finishing from a recorded start measures its duration from that start |
| Analysis.CompletedRunScore | apps/api/app/services/analysis_service.py:106-136 | a completed run stores the capped combined score and the summary of the results it merged, over whatever the AI service wrote, and ends with the 100 notice |
| Analysis.SaveFailureKeepsAiColumns | apps/api/app/services/analysis_service.py:107-154 | when saving raises after a successful AI run, the contract ends "failed" with the AI service's score, summary and duration; without the AI service it keeps the columns it had |
| Analysis.AiCompletionRaiseKeepsColumns | apps/api/app/services/ai_service.py:106-129 | when the AI service's completion notice raises after a complete loop, the gathered AI outcome is an exception, yet the contract already holds the AI score and summary, under the "failed" status |
| Analysis.AiNoticeRaiseSkipsAi | apps/api/app/services/analysis_service.py:186-202 | when the AI task's own progress notice raises, the AI service never runs: the contract keeps this service's start time and its earlier score and summary, and the run merges the static side alone |
| Analysis.ToolFailuresNeverFailRun | apps/api/app/services/analysis_service.py:83-104 | when the static task fails and the AI task is off or its outcome is an exception, the run still completes, with no findings or risks and score 0 |
| Analysis.FailedServicesMergeNothing | apps/api/app/services/analysis_service.py:83-104 | a failed static task with the AI task off or failed leaves the merge of two missing results |
| Ai.CallFrom | apps/api/app/services/ai_service.py:218-245 | from a given attempt, the call makes at most three attempts, sleeps 1·2^k seconds after each failed attempt k but the last, returns the first successful attempt's result, and fails only after the third attempt fails |
| Ai.Call | apps/api/app/services/ai_service.py:247-269 | between one and three attempts, one sleep fewer than attempts |
| Ai.CallSucceedsIffSomeAttempt | apps/api/app/services/ai_service.py:223-245 | a call succeeds exactly when one of the three attempts succeeds; it then returns that first success, and otherwise the third attempt's error |
| Ai.CallSleeps | apps/api/app/services/ai_service.py:242-243 | the sleeps taken are a prefix of [1, 2] seconds |
| Ai.CallProvider | apps/api/app/services/ai_service.py:218-269 | one provider call for the type at a given place in the list succeeds exactly when one of its three attempts succeeds and then returns one attempt's reply; a failed call returns the third attempt's error |
| Ai.MergeSecurityFindings | apps/api/app/services/ai_service.py:417-442 | the merge raises exactly when one provider's reply raises; otherwise it is the OpenAI findings tagged "openai", then the Anthropic findings tagged "anthropic", nothing dropped or deduplicated, an unparsable side or one without findings contributing nothing |
| Ai.ProviderFindings | apps/api/app/services/ai_service.py:421-439 | one provider's side raises exactly when its reply decodes to something other than an object and the `"findings" in` test either raises or finds the key; an object gives its findings or [], an unparsable reply gives [] |
| Ai.Tag | apps/api/app/services/ai_service.py:425-438 | each finding keeps its contents and gets the provider tag |
| Ai.ExtractRisks | apps/api/app/services/ai_service.py:444-451 | a reply that decodes to something other than an object raises (no `.get`), and only such a reply; an unparsable reply and an object without "risks" give [], an object with risks gives them unchanged |
| Ai.ExtractOptimizations | apps/api/app/services/ai_service.py:453-460 | a reply that decodes to something other than an object raises (no `.get`), and only such a reply; an unparsable reply and an object without "optimizations" give [], an object with optimizations gives them unchanged |
| Ai.ExtractComplianceIssues | apps/api/app/services/ai_service.py:462-469 | a reply that decodes to something other than an object raises (no `.get`), and only such a reply; an unparsable reply and an object without "compliance_issues" give [], an object with compliance issues gives them unchanged |
| Ai.RunSection | apps/api/app/services/ai_service.py:92-99 | an unknown type leaves the results as they are; only the security type changes the security section; a risk or compliance reply from Anthropic, or a gas reply from OpenAI, that decodes to something other than an object fails the type |
| Ai.RunSections | apps/api/app/services/ai_service.py:78-99 | the loop runs every type unless a call fails, and then stops after the failing type |
| Ai.RunSectionsStopsAtFirstError | apps/api/app/services/ai_service.py:78-99 | when the loop stops on an error, every type before the failing one succeeded and the failing type produced that error |
| Ai.RunSectionsPrefixError | apps/api/app/services/ai_service.py:78-99 | a loop that fails on a prefix of the types fails on the whole list |
| Ai.RepeatedTypeCallsAgain | apps/api/app/services/ai_service.py:78-99 | a type listed twice calls the providers again, so the second "security" step can fail after the first succeeded |
| Ai.AnalysisTypes | apps/api/app/services/ai_service.py:52-53 | a run always has types: the given ones when there are any, the four defaults otherwise |
| Ai.RunLoop | apps/api/app/services/ai_service.py:62-100 | the loop finishes exactly when no type fails and no notice before its end raises, and then gives the results of all the types; a raising start notice stops it before any progress notice, and otherwise it stops after at most one notice per type |
| Ai.Progress | apps/api/app/services/ai_service.py:82 | the progress before type i of n lies in [0, 100) |
| Ai.ProgressMonotone | apps/api/app/services/ai_service.py:78-82 | the progress before a later type is never smaller |
| Ai.ProgressNotices | apps/api/app/services/ai_service.py:78-90 | one "analyzing" notice per started type, carrying that type's progress |
| Ai.RunNotices | apps/api/app/services/ai_service.py:69-155 | the start notice, one notice per started type, then the completion or failure notice |
| Ai.RunNoticesOrdered | apps/api/app/services/ai_service.py:69-90 | every notice other than a failure notice reports at least the progress of every notice before it |
| Ai.AnalyzeContract | apps/api/app/services/ai_service.py:35-160 | the run fails exactly when it raises, and it raises exactly when a call or a reply fails a type, or a notice before or at its completion raises; it yields the loop's results exactly when it does not raise; start, end and `updated_at` are recorded; a completed loop stores this service's score, summary and truncated duration, even when the completion notice then raises, and an interrupted loop keeps the columns the contract had; notices open at ("analyzing", 0) and close at ("completed", 100) or ("failed", 0), and a raising start notice leaves only those two |
| Ai.AnalyzeContractProgressOrdered | apps/api/app/services/ai_service.py:69-129 | whichever notice raises, every notice of the run other than a failure notice reports at least the progress of every notice before it |
| Ai.AiSummaryParts | apps/api/app/services/ai_service.py:485-495 | the critical-findings part appears iff that count is positive, the high-risks part iff some risk is at level "high", and the total-findings and risk-assessments parts always close the list |
| Ai.AiSummary | apps/api/app/services/ai_service.py:471-497 | the summary is never empty and ends with "." |
| Ai.AiSummaryRoundTrip | apps/api/app/services/ai_service.py:471-497 | the summary without its final full stop splits at ". " into exactly the summary parts |
| Ai.AiRiskScore | apps/api/app/services/ai_service.py:499-532 | the score is the minimum of the weighted sum and 1.0: it exceeds neither, equals one of them, and is non-negative when no probability is negative |
| Ai.AiScoreIgnoresConfidence | apps/api/app/services/ai_service.py:504-514 | changing only the confidences of findings leaves their contribution unchanged |
| StaticTools.MapSlitherSeverity | apps/api/app/services/static_analysis_service.py:392-400 | the result is high, medium or low, never critical; "high" exactly for High, "medium" exactly for Medium, anything else (Low, Informational, unknown) "low" |
| StaticTools.MapMythrilSeverity | apps/api/app/services/static_analysis_service.py:402-409 | the result is high, medium or low; "high" exactly for High, "medium" exactly for Medium |
| StaticTools.MapSemgrepSeverity | apps/api/app/services/static_analysis_service.py:411-418 | "high" exactly when the upper-cased severity is ERROR, "medium" exactly for WARNING, otherwise "low" |
| StaticTools.SemgrepSeverityIgnoresCase | apps/api/app/services/static_analysis_service.py:418 | severities equal up to case map to the same level |
| StaticTools.MapSlitherConfidence | apps/api/app/services/static_analysis_service.py:420-427 | the confidence lies in (0, 1]; it is 0.9 exactly for High, 0.7 exactly for Medium and 0.5 exactly for any other level |
| StaticTools.CategorizeSlither | apps/api/app/services/static_analysis_service.py:429-440 | the category is in the enum and is fixed by the first keyword group the lower-cased check contains: reentrancy; access or modifier; arithmetic or overflow; gas; "other" exactly when it contains none |
| StaticTools.CategorizeMythril | apps/api/app/services/static_analysis_service.py:442-452 | the category is in the enum and never "gas": "reentrancy" exactly for SWC-107, "arithmetic" exactly for SWC-101, "access-control" exactly for SWC-104, SWC-105 and SWC-115, "other" exactly outside the five ids |
| StaticTools.CategorizeSemgrep | apps/api/app/services/static_analysis_service.py:454-463 | the category is in the enum and never "gas", fixed by the first keyword group the lower-cased id contains: reentrancy; access; overflow or underflow; "other" exactly when it contains none |
| StaticTools.SlitherRecommendation | apps/api/app/services/static_analysis_service.py:465-469 | the check name appears verbatim between the fixed opening and closing words |
| StaticTools.MythrilRecommendation | apps/api/app/services/static_analysis_service.py:471-479 | the generic advice is returned exactly for ids outside SWC-107, SWC-101, SWC-104 and SWC-105, so SWC-115 gets it too |
| StaticTools.SlitherConfidenceIsLookup | apps/api/app/services/static_analysis_service.py:420-427 | the confidence is the lookup of the level in the High/Medium table, 0.5 for any other |
| StaticTools.MythrilCategoryIsLookup | apps/api/app/services/static_analysis_service.py:442-452 | the category is the lookup of the id in the SWC table, "other" for any other id |
| StaticTools.SlitherCategoryIsFirstGroup | apps/api/app/services/static_analysis_service.py:429-440 | the Slither category is the first keyword group, in the code's order, that the lower-cased check hits |
| StaticTools.SemgrepCategoryIsFirstGroup | apps/api/app/services/static_analysis_service.py:454-463 | the Semgrep category is the first keyword group, in the code's order, that the lower-cased id hits |
| StaticTools.ParseSlitherDetector | apps/api/app/services/static_analysis_service.py:309-328 | the parse raises exactly when the first element lists no lines; otherwise a "slither" finding titled by its check ("Unknown Issue" when missing), with the mapped severity, category and confidence, the check's recommendation, and the first element's name and first line (none without elements) |
| StaticTools.ParseSlither | apps/api/app/services/static_analysis_service.py:305-330 | parsing succeeds exactly when every detector parses, and then gives one finding per detector in order |
| StaticTools.ParseMythrilIssue | apps/api/app/services/static_analysis_service.py:336-354 | a Mythril finding has tool "mythril", confidence 0.8, the issue's title ("Unknown Issue" when missing), description ("" when missing), line and function, the mapped severity ("Low" when missing), and the category and recommendation of its SWC id ("" when missing) |
| StaticTools.MythrilIssueWellFormed | apps/api/app/services/static_analysis_service.py:336-354 | every Mythril finding is well formed |
| StaticTools.ParseMythril | apps/api/app/services/static_analysis_service.py:332-356 | one finding per issue, in order |
| StaticTools.SemgrepTitle | apps/api/app/services/static_analysis_service.py:364 | the title is the dot-free suffix of the check id ("Unknown Issue" when missing) that follows its last ".", the whole id when it has none |
| StaticTools.ParseSemgrepResult | apps/api/app/services/static_analysis_service.py:362-378 | a Semgrep finding has tool "semgrep", confidence 0.7, the result's start line and no function, the check id's title, the message ("" when missing), the mapped severity ("INFO" when missing), the check id's category and the fixed recommendation, and is well formed |
| StaticTools.ParseSemgrep | apps/api/app/services/static_analysis_service.py:358-380 | one finding per result, in order |
| StaticTools.RunSlither | apps/api/app/services/static_analysis_service.py:122-162 | output that parses gives its findings whatever the exit code; no output, a timeout or a crash gives [] |
| StaticTools.SlitherEmptyLinesDropsAll | apps/api/app/services/static_analysis_service.py:325-327 | a detector whose first element lists no lines makes the parse raise, so the run reports no Slither findings at all |
| StaticTools.RunMythril | apps/api/app/services/static_analysis_service.py:164-205 | a non-zero exit code gives []; a clean exit with a report gives its parsed issues |
| StaticTools.RunSemgrep | apps/api/app/services/static_analysis_service.py:207-248 | a report gives its parsed results whatever the exit code; anything else gives [] |
| StaticTools.SecurityFindings | apps/api/app/services/static_analysis_service.py:89-120 | Slither's findings come first and Semgrep's last; a finding is included exactly when Slither, Semgrep or (when installed) Mythril produced it, and the count is the sum of the tools' counts |
| StaticTools.SecurityFindingsWellFormed | apps/api/app/services/static_analysis_service.py:89-120 | every combined finding names a tool, a known severity and category, a confidence in (0, 1], and no source tag |
| StaticTools.AllWellFormedConcat | apps/api/app/services/static_analysis_service.py:114-115 | concatenating well-formed lists keeps them well formed |
| StaticTools.SlitherFindingsWellFormed | apps/api/app/services/static_analysis_service.py:122-162 | every Slither finding is well formed |
| StaticTools.MythrilFindingsWellFormed | apps/api/app/services/static_analysis_service.py:164-205 | every Mythril finding is well formed |
| StaticTools.SemgrepFindingsWellFormed | apps/api/app/services/static_analysis_service.py:207-248 | every Semgrep finding is well formed |
| StaticTools.AnalyzeStatic | apps/api/app/services/static_analysis_service.py:26-120 | a security section exists exactly when "security" is among the types (security and gas by default), there is never a risk section, the findings are the combined tool findings, and the section lists slither, mythril and semgrep as the tools used |
| StaticTools.MythrilListedWhenAbsent | apps/api/app/services/static_analysis_service.py:95-120 | without Mythril installed the section still lists mythril among the tools used, while its findings are only Slither's and Semgrep's |
| StaticTools.StaticContributesFindingsOnly | apps/api/app/services/static_analysis_service.py:250-303 | static analysis yields no risks, gas optimisations or compliance issues |
| StaticTools.StaticFindingsSavedAsStatic | apps/api/app/services/static_analysis_service.py:26-87 | in the comprehensive run, every saved finding whose key the static side reported has tool "static_analysis" |
| Registry.EmptyConsistent | apps/api/app/core/websocket.py:16-23 | the empty registry satisfies the invariant: no empty socket sets, and sockets and metadata agree |
| Registry.Connect | apps/api/app/core/websocket.py:42-55 | after a connect the socket is listed under its topic, its metadata records that topic, its user and the time, and no other listing is lost |
| Registry.ConnectConsistent | apps/api/app/core/websocket.py:25-73 | connecting a fresh socket keeps the invariant, since the set is created and filled in one step |
| Registry.Disconnect | apps/api/app/core/websocket.py:75-103 | the socket's metadata is gone and nothing else's; an unknown socket changes nothing |
| Registry.DisconnectUndoesConnect | apps/api/app/core/websocket.py:75-103 | disconnecting a freshly connected socket with a non-empty key restores the registry exactly, empty set deleted |
| Registry.EmptyKeyLeaks | apps/api/app/core/websocket.py:82-85 | with an empty key the key test fails, so the socket stays listed after its metadata is gone |
| Registry.DisconnectIdempotent | apps/api/app/core/websocket.py:77-103 | disconnecting twice is disconnecting once |
| Registry.EvictAll | apps/api/app/core/websocket.py:75-103 | the closed form of many disconnects: exactly the remaining sockets keep metadata, and no topic is added |
| Registry.EvictAllConsistent | apps/api/app/core/websocket.py:84-99 | evicting any set of sockets keeps the invariant, emptied sets included |
| Registry.EvictAllTwice | apps/api/app/core/websocket.py:129-130 | evicting in two rounds is evicting the union |
| Registry.EvictNothing | apps/api/app/core/websocket.py:129-130 | evicting no socket changes nothing |
| Registry.DisconnectIsEvict | apps/api/app/core/websocket.py:75-103 | on a consistent registry one disconnect is the eviction of that socket |
| Registry.DisconnectKnownIsEvict | apps/api/app/core/websocket.py:77-103 | the same for a socket with metadata |
| Registry.OtherTopicsKept | apps/api/app/core/websocket.py:80-99 | a disconnect leaves every topic other than the socket's own unchanged |
| Registry.Elements | apps/api/app/core/websocket.py:120-126 | the set of sockets an iteration visits |
| Registry.DisconnectEachIsEvictAll | apps/api/app/core/websocket.py:148-149 | disconnecting the failed sockets one at a time, in any order, is evicting them all at once |
| Registry.BroadcastAsWritten | apps/api/app/core/websocket.py:134-151 | an unknown topic sends nothing; otherwise the sockets whose send succeeded receive the message and exactly the failed ones are evicted |
| Registry.BroadcastAsWrittenRaisesIff | apps/api/app/core/websocket.py:148-151 | the final log line raises exactly when the key is non-empty and every subscriber failed |
| Registry.BroadcastAsWrittenCounterexample | apps/api/app/core/websocket.py:151 | one analysis subscriber whose send fails makes the broadcast raise |
| Registry.BroadcastTo | apps/api/app/core/websocket.py:134-149 | never raises, with the same delivery and eviction as the code |
| Registry.BroadcastToEvicts | apps/api/app/core/websocket.py:139-149 | after a broadcast the invariant holds, every failed subscriber is gone and every other socket keeps its metadata |
| Registry.BroadcastToIsLoop | apps/api/app/core/websocket.py:139-149 | the closed form equals the eviction loop, whatever order it visits the failed sockets in |
| Registry.BroadcastToAll | apps/api/app/core/websocket.py:172-196 | every listed socket, collected across all channels, is sent to once; exactly the failed ones lose their metadata |
| Registry.BroadcastToAllNoFailure | apps/api/app/core/websocket.py:172-196 | with no failing send a broadcast to all changes nothing |
| Registry.KeysOfChannel | apps/api/app/core/websocket.py:205-207 | a key is reported for a channel exactly when that topic has sockets |
| Registry.ConnectionStats | apps/api/app/core/websocket.py:198-208 | the stats list exactly the live keys of each channel, and the total counts metadata entries |
| Registry.StatsTotalCounts | apps/api/app/core/websocket.py:204 | a fresh connect adds one to the total and its disconnect takes it away again |
| Registry.HandleMessage | apps/api/app/core/websocket.py:257-291 | ping, subscribe and unsubscribe get their reply, subscriptions echo the events and the key, and every other type gets "Unknown message type: " naming it |
| Registry.SendPersonal | apps/api/app/core/websocket.py:107-113 | a delivered message changes nothing; a failed one disconnects only that socket |
| Registry.ServeFrames | apps/api/app/core/websocket.py:241-248 | one reply per frame, in order, until the first frame that is not JSON |
| Registry.ServeFramesOnlyDisconnects | apps/api/app/core/websocket.py:241-248 | serving frames either keeps the registry or disconnects only this socket |
| Registry.HandleConnection | apps/api/app/core/websocket.py:237-255 | when the session ends the socket has no metadata |
| Registry.HandleConnectionLeavesNoTrace | apps/api/app/core/websocket.py:217-235 | a whole session over a fresh socket with a non-empty key leaves the registry as it found it |
| Entities.LevelScore | apps/api/app/models/finding.py:108-112 | the score is 1 to 4 for low, medium, high, critical (the level at that position) and 0 exactly for any other string |
| Entities.LevelScorePosition | apps/api/app/models/risk.py:104-108 | each level scores its position in the low-to-critical order |
| Entities.FindingIsCritical | apps/api/app/models/finding.py:114-117 | a finding is critical exactly when its severity scores 4 |
| Entities.FindingIsHighOrCritical | apps/api/app/models/finding.py:119-122 | a finding is high or critical exactly when its severity scores 3 or more |
| Entities.FindingCriticalIsHigh | apps/api/app/models/finding.py:114-122 | a critical finding is high or critical |
| Entities.FindingToDict | apps/api/app/models/finding.py:124-143 | the dictionary carries the severity score (in 0..4) and both flags, critical implying high-or-critical |
| Entities.FindingDictColumns | apps/api/app/models/finding.py:127-130 | id, title, description and recommendation are copied unchanged |
| Entities.FindingDictClassColumns | apps/api/app/models/finding.py:131-133 | severity, category and line number are copied unchanged |
| Entities.FindingDictMoreColumns | apps/api/app/models/finding.py:134-143 | function, file, tool, confidence, metadata, contract id and creation time are copied unchanged |
| Entities.FindingDictRoundTrip | apps/api/app/models/finding.py:124-143 | reading the dictionary back gives the finding |
| Entities.FindingDictDerived | apps/api/app/models/finding.py:108-142 | the dictionary's "severity_score" is 0 exactly for a severity outside the four levels and otherwise the level's position; "is_critical" and "is_high_or_critical" are the severity tests |
| Entities.RiskIsCritical | apps/api/app/models/risk.py:110-113 | a risk is critical exactly when its level scores 4 |
| Entities.RiskIsHighOrCritical | apps/api/app/models/risk.py:115-118 | a risk is high or critical exactly when its level scores 3 or more |
| Entities.RiskCriticalIsHigh | apps/api/app/models/risk.py:110-118 | a critical risk is high or critical |
| Entities.CalculatedRiskScore | apps/api/app/models/risk.py:120-127 | a stored score is returned as it is; without one, the probability stands alone when there is no impact score or the impact score is 1, the score is 0 for an impact score of 0, and an impact score in [0, 1] gives a score between 0 and the probability |
| Entities.CalculatedRiskScoreInUnit | apps/api/app/models/risk.py:120-127 | with all inputs in [0, 1] the calculated score is in [0, 1] |
| Entities.RiskToDict | apps/api/app/models/risk.py:129-148 | the dictionary carries a numeric "risk_score" and both flags, critical implying high-or-critical |
| Entities.RiskDictRoundTrip | apps/api/app/models/risk.py:141 | reading the dictionary back gives the risk with its calculated score stored, which calculates to the same value |
| Entities.RiskDictColumns | apps/api/app/models/risk.py:132-135 | id, title, description and impact are copied unchanged |
| Entities.RiskDictClassColumns | apps/api/app/models/risk.py:136-138 | mitigation, level and category are copied unchanged |
| Entities.RiskDictMoreColumns | apps/api/app/models/risk.py:139-147 | probability and impact score are copied, "risk_score" is the calculated score, and metadata, contract id and time are copied |
| Entities.RiskDictDerived | apps/api/app/models/risk.py:104-146 | the dictionary's "risk_level_score" is 0 exactly for a level outside the four and otherwise the level's position; "is_critical" and "is_high_or_critical" are the level tests |
| Entities.CountByLevel | apps/api/app/models/contract.py:126-132 | the count succeeds exactly when every level is one of the four, then has exactly the four keys and sums to the input length; otherwise it fails naming an unknown level from the input |
| Entities.CountByLevelCounts | apps/api/app/models/contract.py:129-131 | each entry is the number of elements at that level |
| Entities.Severities | apps/api/app/models/contract.py:130-131 | the severities of the findings, in order |
| Entities.RiskLevels | apps/api/app/models/contract.py:138-139 | the levels of the risks, in order |
| Entities.FindingsCount | apps/api/app/models/contract.py:126-132 | defined exactly when every severity is a level; then four keys summing to the number of findings |
| Entities.RisksCount | apps/api/app/models/contract.py:134-140 | defined exactly when every risk level is a level; then four keys summing to the number of risks |
| Entities.CountPositiveWitness | apps/api/app/models/contract.py:145-146 | a level's count is positive exactly when some element has it |
| Entities.HasCriticalIssuesIffCounts | apps/api/app/models/contract.py:142-147 | where both counts are defined, a contract has critical issues exactly when one of them has a non-zero "critical" entry |
| Entities.HasCriticalIssues | apps/api/app/models/contract.py:142-147 | a contract has critical issues exactly when some finding has severity "critical" or some risk has level "critical" |
| Entities.CompletedAnalyses | apps/api/app/models/project.py:91-94 | never more than the contract count, and equal to it exactly when every contract is completed |
| Entities.AllCountedIffFull | apps/api/app/models/project.py:91-94 | a count equals the length exactly when every element qualifies |
| Entities.CountWitness | apps/api/app/models/project.py:100-101 | a positive count has a witness |
| Entities.CriticalFindingsWitness | apps/api/app/models/project.py:96-102 | a project with critical findings has a contract with critical issues |
| Entities.CriticalFindingsCount | apps/api/app/models/project.py:96-102 | the count is the number of critical findings among all the contracts' findings taken together; it is zero exactly when no finding of any contract has severity "critical", and positive only when some contract has critical issues |
| Entities.SumCriticalIsFlatCount | apps/api/app/models/project.py:96-102 | summing the critical counts contract by contract counts the same findings as counting the concatenation of all findings |
| Entities.NoCriticalIff | apps/api/app/models/project.py:96-102 | the per-contract sum is zero exactly when no finding of any contract is critical |
| Entities.ProjectToDict | apps/api/app/models/project.py:104-117 | exactly the listed keys; the contract count is the number of contracts, completed analyses is the completed count and at most the contract count, the critical count is the number of critical findings over all contracts, and id, name, owner, visibility and both timestamps are copied from the row |
| Entities.NewReport | apps/api/app/models/report.py:42-53 | a new report gets the "pdf" default format and the "pending" default status, so none of completed, failed and generating holds, and it has no file |
| Entities.ReportIsCompleted | apps/api/app/models/report.py:120-123 | true exactly for status "completed", so never for a new report's "pending" |
| Entities.ReportIsFailed | apps/api/app/models/report.py:125-128 | true exactly for status "failed", never for "pending" |
| Entities.ReportIsGenerating | apps/api/app/models/report.py:130-133 | true exactly for status "generating", never for "pending" |
| Entities.ReportHasFile | apps/api/app/models/report.py:135-138 | true exactly when both the file path and the file size are set |
| Entities.ReportFlagsExclusive | apps/api/app/models/report.py:120-133 | at most one of completed, failed and generating holds |
| Entities.ReportToDict | apps/api/app/models/report.py:140-162 | "has_file" is true exactly when both file path and size are present, the three flags exclude one another, and no content is exported |
| Entities.IsAnalyst | apps/api/app/models/user.py:100-103 | a user is an analyst exactly when admin or role "analyst", so admins are analysts |
| Entities.OwnsProject | apps/api/app/models/user.py:105-107 | true exactly when the project is among the user's projects |
| Entities.UserToDict | apps/api/app/models/user.py:109-121 | exactly the listed keys, no password hash, and "last_login" null exactly when there was none |
| Schemas.AddressPatternAsWritten | apps/api/app/schemas/contract.py:11 | an address accepted by the pattern, with `$` matching before a final newline, is 42 characters, or 43 ending in a newline |
| Schemas.ValidAddress | apps/api/app/schemas/contract.py:11 | an intended address is 42 characters long |
| Schemas.HexRunIff | apps/api/app/schemas/contract.py:11 | a run of n hexadecimal digits at position i exists exactly when the text is long enough and each of those characters is a hexadecimal digit |
| Schemas.ValidAddressIff | apps/api/app/schemas/contract.py:11 | an intended address is exactly "0x" followed by forty hexadecimal digits, either case, and nothing else |
| Schemas.ValidAddressLower | apps/api/app/schemas/contract.py:11 | the digit class admits both cases, so lower-casing a valid address keeps it valid |
| Schemas.AddressPatternAsWrittenIff | apps/api/app/schemas/contract.py:11 | the pattern as written accepts the intended addresses and, besides them, exactly those followed by one newline |
| Schemas.ZeroAddress | apps/api/app/schemas/contract.py:11 | the all-zero placeholder is a valid address |
| Schemas.AddressNewlineCounterexample | apps/api/app/schemas/contract.py:11 | the zero address plus a newline passes the pattern as written though it is 43 characters and no address |
| Schemas.SchemaFindingScored | apps/api/app/schemas/contract.py:53-63 | a finding the schema as written accepts has a severity score from 1 to 4 exactly when its severity is one of the four levels; a score of 0 means a level followed by a newline |
| Schemas.SchemaFindingScoredIntended | apps/api/app/schemas/contract.py:53-63 | a finding the intended schema accepts has a severity score from 1 to 4 |
| Schemas.SchemaNewlineSeverityCounterexample | apps/api/app/schemas/contract.py:56 | a finding with severity "high" and a newline passes the schema as written, scores 0, and fails the intended schema |
| Schemas.SchemaRiskScoreInUnit | apps/api/app/schemas/contract.py:84-95 | a risk the schema as written accepts has its calculated score in [0, 1], and a level score from 1 to 4 exactly when its level is one of the four; 0 means a level followed by a newline |
| Schemas.SchemaRiskScoreInUnitIntended | apps/api/app/schemas/contract.py:84-95 | a risk the intended schema accepts has its calculated score in [0, 1] and a level score from 1 to 4 |
| Schemas.SavedMergeTagOutsideSchema | apps/api/app/services/analysis_service.py:279-294 | a finding saved with the merge's "static_analysis" or "ai_analysis" tag violates the schema's tool enum, which names "slither", "semgrep" and "ai-analysis" |
| Schemas.ValidateAnalysisTypes | apps/api/app/schemas/contract.py:121-130 | the list is returned unchanged exactly when every entry is one of the four types; otherwise the message names the first unknown entry |
| Schemas.CheckFiles | apps/api/app/schemas/contract.py:166-170 | no message exactly when every name and content is non-blank after stripping; a message is the empty-name one or names a file of the input |
| Schemas.ValidateSourceFiles | apps/api/app/schemas/contract.py:161-171 | accepted files are returned unchanged, and an empty mapping gets the "At least one source file is required" message |
| Schemas.ValidateSourceFilesIff | apps/api/app/schemas/contract.py:161-171 | the files are accepted exactly when there is at least one and no name or content is whitespace only |
| Schemas.ContractNameField | apps/api/app/schemas/contract.py:156 | an absent upload name is accepted, a given one exactly when it has 1 to 255 characters; an empty name gets the at-least-1 message and a longer one the at-most-255 message |
| Schemas.ValidatePassword | apps/api/app/schemas/auth.py:20-31 | a password passes exactly when it has at least 8 characters, an upper-case letter, a lower-case letter and a digit; it is returned unchanged, and a rejection carries one of the four messages |
| Schemas.ValidatePasswordFirstFailure | apps/api/app/schemas/auth.py:23-30 | each message is reported exactly when its check is the first to fail, in the order length, upper, lower, digit |
| Schemas.PasswordField | apps/api/app/schemas/auth.py:17 | through the field, a password passes exactly when it has 8 to 128 characters and the three character classes |
| Schemas.PasswordFieldShadowsLengthCheck | apps/api/app/schemas/auth.py:17 | the field's own minimum-length message replaces the validator's, which is never reported for a short password |
| Schemas.RoleField | apps/api/app/schemas/auth.py:18 | as written the role defaults to "user"; a given role is accepted, and kept, exactly when it is user, admin or analyst, possibly followed by one newline |
| Schemas.RoleFieldUnder | apps/api/app/schemas/auth.py:18 | under either reading of the pattern: absent gives "user", a matching role is kept, anything else gets the pattern message |
| Schemas.RoleFieldIntended | apps/api/app/schemas/auth.py:18 | as intended the stored role is always user, admin or analyst, and a given role is accepted exactly when it is one of them |
| Schemas.RoleNewlineCounterexample | apps/api/app/schemas/auth.py:18 | "admin" and a newline passes the role field as written and is stored unchanged though it is no role; the intended field rejects it |
| Config.ValidateDatabaseUrl | apps/api/app/core/config.py:76-81 | a URL is accepted, unchanged, exactly when it is non-empty; otherwise "DATABASE_URL is required" |
| Config.ValidateSecretKey | apps/api/app/core/config.py:83-88 | a key is accepted, unchanged, exactly when it has at least 32 characters; otherwise the too-short message |
| Config.SplitOrigins | apps/api/app/core/config.py:93-94 | origin text gives one more piece than it has commas, none with whitespace at either end |
| Config.ValidateAllowedOrigins | apps/api/app/core/config.py:90-95 | on the value the environment decoded to: a JSON string becomes a list of one more stripped origin than it has commas, and any other value passes unchanged |
| Config.StripTrimmed | apps/api/app/core/config.py:94 | a stripped string has no whitespace at either end |
| Config.StripNoSpace | apps/api/app/core/config.py:94 | stripping a string without whitespace leaves it unchanged |
| Config.SplitChars | apps/api/app/core/config.py:94 | every character of a comma-separated piece comes from the split text |
| Config.OriginsRoundTrip | apps/api/app/core/config.py:90-95 | for text without whitespace the origins are the comma-separated pieces, and joining them with commas gives the text back |
| Config.OriginsIdempotent | apps/api/app/core/config.py:90-95 | validating the parsed list again changes nothing |
| Config.ItemsError | apps/api/app/core/config.py:30 | a list passes the `str` item check exactly when all its items are strings, numbers or booleans; otherwise the message is that of a failing item, "none is not an allowed value" for null |
| Config.OriginsField | apps/api/app/core/config.py:30 | the `List[str]` type of ALLOWED_ORIGINS accepts exactly a list of text-like items and keeps one origin per item, strings as they are; null is refused as "none is not an allowed value", any other non-list as "value is not a valid list" |
| Config.OriginsTextField | apps/api/app/core/config.py:30-95 | origin text that reaches the validator as a JSON string passes the field as its stripped comma-separated pieces |
| Config.ValidateEtherscanKeys | apps/api/app/core/config.py:97-107 | text becomes its JSON value, or {} when it does not decode; another value is kept unless falsy, and becomes {} exactly when falsy |
| Config.EtherscanKeysIdempotent | apps/api/app/core/config.py:97-107 | for a value that is not text, validating twice is validating once |
| Config.EtherscanKeysField | apps/api/app/core/config.py:48 | the `Dict[str, str]` check accepts exactly an object of text-like values, an empty list or an empty string; an object keeps its keys and its string values, anything else accepted is {}; a rejected object reports the null message exactly when one of its values is null and the string-type message otherwise, and any other rejected value gets the dict message |
| Config.EtherscanKeysFieldRoundTrip | apps/api/app/core/config.py:48 | an object of strings passes the field, and rendering the resulting map back gives the object |
| Config.EtherscanKeysListRejected | apps/api/app/core/config.py:97-107 | a JSON list holding one key that is not two characters long survives the pre-validator and is then rejected by the field type |
| Config.DecodeComplex | apps/api/app/core/config.py:30-48 | a `List` or `Dict` setting that is set must decode as JSON, and otherwise fails with "error parsing env var" and its name; an unset one is left to its default |
| Config.RequiredText | apps/api/app/core/config.py:24-34 | a missing required setting is reported as "field required" without running its validator; a set one gets its validator's verdict |
| Config.LoadSettings | apps/api/app/core/config.py:23-107 | loading stops with "error parsing env var" exactly when a set ALLOWED_ORIGINS or ETHERSCAN_API_KEYS is not JSON, naming the first such; otherwise it succeeds exactly when both required settings are present and valid and the set origins and keys pass their validators and field types; URL and key are kept, absent origins and keys take their defaults; a failure reports one to four messages in field order, SECRET_KEY's message first when that setting is missing or short, and a missing DATABASE_URL always among them as "field required" |
| Config.CommaOriginsRejected | apps/api/app/core/config.py:90-95 | comma-separated origin text that is not JSON stops loading with the parsing error, before the validator that would split it runs |
| Config.MissingSettings | apps/api/app/core/config.py:121-128 | a setting is named exactly when it is empty, DATABASE_URL before SECRET_KEY |
| Config.ValidateSettings | apps/api/app/core/config.py:118-131 | the check passes exactly when both required settings are non-empty, otherwise the message joins the missing names with ", " |
| Config.LoadedSettingsComplete | apps/api/app/core/config.py:118-131 | settings that loaded always pass the required-settings check |
| Access.CanAccessProject | apps/api/app/services/project_service.py:407-433 | admins, the owner, and anyone for a public project may view it, and nobody else |
| Access.CanModifyProject | apps/api/app/services/project_service.py:435-457 | admins and the owner may change a project, and nobody else, public or not |
| Access.CanAccessContract | apps/api/app/services/contract_service.py:289-296 | a contract is accessible exactly to admins and the owner of its project |
| Access.ModifyImpliesAccess | apps/api/app/services/project_service.py:407-457 | whoever may modify a project may access it, and access without modification rights happens exactly for a public project of someone else seen by a non-admin |
| Access.ContractAccessIsProjectModify | apps/api/app/services/contract_service.py:289-296 | contract access is granted exactly to those who may modify the owning project |
| Access.PublicProjectHidesContracts | apps/api/app/services/contract_service.py:289-296 | a stranger can read a public project yet none of its contracts |
| Access.CheckPermissions | apps/api/app/services/auth_service.py:183-200 | a passed check implies an active user, the required admin or analyst role, and ownership of a given project |
| Access.CheckPermissionsIff | apps/api/app/services/auth_service.py:183-200 | the check passes exactly when the user is active, holds a required admin or analyst role, and owns a given project |
| Access.AdminNeedsOwnership | apps/api/app/services/auth_service.py:197-198 | an admin who may access any project through the project service still fails the permission check for a project they do not own |
| Access.AccessClaims | apps/api/app/services/auth_service.py:38-48 | the claims are the caller's plus "exp" and "type" = "access"; the expiry is now plus the given lifetime, or 30 minutes when none or zero is given; every other claim is kept |
| Access.RefreshClaims | apps/api/app/services/auth_service.py:50-56 | the claims are the caller's plus "type" = "refresh" and an expiry 7 days from now; every other claim is kept |
| Access.CurrentUser | apps/api/app/dependencies.py:26-100 | a user is returned only for an access token whose subject looks up to an active user; no token, a wrong type, no subject, an unknown user and an inactive user each fail with 401 |
| Access.RefreshTokenRejected | apps/api/app/dependencies.py:55-61 | a refresh token is always refused with "Invalid token type" |
| Access.AccessTokenAccepted | apps/api/app/dependencies.py:45-89 | an access token issued for an active user's id authenticates exactly that user |
| Access.OptionalCurrentUser | apps/api/app/dependencies.py:195-238 | no credentials give no user, and a returned user is active |
| Access.OptionalAgreesWithCurrent | apps/api/app/dependencies.py:211-238 | with credentials, the optional user exists exactly when the current user succeeds, and is that user |
| Access.OptionalUserAsWritten | apps/api/app/dependencies.py:18 | with the shared bearer scheme rejecting a missing header, an anonymous request fails with 403 "Not authenticated" before the optional body runs |
| Access.AnonymousRequestRefused | apps/api/app/dependencies.py:195-198 | the anonymous request the optional dependency is meant to admit is refused |
| Access.OptionalUser | apps/api/app/dependencies.py:211-212 | without a header there is no user and no error; with one, the optional user of its token |
| Access.OptionalUserAgrees | apps/api/app/dependencies.py:195-238 | the corrected dependency gives the same user wherever the written one answers, and the written one fails exactly for requests without a header |
| Access.ActiveUser | apps/api/app/dependencies.py:103-123 | the user passes, unchanged, exactly when active; otherwise 400 |
| Access.ActiveCheckUnreachable | apps/api/app/dependencies.py:118-123 | behind the current-user dependency the active check never fails |
| Access.VerifiedUser | apps/api/app/dependencies.py:126-146 | the user passes, unchanged, exactly when the email is verified; otherwise 403 "Email not verified" |
| Access.RequirePermissions | apps/api/app/dependencies.py:241-271 | "admin" admits exactly admins, "analyst" exactly analysts (admins included), any other requirement every user; refusals are 403 |
| Access.RequirePermissionsNested | apps/api/app/dependencies.py:241-271 | passing "admin" implies passing "analyst", which implies passing no requirement |
| Access.CheckPermissionsMatchesRequire | apps/api/app/dependencies.py:251-263 | for an active user and no project, the service check and the request dependency agree on both roles |
| Access.CreateUser | apps/api/app/services/auth_service.py:115-145 | no user exactly when the email is taken; otherwise an active, unverified user with the given role, that email, the hash of the password and no login yet |
| Access.NewUserNotVerified | apps/api/app/services/auth_service.py:128-133 | a new default user passes the active check but not the verified-user check, and is no analyst |
| Lifecycle.ContractByAddress | apps/api/app/services/contract_service.py:81-102 | a contract is found exactly when one row has that project, address and chain (none, or several rows making the single-row read raise, give `None`), and it is such a row of the table |
| Lifecycle.DefaultContractName | apps/api/app/services/contract_service.py:53 | the default name is "Contract_" followed by the first eight characters of the address, or all of a shorter one |
| Lifecycle.CreateContract | apps/api/app/services/contract_service.py:34-70 | a missing project creates nothing; an existing contract with the same key is returned and the table is unchanged; otherwise one "pending" row with that key, the source, and the given non-empty name or the default name is appended and returned |
| Lifecycle.CreateContractIdempotent | apps/api/app/services/contract_service.py:42-46 | creating the same contract again returns the first request's contract and leaves the table as the first request left it, whatever the second request carries |
| Lifecycle.UpdateContractStatus | apps/api/app/services/contract_service.py:132-155 | an existing contract gets the new status; "analyzing" stamps the start, "completed" and "failed" stamp the end and, when a start is recorded, the whole seconds in between; a row that changes gets `updated_at` set to the same instant (models/contract.py:99-104), a row that does not change is returned as it was; no other field changes and no transition is refused |
| Lifecycle.RunDuration | apps/api/app/services/contract_service.py:143-145 | a run from t0 to t1 >= t0 records both times and a non-negative duration equal to the whole seconds between them |
| Lifecycle.FinishedRunReopens | apps/api/app/services/contract_service.py:137-141 | a completed contract can be set back to "analyzing" and then keeps its earlier end time |
| Lifecycle.ContractFindingsAsWritten | apps/api/app/services/contract_service.py:247-262 | ordering by the Python property `severity_score` raises, so the lookup always answers [] |
| Lifecycle.SortedFilter | apps/api/app/services/contract_service.py:255 | the selected elements, each one that qualifies included, as a permutation of the filtered list, in descending order of the rank |
| Lifecycle.ContractFindings | apps/api/app/services/contract_service.py:239-262 | exactly the findings of the contract matching the severity and category filters (an empty filter matches all), as a permutation of the filtered table, most severe first and newest first within a severity |
| Lifecycle.ContractFindingsCounterexample | apps/api/app/services/contract_service.py:255 | for a table holding one finding of the contract, the intended lookup returns it while the lookup as written returns nothing |
| Lifecycle.ContractRisksAsWritten | apps/api/app/services/contract_service.py:272-287 | ordering by the Python property `risk_level_score` raises, so the lookup always answers [] |
| Lifecycle.ContractRisks | apps/api/app/services/contract_service.py:264-287 | exactly the risks of the contract matching the level and category filters, as a permutation of the filtered table, highest level first and newest first within a level |
| Lifecycle.ContractRisksCounterexample | apps/api/app/services/contract_service.py:280 | for a table holding one risk of the contract, the intended lookup returns it while the lookup as written returns nothing |
| Lifecycle.CreateProject | apps/api/app/services/project_service.py:41-68 | no project exactly when the user is unknown; otherwise a private project of that user with no contracts |
| Lifecycle.NewProjectPrivate | apps/api/app/services/project_service.py:50-56 | a new project can be accessed exactly by its owner and admins |
| Lifecycle.UpdateProject | apps/api/app/services/project_service.py:138-163 | an existing project takes each given field, keeps each absent one, gets the new update time, and nothing else changes |
| Lifecycle.UpdateProjectIdempotent | apps/api/app/services/project_service.py:145-154 | repeating an update changes nothing more, and an update with no fields only stamps the time |
| Lifecycle.ShareProject | apps/api/app/services/project_service.py:211-244 | sharing succeeds exactly when the project and the target user exist, and then only makes the project public and stamps the time; the permission level is not stored |
| Lifecycle.ShareOpensToEveryone | apps/api/app/services/project_service.py:226-230 | after sharing, every user can read the project, and who may modify it is unchanged |
| Lifecycle.ContractActivities | apps/api/app/services/project_service.py:371-395 | each contract contributes its addition at its creation time, and a completion at its end time exactly when its analysis is completed with an end time |
| Lifecycle.Activities | apps/api/app/services/project_service.py:371-395 | there is one entry per contract plus one per completed analysis with an end time, and every entry names one of the contracts |
| Lifecycle.ActivitiesMembers | apps/api/app/services/project_service.py:371-395 | every entry a contract contributes is among the activities |
| Lifecycle.RecentActivity | apps/api/app/services/project_service.py:362-405 | at most limit entries, newest first, drawn from the entries of the newest limit contracts, and all of them when they number at most limit |
| Lifecycle.RecentActivityNewest | apps/api/app/services/project_service.py:399-401 | the list has limit entries, or all of them when fewer, and every entry it drops is no newer than the last one it keeps |
| Lifecycle.NewestFirst | apps/api/app/services/project_service.py:399-401 | sorting newest first and cutting at limit keeps at most limit entries, in descending order, drawn from the input, and all of them when they fit |
| Lifecycle.NewestActivities | apps/api/app/services/project_service.py:399-401 | for a positive limit, or no entries, the cut keeps limit entries or all, and drops only entries no newer than the last kept |
| Lifecycle.AllActivitiesKept | apps/api/app/services/project_service.py:399-401 | when the entries fit the limit, none is dropped |
| Lifecycle.OlderActivitiesDropped | apps/api/app/services/project_service.py:399-401 | when they do not, exactly limit are kept and every dropped entry is no newer than the last kept |
| Endpoints.TargetProject | apps/api/app/api/v1/contracts_enhanced.py:45-56 | the analysis goes into the user's first project, or the newly created one when the user has none |
| Endpoints.TaskTypes | apps/api/app/api/v1/contracts_enhanced.py:98 | a task always runs at least one type: the requested ones, or all four when none are named |
| Endpoints.StartAnalysis | apps/api/app/api/v1/contracts_enhanced.py:58-109 | the answer is "analyzing" exactly when the contract is found in that status, and then nothing is scheduled or stored; otherwise the answer is "pending" and exactly one task runs on a contract with the request's key and id |
| Endpoints.Analyze | apps/api/app/api/v1/contracts_enhanced.py:42-115 | the request fails with 500 exactly when there is no project to use; otherwise the answer is "analyzing" with nothing scheduled, or "pending" with one task on the answered contract for the requested types |
| Endpoints.AnalyzeGuardIff | apps/api/app/api/v1/contracts_enhanced.py:63-70 | the endpoint answers "analyzing" exactly for a contract found in that status, and otherwise schedules one task |
| Endpoints.PendingContractScheduledTwice | apps/api/app/api/v1/contracts_enhanced.py:63-101 | two requests for a pending contract both schedule the same run and neither changes the table |
| Endpoints.CombinedSourceAppend | apps/api/app/api/v1/contracts_enhanced.py:142-146 | the combined source of two file lists is the concatenation of their combined sources |
| Endpoints.CombinedSourceBlock | apps/api/app/api/v1/contracts_enhanced.py:144-145 | each file's block stands in the combined source between the blocks of the files before and after it |
| Endpoints.CombinedSourceLength | apps/api/app/api/v1/contracts_enhanced.py:142-146 | the combined source is every name and content plus twelve framing characters per file, so nothing is dropped |
| Endpoints.Names | apps/api/app/api/v1/contracts_enhanced.py:146 | the file names, in the order of the files |
| Endpoints.Upload | apps/api/app/api/v1/contracts_enhanced.py:119-190 | the upload succeeds exactly when the requested name is absent or has 1 to 255 characters, the files validate and the project exists and is accessible; an empty name is refused with 422 and the at-least-1 message, a name over 255 characters with 422 and the at-most-255 message; a refusal schedules and stores nothing; a success reports every file, "analyzing", and one task for all four types on the answered contract |
| Endpoints.FirstUploadStoresSource | apps/api/app/api/v1/contracts_enhanced.py:149-158 | the first upload into a project stores the combined source under a new contract |
| Endpoints.LaterUploadReusesContract | apps/api/app/api/v1/contracts_enhanced.py:152-153 | all uploads into a project share the placeholder address, so a later upload gets the first upload's contract and source back and its own files are not stored |
| Endpoints.Progress | apps/api/app/api/v1/contracts_enhanced.py:220-229 | progress is 0, 50 or 100; 100 exactly for "completed" and 50 exactly for "analyzing" |
| Endpoints.AccessibleContract | apps/api/app/api/v1/contracts_enhanced.py:206-218 | the contract is served exactly when it exists and the user may access it; a missing one is 404 |
| Endpoints.EstimatedRemainingAsWritten | apps/api/app/api/v1/contracts_enhanced.py:233-234 | the estimate fails exactly for an analyzing contract with a start time, since the date module is never imported (lines 4-6), and is 0 otherwise |
| Endpoints.StatusAsWritten | apps/api/app/api/v1/contracts_enhanced.py:205-261 | a status answer as written always estimates 0, and for an accessible contract it fails with 500 only when the contract is analyzing |
| Endpoints.EstimatedRemaining | apps/api/app/api/v1/contracts_enhanced.py:231-236 | the intended estimate is 300 seconds less the elapsed time, never negative, for an analyzing contract with a start time, and 0 otherwise; it never exceeds 300 once started |
| Endpoints.EstimatedRemainingMonotone | apps/api/app/api/v1/contracts_enhanced.py:231-236 | the estimate never grows as time passes |
| Endpoints.Status | apps/api/app/api/v1/contracts_enhanced.py:205-253 | the status is served exactly for an existing, accessible contract, with its status, its progress and the intended estimate |
| Endpoints.StatusCounterexample | apps/api/app/api/v1/contracts_enhanced.py:257-260 | a contract analyzing for 100 seconds gets a 500 as written, but 200 seconds remaining as intended |
| Endpoints.StatusAgrees | apps/api/app/api/v1/contracts_enhanced.py:205-261 | wherever the written status answers, it answers as the intended one does |
| Endpoints.ResultsGate | apps/api/app/api/v1/contracts_enhanced.py:278-297 | results are reached exactly for an existing, accessible, completed contract; any other status of an accessible contract gets 400 naming it |
| Endpoints.ResultsIffFullProgress | apps/api/app/api/v1/contracts_enhanced.py:293-297 | results are served exactly when the shown progress is 100 |
| Endpoints.FilterByTool | apps/api/app/api/v1/contracts_enhanced.py:356-357 | with a tool given, exactly the findings of that tool in their order; otherwise all of them |
| Endpoints.FilterKeepsSorted | apps/api/app/api/v1/contracts_enhanced.py:356-357 | filtering keeps a descending order |
| Endpoints.SecurityFindings | apps/api/app/api/v1/contracts_enhanced.py:335-368 | with the intended findings lookup: the findings are served exactly for an existing, accessible contract; they are exactly the contract's findings that match the severity, category and tool filters, most severe first, and the total count is their number |
| Endpoints.SecurityFindingsAsWritten | apps/api/app/api/v1/contracts_enhanced.py:350-368 | as written, with the findings lookup that always answers []: an existing, accessible contract gets an empty list and a total count of 0 |
| Seqs.FirstWinsSpec | apps/api/app/services/analysis_service.py:319-333 | first-wins deduplication keeps an order-preserving selection of the input with no repeated key, every key of the input, and for each key its first element |
| Seqs.FirstWinsIdempotent | apps/api/app/services/analysis_service.py:319-333 | deduplicating twice is deduplicating once |
| Seqs.DedupFirstWins | apps/api/app/services/analysis_service.py:319-333 | the seen-set loop returns the first-wins selection, which has unique keys and is a subsequence of the input |
| Seqs.SortDescSpec | apps/api/app/services/project_service.py:400 | the descending sort returns a permutation of its input in descending order |
| Seqs.SliceTo | apps/api/app/services/project_service.py:401 | a Python slice `xs[:n]` is a prefix of at most n elements, all of them when there are fewer |
| Numbers.Trunc | apps/api/app/services/contract_service.py:145 | `int()` of a real truncates toward zero: the result is within one of the input, on the side of zero |
| Text.Lower | apps/api/app/services/analysis_service.py:324 | lower-casing keeps the length and maps each character on its own |
| Text.AfterLastIsSuffix | apps/api/app/services/static_analysis_service.py:364 | the text after the last separator is a suffix without separators, preceded by a separator when shorter than the whole |
| Text.AfterLastWithoutSep | apps/api/app/services/static_analysis_service.py:364 | text without a separator is its own last piece |
| Text.SplitCount | apps/api/app/core/config.py:94 | splitting gives one more piece than there are separators |
| Text.JoinSplit | apps/api/app/core/config.py:94 | joining the pieces of a split with the separator gives the text back |
| Text.NatToStringRoundTrip | apps/api/app/services/analysis_service.py:425-446 | a count rendered in decimal has no leading zero and reads back as the count |

## Left out

- Running the tools: subprocesses, temporary files, `asyncio.wait_for` timeouts and the `myth --version` probe. Each tool's output is a parsed value or a failure.
- The OpenAI and Anthropic clients and the prompt templates. Each call's outcome comes from `Ai.Oracle`, indexed by provider, the type's place in the list, the type and the attempt; a successful outcome is already decoded (`json.loads`) into an `Ai.Reply`: unparsable text, an object, or another JSON value. A sleep is recorded as its length in seconds.
- Concurrency: `asyncio.gather` is a list of outcomes in task order. The interleaving of concurrent runs and background tasks is not modelled.
- WebSocket I/O (`accept`, `send_text`, `receive_text`): each send is a success-or-failure oracle, and the clock is a parameter.
- Sockets are identified by value. Python set iteration order in a broadcast is arbitrary, so eviction is stated for every removal order rather than for one.
- Database work: sessions, commits, rollbacks and refreshes, and the errors they raise. The raw SQL of `get_analysis_results`, `get_project_stats`, `get_project_contracts` and `core/database.py` are out too. A table is a sequence of rows. A commit that raises is modelled only in the comprehensive run, as its save step (`Analysis.Step`, `SaveResults`); elsewhere a commit always succeeds.
- Token signing and verification (JWT) and password hashing (bcrypt): a verified token is its claims dictionary, a token that fails verification is `None`, and the hasher is a function parameter.
- Logging, application start-up (`main.py`), router wiring, and the thin routers that only delegate to services.
- `api/v1/websocket.py` is not part of this model: it depends on a WebSocket manager that is not part of this model either.
- Floating point: scores, probabilities and times are `real`, so IEEE-754 rounding is absent. The AI progress `int(i / total * 100)` is the exact floor of `100 * i / total`, and floating point can give one less.
- Timestamps are `real` seconds. Recent activity is sorted by that number, where the code sorts ISO-8601 strings; the two orders agree for timestamps in the same format.
- String methods (`lower`, `upper`, `isupper`, `islower`, `isdigit`, `strip`) act on ASCII only.
- A JSON `null` and a missing key are both `None` in the payload records.
- Columns that no modelled operation reads are not modelled: project settings, ABI, bytecode, report content.
- The per-step notices of the AI service are not merged into the notices of the comprehensive run. The comprehensive run's own notices are modelled, and so are the AI service's.
- Which progress notice raises is a parameter: `Ai.NoticeRaise` for the AI service, `Analysis.TaskRaises` for the two tasks' notices, and `Analysis.Step` for the run's own. The broadcast goes out before the manager raises (core/websocket.py:151), so a raising notice is still listed among the notices sent. A raising failure notice is not modelled, since the handler re-raises in any case.
- The failure handlers read the clock a second time, and the `onupdate` stamp of `updated_at` reads it once more. The model takes all of these as the run's end instant (`completedAt`).
- Ai.MergeSecurityFindings: the elements of an object reply's "findings" list are taken to be objects. A non-object element would raise at the "source" assignment, and the model does not promise that.
- The three copies of the password validator in `schemas/auth.py` are identical, so one function models all three.
- Entities.CalculatedRiskScore: for an unset stored score with an impact score strictly between 0 and 1, the contract gives only the bounds 0 and the probability, not the product itself, because stating the product would repeat the body.
- Config.EtherscanKeysField: pydantic falls back to `dict()` on a value that is not a dictionary, so a non-empty list of key-value pairs (or of two-character strings) passes the field in the code. The model rejects every non-empty list, because `dict()` on arbitrary sequences is not modelled.
- Config.EtherscanKeysField: pydantic reports one message per failing dictionary value; the model reports one, the null message when some value is null and the string-type message otherwise.
- Config.LoadSettings: inherits that gap for non-empty lists of pairs in ETHERSCAN_API_KEYS. It also reports one message per failing field, where pydantic reports one per failing list item or dictionary value, so its messages are a selection of pydantic's.
- The validation messages are those of pydantic 1.10 ("field required", "value is not a valid list", "value is not a valid dict", "str type expected", "none is not an allowed value", `error parsing env var "NAME"`).
- Only the settings that a modelled operation reads are loaded: DATABASE_URL, SECRET_KEY, ALLOWED_ORIGINS and ETHERSCAN_API_KEYS. The other `List` and `Dict` settings (ALLOWED_HOSTS, BLOCKSCOUT_API_URLS, ALLOWED_FILE_TYPES) and the typed scalar settings are not modelled. A malformed value in any of them would also stop loading.
- Endpoints.Upload: pydantic reports every failing field of the request at once; the model reports the first, the name before the files.
- StaticTools.AnalyzeStatic: the `tools_used` list of the gas section ("slither", or empty when the gas run raises) is not modelled, since running the gas tool is not.
- Schemas.ValidateSourceFiles: `min_items=1` on the `source_files` dictionary (schemas/contract.py:157) is not modelled. pydantic 1.x applies `min_items` only to sequence and set types, and it refuses a field whose constraints it cannot enforce when the class is defined. The model follows the validator, so an empty mapping gets "At least one source file is required", a message that may never be reached.
- The static parsers put each tool's raw output under "metadata"; the finding payloads do not carry it, so the merge and the saved rows see none of it.
- Endpoints.SecurityFindings: models the endpoint over the intended findings lookup. Over the lookup as written the endpoint always answers an empty list, which `Endpoints.SecurityFindingsAsWritten` states.
- Endpoints.Analyze: a failing contract creation (the 400 wrapped into a 500) cannot happen in the model, because creation in an existing project always succeeds once database errors are left out.

## Findings

| source | as written | input that shows it | evidently intended | confidence | as-written member | corrected member |
|---|---|---|---|---|---|---|
| apps/api/app/core/websocket.py:151 | after evicting failed sockets, the closing log line indexes the channel again, though eviction deleted it once it was empty | an analysis channel whose only socket fails its send | report the number of sockets left, zero for a deleted channel | not executed | Registry.BroadcastAsWrittenCounterexample | Registry.BroadcastTo |
| apps/api/app/schemas/contract.py:11 | the pattern ends in `$`, which also matches before a final newline | "0x" + forty zeros + "\n" | exactly "0x" and forty hexadecimal digits | not executed | Schemas.AddressNewlineCounterexample | Schemas.ValidAddress |
| apps/api/app/services/contract_service.py:255 | the findings query orders by `severity_score`, a Python property and no column, so building the query raises and the handler answers [] | one stored finding of the contract | the findings, most severe first | not executed | Lifecycle.ContractFindingsCounterexample | Lifecycle.ContractFindings |
| apps/api/app/services/contract_service.py:280 | the risks query orders by the property `risk_level_score` in the same way | one stored risk of the contract | the risks, highest level first | not executed | Lifecycle.ContractRisksCounterexample | Lifecycle.ContractRisks |
| apps/api/app/dependencies.py:18 | the shared bearer scheme rejects a request without credentials, also for the optional-user dependency | a request with no Authorization header to an endpoint using the optional user | no user, and no error | not executed | Access.AnonymousRequestRefused | Access.OptionalUser |
| apps/api/app/schemas/contract.py:56 | the severity, category and tool enums end in `$`, which also matches before a final newline | a finding with severity "high" and a newline | exactly one of the four levels, so every accepted finding has a severity score from 1 to 4 | not executed | Schemas.SchemaNewlineSeverityCounterexample | Schemas.SchemaFindingScoredIntended |
| apps/api/app/schemas/auth.py:18 | the role pattern ends in `$` in the same way | a new user with role "admin" and a newline | exactly user, admin or analyst | not executed | Schemas.RoleNewlineCounterexample | Schemas.RoleFieldIntended |
| apps/api/app/api/v1/contracts_enhanced.py:234 | the elapsed time uses `datetime`, which the file never imports | an analyzing contract started 100 seconds ago | 200 seconds remaining | not executed | Endpoints.StatusCounterexample | Endpoints.Status |

=== FILE: access.dfy ===
/** Access control: the project and contract access rules of the services, the permission
    check and token claims of the authentication service, and the request dependencies that
    turn a bearer token into the current user. Signing and verifying tokens is not modelled:
    a verified token is its claims dictionary, and a token that fails verification is
    `None`. Looking a user up is a parameter; a lookup error counts as "not found", as the
    lookup itself catches its errors. */
module Access {
  import opened Wrappers
  import opened Json
  import E = Entities
  import C = Config

  // ---------------------------------------------------------------------------
  // Projects and contracts

  /** `can_user_access_project`: admins, the owner, and anyone for a public project; no
      sharing is checked, so nobody else. */
  function CanAccessProject(u: E.User, p: E.Project): (b: bool)
    ensures E.IsAdmin(u) ==> b
    ensures p.userId == u.id ==> b
    ensures p.isPublic ==> b
    ensures b ==> E.IsAdmin(u) || p.userId == u.id || p.isPublic
  {
    if E.IsAdmin(u) then true
    else if p.userId == u.id then true
    else p.isPublic
  }

  /** `can_user_modify_project`: admins and the owner only; a public project gives nobody
      else the right. */
  function CanModifyProject(u: E.User, p: E.Project): (b: bool)
    ensures E.IsAdmin(u) ==> b
    ensures p.userId == u.id ==> b
    ensures b ==> E.IsAdmin(u) || p.userId == u.id
  {
    if E.IsAdmin(u) then true
    else p.userId == u.id
  }

  /** `can_user_access_contract`: admins and the owner of the contract's project; being
      public gives no access to a project's contracts. */
  function CanAccessContract(u: E.User, projectOwner: string): (b: bool)
    ensures E.IsAdmin(u) ==> b
    ensures b <==> E.IsAdmin(u) || projectOwner == u.id
  {
    if E.IsAdmin(u) then true
    else projectOwner == u.id
  }

  /** Whoever may modify a project may access it; public visibility adds access but never
      the right to modify. */
  lemma ModifyImpliesAccess(u: E.User, p: E.Project)
    ensures CanModifyProject(u, p) ==> CanAccessProject(u, p)
    ensures CanAccessProject(u, p) && !CanModifyProject(u, p) <==>
      p.isPublic && !E.IsAdmin(u) && p.userId != u.id
  {
  }

  /** Contract access is exactly the right to modify the owning project. */
  lemma ContractAccessIsProjectModify(u: E.User, p: E.Project)
    ensures CanAccessContract(u, p.userId) <==> CanModifyProject(u, p)
  {
  }

  /** A stranger can read a public project yet not its contracts. */
  lemma PublicProjectHidesContracts()
    ensures var u := E.User("u", "", "", "", "user", true, true, 0.0, 0.0, None, []);
      var p := E.Project("p", "", None, "owner", true, [], 0.0, 0.0);
      CanAccessProject(u, p) && !CanAccessContract(u, p.userId)
  {
  }

  // ---------------------------------------------------------------------------
  // The permission check of the authentication service

  /** Python truthiness of an optional string argument. */
  predicate Given(o: Option<string>) {
    o.Some? && o.value != ""
  }

  /** `check_permissions`: an inactive user fails; a required "admin" or "analyst" role must
      be held (any other role name is not checked); a given project must be one the user
      owns. */
  function CheckPermissions(u: E.User, requiredRole: Option<string>, projectId: Option<string>)
    : (b: bool)
    ensures b ==> u.isActive
    ensures b && requiredRole == Some("admin") ==> E.IsAdmin(u)
    ensures b && requiredRole == Some("analyst") ==> E.IsAnalyst(u)
    ensures b && Given(projectId) ==> E.OwnsProject(u, projectId.value)
  {
    if !u.isActive then false
    else if Given(requiredRole) && requiredRole.value == "admin" && !E.IsAdmin(u) then false
    else if Given(requiredRole) && requiredRole.value == "analyst" && !E.IsAnalyst(u) then false
    else if Given(projectId) && !E.OwnsProject(u, projectId.value) then false
    else true
  }

  /** The check fails exactly when one of its three conditions fails. */
  lemma CheckPermissionsIff(u: E.User, requiredRole: Option<string>, projectId: Option<string>)
    ensures CheckPermissions(u, requiredRole, projectId) <==>
      u.isActive
      && (requiredRole == Some("admin") ==> E.IsAdmin(u))
      && (requiredRole == Some("analyst") ==> E.IsAnalyst(u))
      && (Given(projectId) ==> E.OwnsProject(u, projectId.value))
  {
  }

  /** Unlike the project service, the permission check grants admins no access to projects
      they do not own. */
  lemma AdminNeedsOwnership()
    ensures var admin := E.User("a", "", "", "", "admin", true, true, 0.0, 0.0, None, []);
      var p := E.Project("p", "", None, "owner", false, [], 0.0, 0.0);
      CanAccessProject(admin, p) && !CheckPermissions(admin, None, Some(p.id))
  {
    var admin := E.User("a", "", "", "", "admin", true, true, 0.0, 0.0, None, []);
    assert !E.OwnsProject(admin, "p");
  }

  // ---------------------------------------------------------------------------
  // Token claims

  const AccessType := "access"
  const RefreshType := "refresh"

  /** `create_access_token`: a copy of the caller's claims with an expiry and the type
      "access" added; a missing or zero lifetime (in seconds) means the configured 30
      minutes. The caller's dictionary is a value here and so is never changed. */
  function AccessClaims(data: Dict, now: real, lifetime: Option<real>): (d: Dict)
    ensures d.Keys == data.Keys + {"exp", "type"}
    ensures d["type"] == JStr(AccessType)
    ensures lifetime.Some? && lifetime.value != 0.0 ==> d["exp"] == JNum(now + lifetime.value)
    ensures lifetime.None? || lifetime.value == 0.0 ==>
      d["exp"] == JNum(now + (C.DefaultAccessTokenExpireMinutes * 60) as real)
    ensures forall k :: k in data && k != "exp" && k != "type" ==> d[k] == data[k]
  {
    var expire := if lifetime.Some? && lifetime.value != 0.0 then now + lifetime.value
                  else now + (C.DefaultAccessTokenExpireMinutes * 60) as real;
    data["exp" := JNum(expire)]["type" := JStr(AccessType)]
  }

  /** `create_refresh_token`: the same with the type "refresh" and a lifetime of 7 days. */
  function RefreshClaims(data: Dict, now: real): (d: Dict)
    ensures d.Keys == data.Keys + {"exp", "type"}
    ensures d["type"] == JStr(RefreshType)
    ensures d["exp"] == JNum(now + (C.DefaultRefreshTokenExpireDays * 24 * 60 * 60) as real)
    ensures forall k :: k in data && k != "exp" && k != "type" ==> d[k] == data[k]
  {
    data["exp" := JNum(now + (C.DefaultRefreshTokenExpireDays * 24 * 60 * 60) as real)]
        ["type" := JStr(RefreshType)]
  }

  // ---------------------------------------------------------------------------
  // The current user

  /** An HTTP error: status code and detail. */
  datatype HttpError = HttpError(status: nat, detail: string)

  const CouldNotValidate := HttpError(401, "Could not validate credentials")
  const InvalidTokenType := HttpError(401, "Invalid token type")
  const InvalidPayload := HttpError(401, "Invalid token payload")
  const UserNotFound := HttpError(401, "User not found")
  const InactiveUser := HttpError(401, "Inactive user")

  /** Finds the user a token's subject names. */
  type Lookup = Json -> Option<E.User>

  /** `payload.get("sub")` is `None`: the claim is absent or null. */
  predicate NoSubject(payload: Dict) {
    "sub" !in payload || payload["sub"] == JNull
  }

  /** `get_current_user`: the checks run in the order token, token type, subject, user,
      active flag, each failing with its own 401. */
  function CurrentUser(payload: Option<Dict>, lookup: Lookup): (r: Result<E.User, HttpError>)
    ensures r.Success? ==> r.value.isActive
    ensures r.Success? ==> payload.Some? && GetAny(payload.value, "type") == Some(JStr(AccessType))
    ensures r.Success? ==> !NoSubject(payload.value) && lookup(payload.value["sub"]) == Some(r.value)
    ensures payload.None? ==> r == Failure(CouldNotValidate)
    ensures payload.Some? && GetAny(payload.value, "type") != Some(JStr(AccessType)) ==>
      r == Failure(InvalidTokenType)
    ensures r.Failure? ==> r.error.status == 401
  {
    if payload.None? then Failure(CouldNotValidate)
    else
      var d := payload.value;
      if GetAny(d, "type") != Some(JStr(AccessType)) then Failure(InvalidTokenType)
      else if NoSubject(d) then Failure(InvalidPayload)
      else
        match lookup(d["sub"])
        case None => Failure(UserNotFound)
        case Some(u) => if !u.isActive then Failure(InactiveUser) else Success(u)
  }

  /** A refresh token is never accepted as the current user, whatever claims it carries. */
  lemma RefreshTokenRejected(data: Dict, now: real, lookup: Lookup)
    ensures CurrentUser(Some(RefreshClaims(data, now)), lookup) == Failure(InvalidTokenType)
  {
  }

  /** An access token issued for an active user's id authenticates that user. */
  lemma AccessTokenAccepted(data: Dict, now: real, lifetime: Option<real>, lookup: Lookup, u: E.User)
    requires "sub" in data && data["sub"] != JNull && lookup(data["sub"]) == Some(u) && u.isActive
    ensures CurrentUser(Some(AccessClaims(data, now, lifetime)), lookup) == Success(u)
  {
  }

  /** `get_optional_current_user`: the same checks, with `None` in place of every error.
      `credentials` is the verified token of the request, if it presented one. */
  function OptionalCurrentUser(credentials: Option<Option<Dict>>, lookup: Lookup): (r: Option<E.User>)
    ensures credentials.None? ==> r.None?
    ensures r.Some? ==> r.value.isActive
  {
    if credentials.None? then None
    else
      match CurrentUser(credentials.value, lookup)
      case Success(u) => Some(u)
      case Failure(_) => None
  }

  /** With credentials, the optional user is the current user exactly when there is one. */
  lemma OptionalAgreesWithCurrent(payload: Option<Dict>, lookup: Lookup)
    ensures OptionalCurrentUser(Some(payload), lookup).Some? <==> CurrentUser(payload, lookup).Success?
    ensures CurrentUser(payload, lookup).Success? ==>
      OptionalCurrentUser(Some(payload), lookup) == Some(CurrentUser(payload, lookup).value)
  {
  }

  /** The credentials a request arrives with: a bearer token (verified to its claims, or
      `None` when verification fails), or no authorization header at all. */
  datatype Header = Bearer(payload: Option<Dict>) | NoHeader

  const NotAuthenticated := HttpError(403, "Not authenticated")

  /** The optional user as written: both user dependencies read the header through the same
      bearer scheme, which is built with its default of rejecting a request that has no
      header, so a request without credentials is refused with 403 before the dependency
      body runs. */
  function OptionalUserAsWritten(h: Header, lookup: Lookup): (r: Result<Option<E.User>, HttpError>)
    ensures h.NoHeader? ==> r == Failure(NotAuthenticated)
    ensures h.Bearer? ==> r == Success(OptionalCurrentUser(Some(h.payload), lookup))
  {
    match h
    case NoHeader => Failure(NotAuthenticated)
    case Bearer(p) => Success(OptionalCurrentUser(Some(p), lookup))
  }

  /** An anonymous request, which the optional dependency exists to let through, is
      refused. */
  lemma AnonymousRequestRefused(lookup: Lookup)
    ensures OptionalUserAsWritten(NoHeader, lookup).Failure?
  {
  }

  /** The optional user with a scheme that does not reject a missing header: never an
      error, and no user for an anonymous request. */
  function OptionalUser(h: Header, lookup: Lookup): (r: Option<E.User>)
    ensures h.NoHeader? ==> r.None?
    ensures h.Bearer? ==> r == OptionalCurrentUser(Some(h.payload), lookup)
  {
    match h
    case NoHeader => OptionalCurrentUser(None, lookup)
    case Bearer(p) => OptionalCurrentUser(Some(p), lookup)
  }

  /** The corrected dependency agrees with the written one wherever that one answers. */
  lemma OptionalUserAgrees(h: Header, lookup: Lookup)
    ensures OptionalUserAsWritten(h, lookup).Success? ==>
      OptionalUserAsWritten(h, lookup).value == OptionalUser(h, lookup)
    ensures OptionalUserAsWritten(h, lookup).Failure? <==> h.NoHeader?
  {
  }

  // ---------------------------------------------------------------------------
  // Role and state requirements on the current user

  /** `get_current_active_user`: 400 for an inactive user. */
  function ActiveUser(u: E.User): (r: Result<E.User, HttpError>)
    ensures r.Success? <==> u.isActive
    ensures r.Success? ==> r.value == u
  {
    if !u.isActive then Failure(HttpError(400, "Inactive user")) else Success(u)
  }

  /** Behind `get_current_user`, the active-user check never fails: inactive users were
      already refused with 401. */
  lemma ActiveCheckUnreachable(payload: Option<Dict>, lookup: Lookup)
    ensures CurrentUser(payload, lookup).Success? ==>
      ActiveUser(CurrentUser(payload, lookup).value) == CurrentUser(payload, lookup)
  {
  }

  /** `get_current_verified_user`: 403 for a user whose email is not verified. */
  function VerifiedUser(u: E.User): (r: Result<E.User, HttpError>)
    ensures r.Success? <==> u.isVerified
    ensures r.Success? ==> r.value == u
    ensures r.Failure? ==> r.error == HttpError(403, "Email not verified")
  {
    if !u.isVerified then Failure(HttpError(403, "Email not verified")) else Success(u)
  }

  /** `require_permissions(role)`: "admin" needs an admin, "analyst" an analyst or admin,
      and no role (or any other name) admits every authenticated user. */
  function RequirePermissions(requiredRole: Option<string>, u: E.User): (r: Result<E.User, HttpError>)
    ensures r.Success? ==> r.value == u
    ensures r.Failure? ==> r.error.status == 403
    ensures requiredRole == Some("admin") ==> (r.Success? <==> E.IsAdmin(u))
    ensures requiredRole == Some("analyst") ==> (r.Success? <==> E.IsAnalyst(u))
    ensures requiredRole != Some("admin") && requiredRole != Some("analyst") ==> r == Success(u)
  {
    if requiredRole == Some("admin") && !E.IsAdmin(u) then
      Failure(HttpError(403, "Admin privileges required"))
    else if requiredRole == Some("analyst") && !E.IsAnalyst(u) then
      Failure(HttpError(403, "Analyst privileges required"))
    else Success(u)
  }

  /** The role requirements are nested: whoever passes "admin" passes "analyst", and both
      pass no requirement. */
  lemma RequirePermissionsNested(u: E.User)
    ensures RequirePermissions(Some("admin"), u).Success? ==> RequirePermissions(Some("analyst"), u).Success?
    ensures RequirePermissions(Some("analyst"), u).Success? ==> RequirePermissions(None, u).Success?
  {
  }

  /** For an active user and no project, the service's permission check and the request
      dependency agree on the two roles. */
  lemma CheckPermissionsMatchesRequire(u: E.User, role: string)
    requires u.isActive && (role == "admin" || role == "analyst")
    ensures CheckPermissions(u, Some(role), None) <==> RequirePermissions(Some(role), u).Success?
  {
  }

  // ---------------------------------------------------------------------------
  // New users

  /** `create_user`: `None` when the email is taken; otherwise an active, unverified user
      with the given role (the caller's default is "user"). `hash` stands for the password
      hasher, `id` and `now` for the generated id and the clock. */
  function CreateUser(emailTaken: bool, email: string, password: string, name: string,
                      role: Option<string>, hash: string -> string, id: string, now: real)
    : (r: Option<E.User>)
    ensures r.None? <==> emailTaken
    ensures r.Some? ==> r.value.isActive && !r.value.isVerified
    ensures r.Some? ==> r.value.role == role.GetOr("user") && r.value.email == email
    ensures r.Some? ==> r.value.hashedPassword == hash(password) && r.value.lastLogin.None?
  {
    if emailTaken then None
    else Some(E.User(id, email, hash(password), name, role.GetOr("user"), true, false, now, now, None, []))
  }

  /** A new user passes the active check but is refused where a verified user is required,
      and by default holds neither elevated role. */
  lemma NewUserNotVerified(email: string, password: string, name: string, hash: string -> string,
                           id: string, now: real)
    ensures var u := CreateUser(false, email, password, name, None, hash, id, now).value;
      ActiveUser(u).Success? && VerifiedUser(u).Failure?
      && RequirePermissions(Some("analyst"), u).Failure?
  {
  }
}

=== FILE: ai.dfy ===
/** The AI analysis service: provider calls with retries, the per-type dispatch, reading
    the providers' JSON replies, and the service's own summary and risk score. The providers
    themselves are an oracle: `outcome(provider, step, analysisType, attempt)` is what the
    `attempt`-th call returns for the type at position `step` of the run's type list, so a
    type listed twice is asked afresh. */
module Ai {
  import opened Wrappers
  import opened Payloads
  import opened Seqs
  import opened Numbers
  import Text
  import E = Entities

  datatype Provider = OpenAi | Anthropic

  /** The keys the service reads from a reply that decodes to a JSON object. */
  datatype AiDoc = AiDoc(
    findings: Option<seq<FindingPayload>>,
    risks: Option<seq<RiskPayload>>,
    optimizations: Option<seq<GasOptimization>>,
    complianceIssues: Option<seq<ComplianceIssue>>)

  /** A provider reply as `json.loads` leaves it: text that is not JSON, an object, or some
      other JSON value. Of the other values a list or a string answers `"findings" in` by
      searching itself (`searchable`), and `mentionsFindings` says whether it holds
      "findings"; on a number, a boolean or null that test raises. */
  datatype Reply =
    | Unparsable
    | Object(doc: AiDoc)
    | NotObject(searchable: bool, mentionsFindings: bool)

  /** The error a reply that is not an object raises once the service reads a key from it. */
  const NotObjectError: string := "reply is not a JSON object"

  type Oracle = (Provider, nat, string, nat) -> Result<Reply, string>

  // ---------------------------------------------------------------------------
  // Retries

  const MaxRetries: nat := 3
  const RetryDelay: nat := 1

  /** One provider call: the reply, the sleeps taken between attempts, and how many attempts
      were made. */
  datatype CallTrace = CallTrace(outcome: Result<Reply, string>, sleeps: seq<nat>, attempts: nat)

  /** `_call_openai` / `_call_anthropic` from attempt `attempt` on: an exception is followed
      by a sleep of `RetryDelay * 2^attempt` and another attempt, except on the last attempt,
      where it is re-raised. */
  function CallFrom(attempt: nat, result: nat -> Result<Reply, string>): (t: CallTrace)
    requires attempt < MaxRetries
    ensures attempt < t.attempts <= MaxRetries
    ensures |t.sleeps| == t.attempts - attempt - 1
    ensures forall i :: 0 <= i < |t.sleeps| ==> t.sleeps[i] == RetryDelay * Pow2(attempt + i)
    ensures t.outcome == result(t.attempts - 1)
    ensures forall k :: attempt <= k < t.attempts - 1 ==> result(k).Failure?
    ensures t.outcome.Failure? ==> t.attempts == MaxRetries
    decreases MaxRetries - attempt
  {
    if result(attempt).Success? || attempt == MaxRetries - 1 then CallTrace(result(attempt), [], attempt + 1)
    else
      var rest := CallFrom(attempt + 1, result);
      CallTrace(rest.outcome, [RetryDelay * Pow2(attempt)] + rest.sleeps, rest.attempts)
  }

  function Call(result: nat -> Result<Reply, string>): (t: CallTrace)
    ensures 1 <= t.attempts <= MaxRetries && |t.sleeps| == t.attempts - 1
  {
    CallFrom(0, result)
  }

  /** A call succeeds exactly when one of the three attempts does, and then returns the first
      successful reply; a failing call re-raises the third attempt's error. */
  lemma CallSucceedsIffSomeAttempt(result: nat -> Result<Reply, string>)
    ensures Call(result).outcome.Success? <==> exists k :: 0 <= k < MaxRetries && result(k).Success?
    ensures Call(result).outcome.Success? ==> Call(result).outcome == result(Call(result).attempts - 1)
    ensures Call(result).outcome.Failure? ==> Call(result).outcome == result(MaxRetries - 1)
  {
    var t := Call(result);
    if t.outcome.Failure? {
      assert forall k :: 0 <= k < MaxRetries ==> result(k).Failure?;
    }
  }

  /** The sleeps are 1 and then 2 seconds: never more than 3 seconds in all. */
  lemma CallSleeps(result: nat -> Result<Reply, string>)
    ensures Call(result).sleeps <= [1, 2]
  {
    var t := Call(result);
    assert Pow2(0) == 1 && Pow2(1) == 2;
  }

  function Outcomes(outcome: Oracle, p: Provider, step: nat, analysisType: string): nat -> Result<Reply, string> {
    (k: nat) => outcome(p, step, analysisType, k)
  }

  /** One provider call for an analysis type, with its retries: the first of the three
      attempts that succeeds, or the third attempt's error. */
  function CallProvider(outcome: Oracle, p: Provider, step: nat, analysisType: string): (r: Result<Reply, string>)
    ensures r.Success? <==> exists k :: 0 <= k < MaxRetries && outcome(p, step, analysisType, k).Success?
    ensures r.Failure? ==> r == outcome(p, step, analysisType, MaxRetries - 1)
    ensures r.Success? ==> exists k :: 0 <= k < MaxRetries && r == outcome(p, step, analysisType, k)
  {
    var result := Outcomes(outcome, p, step, analysisType);
    CallSucceedsIffSomeAttempt(result);
    var t := Call(result);
    assert t.outcome == result(t.attempts - 1);
    t.outcome
  }

  // ---------------------------------------------------------------------------
  // Reading replies

  /** `_merge_security_findings`: the OpenAI findings tagged "openai", then the Anthropic
      ones tagged "anthropic"; an unparsable reply or one without findings contributes
      nothing, and a reply that is neither raises. Nothing is deduplicated. */
  function MergeSecurityFindings(openai: Reply, anthropic: Reply): (r: Result<seq<FindingPayload>, string>)
    ensures r.Success? <==> ProviderFindings(openai).Success? && ProviderFindings(anthropic).Success?
    ensures r.Failure? ==> r.error == NotObjectError
    ensures r.Success? ==>
      var a := ProviderFindings(openai).value;
      var b := ProviderFindings(anthropic).value;
      |r.value| == |a| + |b|
      && forall i :: 0 <= i < |r.value| ==>
        if i < |a| then r.value[i] == a[i].(source := Some("openai"))
        else r.value[i] == b[i - |a|].(source := Some("anthropic"))
  {
    var a :- ProviderFindings(openai);
    var b :- ProviderFindings(anthropic);
    Success(Tag(a, "openai") + Tag(b, "anthropic"))
  }

  /** One provider's side of the merge: `"findings" in data` and then `data["findings"]`. */
  function ProviderFindings(reply: Reply): (r: Result<seq<FindingPayload>, string>)
    ensures r.Failure? <==> reply.NotObject? && (!reply.searchable || reply.mentionsFindings)
    ensures r.Failure? ==> r.error == NotObjectError
    ensures reply.Object? ==> r == Success(reply.doc.findings.GetOr([]))
    ensures reply.Unparsable? || reply.NotObject? ==> r.Success? ==> r.value == []
  {
    match reply
    case Unparsable => Success([])
    case Object(doc) => Success(doc.findings.GetOr([]))
    case NotObject(searchable, mentionsFindings) =>
      if searchable && !mentionsFindings then Success([]) else Failure(NotObjectError)
  }

  function Tag(fs: seq<FindingPayload>, source: string): (r: seq<FindingPayload>)
    ensures |r| == |fs| && forall i :: 0 <= i < |fs| ==> r[i] == fs[i].(source := Some(source))
  {
    seq(|fs|, i requires 0 <= i < |fs| => fs[i].(source := Some(source)))
  }

  /** `_extract_risk_assessments`, `_extract_gas_optimizations`, `_extract_compliance_issues`:
      the list under the key, an empty list when the reply is not JSON or lacks the key, and
      a raise (no `.get`) when it decodes to anything but an object. */
  function ExtractRisks(reply: Reply): (r: Result<seq<RiskPayload>, string>)
    ensures r.Failure? <==> reply.NotObject?
    ensures r.Failure? ==> r.error == NotObjectError
    ensures reply.Unparsable? ==> r == Success([])
    ensures reply.Object? && reply.doc.risks.Some? ==> r == Success(reply.doc.risks.value)
    ensures reply.Object? && reply.doc.risks.None? ==> r == Success([])
  {
    match reply
    case Unparsable => Success([])
    case Object(doc) => Success(doc.risks.GetOr([]))
    case NotObject(_, _) => Failure(NotObjectError)
  }

  function ExtractOptimizations(reply: Reply): (r: Result<seq<GasOptimization>, string>)
    ensures r.Failure? <==> reply.NotObject?
    ensures r.Failure? ==> r.error == NotObjectError
    ensures reply.Unparsable? ==> r == Success([])
    ensures reply.Object? && reply.doc.optimizations.Some? ==> r == Success(reply.doc.optimizations.value)
    ensures reply.Object? && reply.doc.optimizations.None? ==> r == Success([])
  {
    match reply
    case Unparsable => Success([])
    case Object(doc) => Success(doc.optimizations.GetOr([]))
    case NotObject(_, _) => Failure(NotObjectError)
  }

  function ExtractComplianceIssues(reply: Reply): (r: Result<seq<ComplianceIssue>, string>)
    ensures r.Failure? <==> reply.NotObject?
    ensures r.Failure? ==> r.error == NotObjectError
    ensures reply.Unparsable? ==> r == Success([])
    ensures reply.Object? && reply.doc.complianceIssues.Some? ==> r == Success(reply.doc.complianceIssues.value)
    ensures reply.Object? && reply.doc.complianceIssues.None? ==> r == Success([])
  {
    match reply
    case Unparsable => Success([])
    case Object(doc) => Success(doc.complianceIssues.GetOr([]))
    case NotObject(_, _) => Failure(NotObjectError)
  }

  // ---------------------------------------------------------------------------
  // The per-type dispatch

  const NoResults := ToolResults(None, None, None, None)

  /** One analysis type: security asks OpenAI and then Anthropic; risk and compliance ask
      Anthropic; gas asks OpenAI; any other type does nothing. A call that exhausts its retries
      fails the step, and so does a reply the service cannot read a key from. */
  function RunSection(step: nat, analysisType: string, results: ToolResults, outcome: Oracle)
    : (r: Result<ToolResults, string>)
    ensures r.Success? && analysisType !in {"security", "risk", "gas", "compliance"} ==> r.value == results
    ensures r.Success? ==> (analysisType == "security" || r.value.security == results.security)
    ensures (analysisType in {"risk", "compliance"} && CallProvider(outcome, Anthropic, step, analysisType).Success?
             && CallProvider(outcome, Anthropic, step, analysisType).value.NotObject?) ==> r == Failure(NotObjectError)
    ensures (analysisType == "gas" && CallProvider(outcome, OpenAi, step, analysisType).Success?
             && CallProvider(outcome, OpenAi, step, analysisType).value.NotObject?) ==> r == Failure(NotObjectError)
  {
    if analysisType == "security" then
      var openai :- CallProvider(outcome, OpenAi, step, analysisType);
      var anthropic :- CallProvider(outcome, Anthropic, step, analysisType);
      var findings :- MergeSecurityFindings(openai, anthropic);
      Success(results.(security := Some(SecuritySection(Some(findings), None))))
    else if analysisType == "risk" then
      var reply :- CallProvider(outcome, Anthropic, step, analysisType);
      var risks :- ExtractRisks(reply);
      Success(results.(risk := Some(RiskSection(Some(risks)))))
    else if analysisType == "gas" then
      var reply :- CallProvider(outcome, OpenAi, step, analysisType);
      var optimizations :- ExtractOptimizations(reply);
      Success(results.(gas := Some(GasSection(Some(optimizations)))))
    else if analysisType == "compliance" then
      var reply :- CallProvider(outcome, Anthropic, step, analysisType);
      var issues :- ExtractComplianceIssues(reply);
      Success(results.(compliance := Some(ComplianceSection(Some(issues)))))
    else Success(results)
  }

  /** The loop state after some steps: the sections so far, how many types were started,
      and the error that stopped the loop, if any. */
  datatype Progressed = Progressed(results: ToolResults, steps: nat, error: Option<string>)

  function RunSections(types: seq<string>, outcome: Oracle): (p: Progressed)
    ensures p.steps <= |types|
    ensures p.error.None? ==> p.steps == |types|
    ensures p.error.Some? ==> p.steps >= 1
    decreases |types|
  {
    if |types| == 0 then Progressed(NoResults, 0, None)
    else
      var p := RunSections(types[..|types| - 1], outcome);
      if p.error.Some? then p
      else match RunSection(|types| - 1, types[|types| - 1], p.results, outcome)
        case Success(r) => Progressed(r, p.steps + 1, None)
        case Failure(e) => Progressed(p.results, p.steps + 1, Some(e))
  }

  /** A type listed twice is asked afresh: the second "security" step fails when its calls
      fail, although the first step's calls succeeded. */
  lemma RepeatedTypeCallsAgain()
    ensures var o: Oracle := (p: Provider, step: nat, t: string, k: nat) =>
              if step == 0 then Success(Object(AiDoc(None, None, None, None))) else Failure("unavailable");
      var run := RunSections(["security", "security"], o);
      run.error == Some("unavailable") && run.steps == 2
  {
  }

  /** The loop stops at the first failing type: every type before it ran to completion. */
  lemma {:induction false} RunSectionsStopsAtFirstError(types: seq<string>, outcome: Oracle)
    ensures var p := RunSections(types, outcome);
      p.error.Some? ==>
        var before := RunSections(types[..p.steps - 1], outcome);
        before.error.None?
        && RunSection(p.steps - 1, types[p.steps - 1], before.results, outcome) == Failure(p.error.value)
    decreases |types|
  {
    if |types| > 0 {
      var init := types[..|types| - 1];
      RunSectionsStopsAtFirstError(init, outcome);
      var q := RunSections(init, outcome);
      if q.error.Some? {
        assert init[..q.steps - 1] == types[..q.steps - 1];
        assert init[q.steps - 1] == types[q.steps - 1];
      } else {
        assert types[..|types| - 1] == init;
      }
    }
  }

  /** `int((i / total_steps) * 100)`, on exact reals. */
  function Progress(i: nat, total: nat): (p: int)
    requires i < total
    ensures 0 <= p < 100
  {
    var x := (i as real / total as real) * 100.0;
    assert x < 100.0 by {
      assert i as real < total as real;
      assert i as real / total as real < 1.0;
    }
    x.Floor
  }

  /** The progress reported before each type never decreases. */
  lemma ProgressMonotone(i: nat, j: nat, total: nat)
    requires i <= j < total
    ensures Progress(i, total) <= Progress(j, total)
  {
    var t := total as real;
    assert i as real / t <= j as real / t;
    assert (i as real / t) * 100.0 <= (j as real / t) * 100.0;
  }

  datatype AiRun = AiRun(contract: E.Contract, results: Option<ToolResults>, notices: seq<ProgressEvent>, raised: bool)

  function ProgressNotices(steps: nat, total: nat): (r: seq<ProgressEvent>)
    requires steps <= total
    ensures |r| == steps
    ensures forall i :: 0 <= i < steps ==> r[i] == ProgressEvent("analyzing", Progress(i, total))
  {
    if steps == 0 then [] else ProgressNotices(steps - 1, total) + [ProgressEvent("analyzing", Progress(steps - 1, total))]
  }

  const DefaultAnalysisTypes := ["security", "risk", "gas", "compliance"]

  /** The types a run performs: an empty list means all four. */
  function AnalysisTypes(types: seq<string>): (ts: seq<string>)
    ensures |ts| > 0 && (|types| > 0 ==> ts == types)
  {
    if |types| == 0 then DefaultAnalysisTypes else types
  }

  /** The notices of `analyze_contract` that can raise (a notice raises when its broadcast
      does): the start notice, the notice sent before the type at `index`, and the completion
      notice. The failure notice can raise too, but the handler re-raises in any case. */
  datatype NoticeRaise = StartRaises | TypeRaises(index: nat) | CompletionRaises

  /** Whether the loop runs every type to completion: no provider call or reply fails it and
      no notice before its end raises. */
  predicate LoopCompletes(types: seq<string>, outcome: Oracle, raisesAt: Option<NoticeRaise>) {
    RunSections(AnalysisTypes(types), outcome).error.None?
    && (raisesAt.None? || raisesAt == Some(CompletionRaises)
        || (raisesAt.value.TypeRaises? && raisesAt.value.index >= |AnalysisTypes(types)|))
  }

  /** How the loop ends: every type ran, or a raise stopped it after `sent` progress notices. */
  datatype LoopEnd = Finished(results: ToolResults) | Stopped(sent: nat)

  /** The loop of `analyze_contract` under a raising notice: it stops at the first failing
      type, or right after the raising notice of a type, or before it starts when the start
      notice raises. */
  function RunLoop(types: seq<string>, outcome: Oracle, raisesAt: Option<NoticeRaise>): (e: LoopEnd)
    ensures e.Stopped? ==> e.sent <= |AnalysisTypes(types)|
    ensures raisesAt == Some(StartRaises) ==> e == Stopped(0)
    ensures e.Finished? <==> LoopCompletes(types, outcome, raisesAt)
    ensures e.Finished? ==> e.results == RunSections(AnalysisTypes(types), outcome).results
  {
    var ts := AnalysisTypes(types);
    if raisesAt == Some(StartRaises) then Stopped(0)
    else
      var stop := if raisesAt.Some? && raisesAt.value.TypeRaises? && raisesAt.value.index < |ts|
                  then raisesAt.value.index else |ts|;
      var p := RunSections(ts[..stop], outcome);
      if p.error.Some? then
        assert stop < |ts| ==> !LoopCompletes(types, outcome, raisesAt) by {
          if stop < |ts| { RunSectionsPrefixError(ts, stop, outcome); }
        }
        assert stop == |ts| ==> ts[..stop] == ts;
        Stopped(p.steps)
      else if stop < |ts| then Stopped(stop + 1)
      else
        assert ts[..stop] == ts;
        Finished(p.results)
  }

  /** `analyze_contract`. The contract is marked analyzing at `startedAt`; after the loop it
      is completed with this service's score and summary at `completedAt`. A provider call that
      exhausts its retries, a reply that cannot be read, or a notice that raises sends it to the
      handler, which marks it failed and re-raises, keeping whatever columns were already
      written. The handler's second clock reading is taken as `completedAt` too, and so is the
      `updated_at` stamp of the last commit. */
  function AnalyzeContract(c: E.Contract, types: seq<string>, outcome: Oracle, raisesAt: Option<NoticeRaise>,
                           startedAt: real, completedAt: real): (r: AiRun)
    ensures r.raised <==> r.contract.analysisStatus == "failed"
    ensures !r.raised <==> r.results.Some?
    ensures !r.raised <==> LoopCompletes(types, outcome, raisesAt) && raisesAt != Some(CompletionRaises)
    ensures r.results.Some? ==> r.results.value == RunSections(AnalysisTypes(types), outcome).results
    ensures r.contract.startedAt == Some(startedAt) && r.contract.completedAt == Some(completedAt)
    ensures r.contract.updatedAt == completedAt
    ensures r.contract.id == c.id && r.contract.address == c.address && r.contract.sourceCode == c.sourceCode
    ensures LoopCompletes(types, outcome, raisesAt) ==>
      var done := RunSections(AnalysisTypes(types), outcome).results;
      r.contract.riskScore == Some(AiRiskScore(done)) && r.contract.summary == Some(AiSummary(done))
      && r.contract.duration == Some(Trunc(completedAt - startedAt))
    ensures !LoopCompletes(types, outcome, raisesAt) ==>
      r.contract.riskScore == c.riskScore && r.contract.summary == c.summary && r.contract.duration == c.duration
    ensures |r.notices| >= 2 && r.notices[0] == ProgressEvent("analyzing", 0)
    ensures r.notices[|r.notices| - 1] ==
      (if r.raised then ProgressEvent("failed", 0) else ProgressEvent("completed", 100))
    ensures raisesAt == Some(StartRaises) ==> r.notices == [ProgressEvent("analyzing", 0), ProgressEvent("failed", 0)]
  {
    var ts := AnalysisTypes(types);
    var analyzing := c.(analysisStatus := "analyzing", startedAt := Some(startedAt), updatedAt := completedAt);
    match RunLoop(types, outcome, raisesAt)
    case Stopped(sent) =>
      AiRun(analyzing.(analysisStatus := "failed", completedAt := Some(completedAt)), None,
            RunNotices(sent, |ts|, true), true)
    case Finished(results) =>
      var done := analyzing.(analysisStatus := "completed", completedAt := Some(completedAt),
                             riskScore := Some(AiRiskScore(results)), summary := Some(AiSummary(results)),
                             duration := Some(Trunc(completedAt - startedAt)));
      if raisesAt == Some(CompletionRaises) then
        AiRun(done.(analysisStatus := "failed"), None,
              RunNotices(|ts|, |ts|, false) + [ProgressEvent("failed", 0)], true)
      else AiRun(done, Some(results), RunNotices(|ts|, |ts|, false), false)
  }

  /** A loop that fails on a prefix of the types fails on all of them. */
  lemma {:induction false} RunSectionsPrefixError(types: seq<string>, n: nat, outcome: Oracle)
    requires n <= |types| && RunSections(types[..n], outcome).error.Some?
    ensures RunSections(types, outcome).error.Some?
    decreases |types|
  {
    if n < |types| {
      var init := types[..|types| - 1];
      assert init[..n] == types[..n];
      RunSectionsPrefixError(init, n, outcome);
    } else {
      assert types[..n] == types;
    }
  }

  /** The notices of a run that started `steps` of `total` types: the start notice, one
      progress notice per started type, and the closing completed or failed notice. */
  function RunNotices(steps: nat, total: nat, failed: bool): (r: seq<ProgressEvent>)
    requires steps <= total
    ensures |r| == steps + 2 && r[0] == ProgressEvent("analyzing", 0)
    ensures r[|r| - 1] == (if failed then ProgressEvent("failed", 0) else ProgressEvent("completed", 100))
  {
    [ProgressEvent("analyzing", 0)] + ProgressNotices(steps, total)
    + [if failed then ProgressEvent("failed", 0) else ProgressEvent("completed", 100)]
  }

  /** Progress never goes backwards: every notice other than a failure notice reports at
      least the progress of every notice before it. */
  lemma RunNoticesOrdered(steps: nat, total: nat, failed: bool)
    requires steps <= total
    ensures var ns := RunNotices(steps, total, failed);
      forall i, j :: 0 <= i <= j < |ns| && ns[j].status != "failed" ==> ns[i].progress <= ns[j].progress
  {
    var ns := RunNotices(steps, total, failed);
    var middle := ProgressNotices(steps, total);
    forall i, j | 0 <= i <= j < |ns| && ns[j].status != "failed" ensures ns[i].progress <= ns[j].progress {
      if j == |ns| - 1 {
        if 0 < i < |ns| - 1 {
          assert ns[i] == middle[i - 1];
        }
      } else if i > 0 {
        assert ns[i] == middle[i - 1] && ns[j] == middle[j - 1];
        ProgressMonotone(i - 1, j - 1, total);
      } else if j > 0 {
        assert ns[j] == middle[j - 1];
      }
    }
  }

  /** The run's notices never go backwards, whichever of them raises. */
  lemma AnalyzeContractProgressOrdered(c: E.Contract, types: seq<string>, outcome: Oracle,
                                       raisesAt: Option<NoticeRaise>, startedAt: real, completedAt: real)
    ensures var ns := AnalyzeContract(c, types, outcome, raisesAt, startedAt, completedAt).notices;
      forall i, j :: 0 <= i <= j < |ns| && ns[j].status != "failed" ==> ns[i].progress <= ns[j].progress
  {
    var total := |AnalysisTypes(types)|;
    var ns := AnalyzeContract(c, types, outcome, raisesAt, startedAt, completedAt).notices;
    match RunLoop(types, outcome, raisesAt)
    case Stopped(sent) =>
      RunNoticesOrdered(sent, total, true);
    case Finished(_) =>
      var done := RunNotices(total, total, false);
      RunNoticesOrdered(total, total, false);
      if raisesAt == Some(CompletionRaises) {
        assert ns == done + [ProgressEvent("failed", 0)];
        forall i, j | 0 <= i <= j < |ns| && ns[j].status != "failed" ensures ns[i].progress <= ns[j].progress {
          assert ns[i] == done[i] && ns[j] == done[j];
        }
      }
  }

  // ---------------------------------------------------------------------------
  // Summary and score of the AI service

  function CriticalFindings(r: ToolResults): nat {
    Count(FindingsOf(r), SeverityIs("critical"))
  }

  function HighRisks(r: ToolResults): nat {
    Count(RisksOf(r), LevelIs("high"))
  }

  /** The nouns of the summary's parts. */
  const CriticalFindingsNoun: string := " critical security issues found"
  const HighRisksNoun: string := " high-risk issues identified"
  const TotalFindingsNoun: string := " total findings"
  const RiskAssessmentsNoun: string := " risk assessments"

  /** The summary's parts: the critical-findings and high-risks parts when positive, then the
      totals, always. */
  function AiSummaryParts(r: ToolResults): (p: seq<string>)
    ensures |p| == 2 + (if CriticalFindings(r) > 0 then 1 else 0) + (if HighRisks(r) > 0 then 1 else 0)
    ensures p[|p| - 2] == Text.NatToString(|FindingsOf(r)|) + TotalFindingsNoun
    ensures p[|p| - 1] == Text.NatToString(|RisksOf(r)|) + RiskAssessmentsNoun
    ensures CriticalFindings(r) > 0 ==> p[0] == Text.NatToString(CriticalFindings(r)) + CriticalFindingsNoun
    ensures HighRisks(r) > 0 ==>
      p[if CriticalFindings(r) > 0 then 1 else 0] == Text.NatToString(HighRisks(r)) + HighRisksNoun
  {
    (if CriticalFindings(r) > 0 then [Text.NatToString(CriticalFindings(r)) + CriticalFindingsNoun] else [])
    + (if HighRisks(r) > 0 then [Text.NatToString(HighRisks(r)) + HighRisksNoun] else [])
    + [Text.NatToString(|FindingsOf(r)|) + TotalFindingsNoun, Text.NatToString(|RisksOf(r)|) + RiskAssessmentsNoun]
  }

  /** `_generate_summary`: the parts joined by ". " and closed by a full stop. */
  function AiSummary(r: ToolResults): (s: string)
    ensures |s| > 0 && s[|s| - 1] == '.'
  {
    var s := Text.Join(AiSummaryParts(r), ". ") + ".";
    assert s[|s| - 1] == '.';
    s
  }

  /** The summary gives back its parts: split at ". " once the closing full stop is removed. */
  lemma AiSummaryRoundTrip(r: ToolResults)
    ensures var s := AiSummary(r);
      Text.SplitOn(s[..|s| - 1], ". ") == AiSummaryParts(r)
  {
    var parts := AiSummaryParts(r);
    var s := AiSummary(r);
    assert s[..|s| - 1] == Text.Join(parts, ". ");
    AiSummaryPartsDotFree(r);
    Text.SplitOnJoin(parts, ". ");
  }

  /** No part of the AI summary contains a full stop: each is a decimal count and a noun. */
  lemma AiSummaryPartsDotFree(r: ToolResults)
    ensures forall k :: 0 <= k < |AiSummaryParts(r)| ==> '.' !in AiSummaryParts(r)[k]
  {
    NounsDotFree();
    Text.DigitsDotFree(Text.NatToString(CriticalFindings(r)));
    Text.DigitsDotFree(Text.NatToString(HighRisks(r)));
    Text.DigitsDotFree(Text.NatToString(|FindingsOf(r)|));
    Text.DigitsDotFree(Text.NatToString(|RisksOf(r)|));
  }

  lemma NounsDotFree()
    ensures '.' !in CriticalFindingsNoun && '.' !in HighRisksNoun
    ensures '.' !in TotalFindingsNoun && '.' !in RiskAssessmentsNoun
  {
  }

  /** The AI service's weights: a severity or level it does not know adds nothing, and a
      finding's confidence is not used. */
  function AiFindingWeight(severity: string): real {
    if severity == "critical" then 0.3
    else if severity == "high" then 0.2
    else if severity == "medium" then 0.1
    else if severity == "low" then 0.05
    else 0.0
  }

  function AiRiskWeight(level: string): real {
    if level == "critical" then 0.25
    else if level == "high" then 0.15
    else if level == "medium" then 0.08
    else if level == "low" then 0.03
    else 0.0
  }

  function AiFindingContribution(f: FindingPayload): real {
    AiFindingWeight(f.severity.GetOr("low"))
  }

  function AiRiskContribution(r: RiskPayload): real {
    AiRiskWeight(r.riskLevel.GetOr("low")) * r.probability.GetOr(0.5)
  }

  function RawAiScore(r: ToolResults): real {
    Sum(FindingsOf(r), AiFindingContribution) + Sum(RisksOf(r), AiRiskContribution)
  }

  /** `_calculate_risk_score`: the weighted sum capped at 1.0; in [0, 1] when no
      probability is negative. */
  function AiRiskScore(r: ToolResults): (s: real)
    ensures s <= 1.0 && s <= RawAiScore(r) && (s == 1.0 || s == RawAiScore(r))
    ensures (forall i :: 0 <= i < |RisksOf(r)| ==> RisksOf(r)[i].probability.GetOr(0.5) >= 0.0) ==> s >= 0.0
  {
    SumNonneg(FindingsOf(r), AiFindingContribution);
    if forall i :: 0 <= i < |RisksOf(r)| ==> RisksOf(r)[i].probability.GetOr(0.5) >= 0.0 then
      SumNonneg(RisksOf(r), AiRiskContribution);
      MinReal(RawAiScore(r), 1.0)
    else MinReal(RawAiScore(r), 1.0)
  }

  /** Findings whose only difference is their confidence score the same. */
  lemma {:induction false} AiScoreIgnoresConfidence(fs: seq<FindingPayload>, cs: seq<Option<real>>)
    requires |cs| == |fs|
    ensures Sum(seq(|fs|, i requires 0 <= i < |fs| => fs[i].(confidence := cs[i])), AiFindingContribution)
         == Sum(fs, AiFindingContribution)
  {
    if |fs| > 0 {
      var gs := seq(|fs|, i requires 0 <= i < |fs| => fs[i].(confidence := cs[i]));
      AiScoreIgnoresConfidence(fs[1..], cs[1..]);
      assert gs[1..] == seq(|fs| - 1, i requires 0 <= i < |fs| - 1 => fs[1..][i].(confidence := cs[1..][i]));
    }
  }
}

=== FILE: analysis.dfy ===
/** The comprehensive analysis service: merging the static-tool and AI result dictionaries,
    first-wins deduplication of findings and risks, the defaults applied when saving them,
    the combined risk score, the summary line, and the status flow of one run. */
module Analysis {
  import opened Wrappers
  import opened Payloads
  import opened Seqs
  import opened Numbers
  import Text
  import E = Entities
  import J = Json
  import Ai

  // ---------------------------------------------------------------------------
  // Deduplication

  /** A finding's identity for deduplication: lower-cased title (missing title as ""),
      line number and severity. */
  datatype FindingIdentity = FindingIdentity(title: string, line: Option<int>, severity: Option<string>)

  /** A risk's identity: lower-cased title, category and level. */
  datatype RiskIdentity = RiskIdentity(title: string, category: Option<string>, level: Option<string>)

  function FindingKey(f: FindingPayload): FindingIdentity {
    FindingIdentity(Text.Lower(f.title.GetOr("")), f.lineNumber, f.severity)
  }

  function RiskKey(r: RiskPayload): RiskIdentity {
    RiskIdentity(Text.Lower(r.title.GetOr("")), r.category, r.riskLevel)
  }

  /** `_deduplicate_findings`: an order-preserving selection of the input with no repeated
      identity and no identity lost, keeping for each identity its first finding. */
  function DeduplicateFindings(fs: seq<FindingPayload>): (r: seq<FindingPayload>)
    ensures IsSubseq(r, fs)
    ensures UniqueKeys(r, FindingKey)
    ensures Keys(r, FindingKey) == Keys(fs, FindingKey)
    ensures forall i :: 0 <= i < |r| ==>
      FindingKey(r[i]) in Keys(fs, FindingKey) && r[i] == FirstWith(fs, FindingKey, FindingKey(r[i]))
  {
    FirstWinsSpec(fs, FindingKey);
    FirstWins(fs, FindingKey)
  }

  /** `_deduplicate_risks`: the same first-wins rule over risk identities. */
  function DeduplicateRisks(rs: seq<RiskPayload>): (r: seq<RiskPayload>)
    ensures IsSubseq(r, rs)
    ensures UniqueKeys(r, RiskKey)
    ensures Keys(r, RiskKey) == Keys(rs, RiskKey)
    ensures forall i :: 0 <= i < |r| ==>
      RiskKey(r[i]) in Keys(rs, RiskKey) && r[i] == FirstWith(rs, RiskKey, RiskKey(r[i]))
  {
    FirstWinsSpec(rs, RiskKey);
    FirstWins(rs, RiskKey)
  }

  /** Deduplicating an already deduplicated list changes nothing. */
  lemma DeduplicateFindingsIdempotent(fs: seq<FindingPayload>)
    ensures DeduplicateFindings(DeduplicateFindings(fs)) == DeduplicateFindings(fs)
  {
    FirstWinsIdempotent(fs, FindingKey);
  }

  lemma DeduplicateRisksIdempotent(rs: seq<RiskPayload>)
    ensures DeduplicateRisks(DeduplicateRisks(rs)) == DeduplicateRisks(rs)
  {
    FirstWinsIdempotent(rs, RiskKey);
  }

  /** The `seen`-set loop of `_deduplicate_findings` computes the first-wins selection. */
  method DeduplicateFindingsLoop(fs: seq<FindingPayload>) returns (r: seq<FindingPayload>)
    ensures r == DeduplicateFindings(fs)
  {
    r := DedupFirstWins(fs, FindingKey);
  }

  // ---------------------------------------------------------------------------
  // Merging

  const StaticSource := "static_analysis"
  const AiSource := "ai_analysis"

  /** Static findings are tagged as static, overwriting any tag they carry. */
  function TagStaticFindings(fs: seq<FindingPayload>): (r: seq<FindingPayload>)
    ensures |r| == |fs|
    ensures forall i :: 0 <= i < |fs| ==> r[i] == fs[i].(source := Some(StaticSource))
  {
    seq(|fs|, i requires 0 <= i < |fs| => fs[i].(source := Some(StaticSource)))
  }

  /** AI findings keep a tag they already carry, and are tagged as AI otherwise. */
  function TagAiFindings(fs: seq<FindingPayload>): (r: seq<FindingPayload>)
    ensures |r| == |fs|
    ensures forall i :: 0 <= i < |fs| ==>
      r[i].source.Some? && r[i] == fs[i].(source := Some(fs[i].source.GetOr(AiSource)))
  {
    seq(|fs|, i requires 0 <= i < |fs| =>
      if fs[i].source.Some? then fs[i] else fs[i].(source := Some(AiSource)))
  }

  function TagStaticRisks(rs: seq<RiskPayload>): (r: seq<RiskPayload>)
    ensures |r| == |rs|
    ensures forall i :: 0 <= i < |rs| ==> r[i] == rs[i].(source := Some(StaticSource))
  {
    seq(|rs|, i requires 0 <= i < |rs| => rs[i].(source := Some(StaticSource)))
  }

  function TagAiRisks(rs: seq<RiskPayload>): (r: seq<RiskPayload>)
    ensures |r| == |rs|
    ensures forall i :: 0 <= i < |rs| ==>
      r[i].source.Some? && r[i] == rs[i].(source := Some(rs[i].source.GetOr(AiSource)))
  {
    seq(|rs|, i requires 0 <= i < |rs| =>
      if rs[i].source.Some? then rs[i] else rs[i].(source := Some(AiSource)))
  }

  /** The section lists of a possibly missing result dictionary. */
  function Findings(r: Option<ToolResults>): seq<FindingPayload> {
    if r.Some? then FindingsOf(r.value) else []
  }

  function Risks(r: Option<ToolResults>): seq<RiskPayload> {
    if r.Some? then RisksOf(r.value) else []
  }

  function Optimizations(r: Option<ToolResults>): seq<GasOptimization> {
    if r.Some? then OptimizationsOf(r.value) else []
  }

  function ComplianceIssues(r: Option<ToolResults>): seq<ComplianceIssue> {
    if r.Some? then ComplianceIssuesOf(r.value) else []
  }

  /** The merged result dictionary, with the raw `static_analysis` and `ai_analysis` entries. */
  datatype Merged = Merged(
    findings: seq<FindingPayload>,
    risks: seq<RiskPayload>,
    gasOptimizations: seq<GasOptimization>,
    complianceIssues: seq<ComplianceIssue>,
    staticAnalysis: Option<ToolResults>,
    aiAnalysis: Option<ToolResults>)

  /** A security section whose findings list, when present, is replaced by `tag` of it. */
  function RetagSecurity(s: Option<SecuritySection>, tag: seq<FindingPayload> -> seq<FindingPayload>)
    : Option<SecuritySection>
  {
    if s.Some? && s.value.findings.Some? then Some(s.value.(findings := Some(tag(s.value.findings.value)))) else s
  }

  function RetagRisk(s: Option<RiskSection>, tag: seq<RiskPayload> -> seq<RiskPayload>): Option<RiskSection> {
    if s.Some? && s.value.risks.Some? then Some(RiskSection(Some(tag(s.value.risks.value)))) else s
  }

  /** A static result dictionary after the merge has tagged its finding and risk dictionaries
      in place: its findings and risks are the tagged ones, and nothing else changes. */
  function TagStaticResults(r: ToolResults): (t: ToolResults)
    ensures FindingsOf(t) == TagStaticFindings(FindingsOf(r))
    ensures RisksOf(t) == TagStaticRisks(RisksOf(r))
    ensures t.gas == r.gas && t.compliance == r.compliance
  {
    assert TagStaticFindings([]) == [];
    assert TagStaticRisks([]) == [];
    r.(security := RetagSecurity(r.security, TagStaticFindings), risk := RetagRisk(r.risk, TagStaticRisks))
  }

  /** The same for an AI result dictionary, whose tags are only added where missing. */
  function TagAiResults(r: ToolResults): (t: ToolResults)
    ensures FindingsOf(t) == TagAiFindings(FindingsOf(r))
    ensures RisksOf(t) == TagAiRisks(RisksOf(r))
    ensures t.gas == r.gas && t.compliance == r.compliance
  {
    assert TagAiFindings([]) == [];
    assert TagAiRisks([]) == [];
    r.(security := RetagSecurity(r.security, TagAiFindings), risk := RetagRisk(r.risk, TagAiRisks))
  }

  function TagStatic(r: Option<ToolResults>): Option<ToolResults> {
    if r.Some? then Some(TagStaticResults(r.value)) else None
  }

  function TagAi(r: Option<ToolResults>): Option<ToolResults> {
    if r.Some? then Some(TagAiResults(r.value)) else None
  }

  /** The findings list before deduplication: tagged static ones, then tagged AI ones. */
  function MergedFindingsBeforeDedup(st: Option<ToolResults>, ai: Option<ToolResults>): seq<FindingPayload> {
    TagStaticFindings(Findings(st)) + TagAiFindings(Findings(ai))
  }

  function MergedRisksBeforeDedup(st: Option<ToolResults>, ai: Option<ToolResults>): seq<RiskPayload> {
    TagStaticRisks(Risks(st)) + TagAiRisks(Risks(ai))
  }

  /** `_merge_analysis_results`: deduplicated selections of the tagged findings and risks of
      both services, both services' gas optimisations and compliance issues, static first, and
      the raw dictionaries as the merge leaves them. */
  function MergeAnalysisResults(st: Option<ToolResults>, ai: Option<ToolResults>): (m: Merged)
    ensures IsSubseq(m.findings, MergedFindingsBeforeDedup(st, ai))
    ensures IsSubseq(m.risks, MergedRisksBeforeDedup(st, ai))
    ensures UniqueKeys(m.findings, FindingKey) && UniqueKeys(m.risks, RiskKey)
    ensures m.gasOptimizations == Optimizations(st) + Optimizations(ai)
    ensures m.complianceIssues == ComplianceIssues(st) + ComplianceIssues(ai)
    ensures m.staticAnalysis.Some? == st.Some? && m.aiAnalysis.Some? == ai.Some?
  {
    Merged(
      DeduplicateFindings(MergedFindingsBeforeDedup(st, ai)),
      DeduplicateRisks(MergedRisksBeforeDedup(st, ai)),
      Optimizations(st) + Optimizations(ai),
      ComplianceIssues(st) + ComplianceIssues(ai),
      TagStatic(st), TagAi(ai))
  }

  /** No identity is lost in the merge: the merged findings and risks carry exactly the
      identities of both services' lists (tagging does not change an identity). */
  lemma MergeKeepsIdentities(st: Option<ToolResults>, ai: Option<ToolResults>)
    ensures var m := MergeAnalysisResults(st, ai);
      Keys(m.findings, FindingKey) == Keys(Findings(st), FindingKey) + Keys(Findings(ai), FindingKey)
      && Keys(m.risks, RiskKey) == Keys(Risks(st), RiskKey) + Keys(Risks(ai), RiskKey)
  {
    KeysConcat(TagStaticFindings(Findings(st)), TagAiFindings(Findings(ai)), FindingKey);
    KeysConcat(TagStaticRisks(Risks(st)), TagAiRisks(Risks(ai)), RiskKey);
    SameKeys(Findings(st), TagStaticFindings(Findings(st)), FindingKey);
    SameKeys(Findings(ai), TagAiFindings(Findings(ai)), FindingKey);
    SameKeys(Risks(st), TagStaticRisks(Risks(st)), RiskKey);
    SameKeys(Risks(ai), TagAiRisks(Risks(ai)), RiskKey);
  }

  /** The merge tags the finding and risk dictionaries in place, so the raw entries it carries
      along hold the tagged dictionaries: exactly the lists that were deduplicated. */
  lemma MergeTagsRawEntries(st: Option<ToolResults>, ai: Option<ToolResults>)
    ensures var m := MergeAnalysisResults(st, ai);
      Findings(m.staticAnalysis) + Findings(m.aiAnalysis) == MergedFindingsBeforeDedup(st, ai)
      && Risks(m.staticAnalysis) + Risks(m.aiAnalysis) == MergedRisksBeforeDedup(st, ai)
      && Optimizations(m.staticAnalysis) == Optimizations(st) && Optimizations(m.aiAnalysis) == Optimizations(ai)
  {
    var m := MergeAnalysisResults(st, ai);
    if st.Some? {
      assert Findings(m.staticAnalysis) == TagStaticFindings(Findings(st));
      assert Risks(m.staticAnalysis) == TagStaticRisks(Risks(st));
    } else {
      assert Findings(m.staticAnalysis) == [] == TagStaticFindings(Findings(st));
      assert Risks(m.staticAnalysis) == [] == TagStaticRisks(Risks(st));
    }
    if ai.Some? {
      assert Findings(m.aiAnalysis) == TagAiFindings(Findings(ai));
      assert Risks(m.aiAnalysis) == TagAiRisks(Risks(ai));
    } else {
      assert Findings(m.aiAnalysis) == [] == TagAiFindings(Findings(ai));
      assert Risks(m.aiAnalysis) == [] == TagAiRisks(Risks(ai));
    }
  }

  /** Every merged finding and risk carries a source tag. */
  lemma MergedItemsHaveSource(st: Option<ToolResults>, ai: Option<ToolResults>)
    ensures var m := MergeAnalysisResults(st, ai);
      (forall i :: 0 <= i < |m.findings| ==> m.findings[i].source.Some?)
      && (forall i :: 0 <= i < |m.risks| ==> m.risks[i].source.Some?)
  {
    MergedFindingsHaveSource(st, ai);
    MergedRisksHaveSource(st, ai);
  }

  lemma MergedFindingsHaveSource(st: Option<ToolResults>, ai: Option<ToolResults>)
    ensures var f := MergeAnalysisResults(st, ai).findings;
      forall i :: 0 <= i < |f| ==> f[i].source.Some?
  {
    var f := MergeAnalysisResults(st, ai).findings;
    FindingsBeforeDedupTagged(st, ai);
    SubseqAll(f, MergedFindingsBeforeDedup(st, ai), (x: FindingPayload) => x.source.Some?);
  }

  lemma MergedRisksHaveSource(st: Option<ToolResults>, ai: Option<ToolResults>)
    ensures var rs := MergeAnalysisResults(st, ai).risks;
      forall i :: 0 <= i < |rs| ==> rs[i].source.Some?
  {
    var rs := MergeAnalysisResults(st, ai).risks;
    RisksBeforeDedupTagged(st, ai);
    SubseqAll(rs, MergedRisksBeforeDedup(st, ai), (x: RiskPayload) => x.source.Some?);
  }

  lemma FindingsBeforeDedupTagged(st: Option<ToolResults>, ai: Option<ToolResults>)
    ensures var fs := MergedFindingsBeforeDedup(st, ai);
      forall j :: 0 <= j < |fs| ==> fs[j].source.Some?
  {
    var a: seq<FindingPayload> := TagStaticFindings(Findings(st));
    var b: seq<FindingPayload> := TagAiFindings(Findings(ai));
    forall j | 0 <= j < |a + b| ensures ((a + b)[j]).source.Some? {
      if j < |a| {
        assert (a + b)[j] == a[j];
      } else {
        assert (a + b)[j] == b[j - |a|];
      }
    }
  }

  lemma RisksBeforeDedupTagged(st: Option<ToolResults>, ai: Option<ToolResults>)
    ensures var rs := MergedRisksBeforeDedup(st, ai);
      forall j :: 0 <= j < |rs| ==> rs[j].source.Some?
  {
    var a: seq<RiskPayload> := TagStaticRisks(Risks(st));
    var b: seq<RiskPayload> := TagAiRisks(Risks(ai));
    forall j | 0 <= j < |a + b| ensures ((a + b)[j]).source.Some? {
      if j < |a| {
        assert (a + b)[j] == a[j];
      } else {
        assert (a + b)[j] == b[j - |a|];
      }
    }
  }

  /** AI findings reach the comprehensive merge already tagged by provider, so the merge never
      tags them "ai_analysis": each saved AI finding names its provider, or the static tag when
      the static side reported the same identity. */
  lemma AiFindingsKeepProviderTag(openai: Ai.Reply, anthropic: Ai.Reply)
    ensures var r := Ai.MergeSecurityFindings(openai, anthropic);
      r.Success? ==> forall i :: 0 <= i < |r.value| ==>
        r.value[i].source == Some("openai") || r.value[i].source == Some("anthropic")
    ensures var r := Ai.MergeSecurityFindings(openai, anthropic);
      r.Success? ==> TagAiFindings(r.value) == r.value
  {
  }

  /** When a static finding and an AI finding share an identity, the static one is kept:
      the merged finding for any identity the static side reports is tagged as static. */
  lemma MergeStaticWins(st: Option<ToolResults>, ai: Option<ToolResults>)
    ensures var m := MergeAnalysisResults(st, ai);
      forall i :: 0 <= i < |m.findings| && FindingKey(m.findings[i]) in Keys(Findings(st), FindingKey)
        ==> m.findings[i].source == Some(StaticSource)
  {
    var m := MergeAnalysisResults(st, ai);
    var fs := MergedFindingsBeforeDedup(st, ai);
    forall i | 0 <= i < |m.findings| && FindingKey(m.findings[i]) in Keys(Findings(st), FindingKey)
      ensures m.findings[i].source == Some(StaticSource)
    {
      var k := FindingKey(m.findings[i]);
      assert m.findings[i] == FirstWith(fs, FindingKey, k);
      FirstOfStaticKeyIsStatic(st, ai, k);
    }
  }

  /** Before deduplication, the first finding with a key the static side reported is a
      static one. */
  lemma FirstOfStaticKeyIsStatic(st: Option<ToolResults>, ai: Option<ToolResults>, k: FindingIdentity)
    requires k in Keys(Findings(st), FindingKey)
    ensures k in Keys(MergedFindingsBeforeDedup(st, ai), FindingKey)
    ensures FirstWith(MergedFindingsBeforeDedup(st, ai), FindingKey, k).source == Some(StaticSource)
  {
    var a: seq<FindingPayload> := TagStaticFindings(Findings(st));
    var b: seq<FindingPayload> := TagAiFindings(Findings(ai));
    SameKeys(Findings(st), TagStaticFindings(Findings(st)), FindingKey);
    FirstWithConcat(a, b, FindingKey, k);
    var x := FirstWith(a, FindingKey, k);
    var j :| 0 <= j < |a| && a[j] == x;
  }

  /** A side that produced no result dictionary contributes nothing. */
  lemma MergeWithoutStatic(ai: Option<ToolResults>)
    ensures var m := MergeAnalysisResults(None, ai);
      m.findings == DeduplicateFindings(TagAiFindings(Findings(ai)))
      && m.risks == DeduplicateRisks(TagAiRisks(Risks(ai)))
      && m.gasOptimizations == Optimizations(ai)
      && m.complianceIssues == ComplianceIssues(ai)
  {
    assert TagStaticFindings([]) + TagAiFindings(Findings(ai)) == TagAiFindings(Findings(ai));
    assert TagStaticRisks([]) + TagAiRisks(Risks(ai)) == TagAiRisks(Risks(ai));
    assert [] + Optimizations(ai) == Optimizations(ai);
    assert [] + ComplianceIssues(ai) == ComplianceIssues(ai);
  }

  lemma MergeWithoutAi(st: Option<ToolResults>)
    ensures var m := MergeAnalysisResults(st, None);
      m.findings == DeduplicateFindings(TagStaticFindings(Findings(st)))
      && m.risks == DeduplicateRisks(TagStaticRisks(Risks(st)))
      && m.gasOptimizations == Optimizations(st)
      && m.complianceIssues == ComplianceIssues(st)
  {
    assert TagStaticFindings(Findings(st)) + TagAiFindings([]) == TagStaticFindings(Findings(st));
    assert TagStaticRisks(Risks(st)) + TagAiRisks([]) == TagStaticRisks(Risks(st));
    assert Optimizations(st) + [] == Optimizations(st);
    assert ComplianceIssues(st) + [] == ComplianceIssues(st);
  }

  // ---------------------------------------------------------------------------
  // Saving

  const UnknownIssueTitle := "Unknown Issue"
  const UnknownRiskTitle := "Unknown Risk"

  /** The finding row `_save_analysis_results` creates from a merged finding: each column is
      the dictionary's entry or its default, the row's tool is the merge tag rather than the
      finding's own `tool` entry, and the metadata is the whole dictionary, from which the
      finding reads back unchanged. */
  function SaveFinding(p: FindingPayload, id: string, contractId: string, now: real): (f: E.Finding)
    ensures f.tool == p.source.GetOr("unknown") && f.severity == p.severity.GetOr("low")
    ensures p.title.Some? ==> f.title == p.title.value
    ensures p.title.None? ==> f.title == UnknownIssueTitle
    ensures f.category == p.category.GetOr("other")
    ensures f.description == p.description.GetOr("") && f.recommendation == p.recommendation.GetOr("")
    ensures f.lineNumber == p.lineNumber && f.functionName == p.functionName && f.fileName == p.fileName
    ensures f.contractId == contractId && f.confidence == p.confidence
    ensures f.metadata.JObj? && FindingOfDict(f.metadata.fields) == p
  {
    FindingDictRoundTrip(p);
    E.Finding(id, p.title.GetOr(UnknownIssueTitle), p.description.GetOr(""),
              p.recommendation.GetOr(""), p.severity.GetOr("low"), p.category.GetOr("other"),
              p.lineNumber, p.functionName, p.fileName, p.source.GetOr("unknown"),
              p.confidence, J.JObj(FindingDict(p)), contractId, now)
  }

  /** The risk row created from a merged risk, with the same defaults-and-metadata rule. */
  function SaveRisk(p: RiskPayload, id: string, contractId: string, now: real): (r: E.Risk)
    ensures r.probability == p.probability.GetOr(0.5) && r.riskLevel == p.riskLevel.GetOr("low")
    ensures r.impactScore == p.impactScore && r.riskScore == p.riskScore
    ensures r.category == p.category.GetOr("technical")
    ensures p.title.Some? ==> r.title == p.title.value
    ensures p.title.None? ==> r.title == UnknownRiskTitle
    ensures r.description == p.description.GetOr("")
    ensures r.impact == p.impact.GetOr("") && r.mitigation == p.mitigation.GetOr("")
    ensures r.contractId == contractId
    ensures r.metadata.JObj? && RiskOfDict(r.metadata.fields) == p
  {
    RiskDictRoundTrip(p);
    E.Risk(id, p.title.GetOr(UnknownRiskTitle), p.description.GetOr(""), p.impact.GetOr(""),
           p.mitigation.GetOr(""), p.riskLevel.GetOr("low"), p.category.GetOr("technical"),
           p.probability.GetOr(0.5), p.impactScore, p.riskScore, J.JObj(RiskDict(p)), contractId, now)
  }

  /** Every saved merged finding names its merge tag as tool, never the "unknown" default. */
  lemma SavedMergedFindingsHaveTool(st: Option<ToolResults>, ai: Option<ToolResults>, contractId: string, now: real)
    ensures var m := MergeAnalysisResults(st, ai);
      forall i :: 0 <= i < |m.findings| ==>
        m.findings[i].source.Some? && SaveFinding(m.findings[i], "", contractId, now).tool == m.findings[i].source.value
  {
    MergedItemsHaveSource(st, ai);
  }

  /** A saved risk whose supplied scores lie in [0, 1] has its calculated score in [0, 1]. */
  lemma SavedRiskScoreInUnit(p: RiskPayload, id: string, contractId: string, now: real)
    requires p.probability.Some? ==> E.InUnit(p.probability.value)
    requires p.impactScore.Some? ==> E.InUnit(p.impactScore.value)
    requires p.riskScore.Some? ==> E.InUnit(p.riskScore.value)
    ensures E.InUnit(E.CalculatedRiskScore(SaveRisk(p, id, contractId, now)))
  {
    E.CalculatedRiskScoreInUnit(SaveRisk(p, id, contractId, now));
  }

  // ---------------------------------------------------------------------------
  // Combined risk score

  /** Severity weights of the combined score; an unrecognised severity weighs as "low". */
  function FindingWeight(severity: string): real {
    if severity == "critical" then 0.4
    else if severity == "high" then 0.3
    else if severity == "medium" then 0.15
    else 0.05
  }

  function RiskWeight(level: string): real {
    if level == "critical" then 0.35
    else if level == "high" then 0.25
    else if level == "medium" then 0.12
    else 0.03
  }

  function ComplianceWeight(severity: string): real {
    if severity == "high" then 0.1
    else if severity == "medium" then 0.05
    else 0.02
  }

  /** A finding adds its severity weight times its confidence (0.5 when missing). */
  function FindingContribution(f: FindingPayload): real {
    FindingWeight(f.severity.GetOr("low")) * f.confidence.GetOr(0.5)
  }

  /** A risk adds its level weight times its probability (0.5 when missing). */
  function RiskContribution(r: RiskPayload): real {
    RiskWeight(r.riskLevel.GetOr("low")) * r.probability.GetOr(0.5)
  }

  function ComplianceContribution(c: ComplianceIssue): real {
    ComplianceWeight(c.severity.GetOr("low"))
  }

  /** The uncapped sum. */
  function RawCombinedScore(m: Merged): real {
    Sum(m.findings, FindingContribution) + Sum(m.risks, RiskContribution)
    + |m.gasOptimizations| as real * 0.01 + Sum(m.complianceIssues, ComplianceContribution)
  }

  /** No confidence or probability is negative. */
  predicate NonNegativeInputs(m: Merged) {
    (forall i :: 0 <= i < |m.findings| ==> m.findings[i].confidence.GetOr(0.5) >= 0.0)
    && (forall i :: 0 <= i < |m.risks| ==> m.risks[i].probability.GetOr(0.5) >= 0.0)
  }

  /** `_calculate_combined_risk_score`: the weighted sum capped at 1.0, which lies in [0, 1]
      when no confidence or probability is negative. */
  function CombinedRiskScore(m: Merged): (s: real)
    ensures s <= 1.0 && s <= RawCombinedScore(m)
    ensures s == 1.0 || s == RawCombinedScore(m)
    ensures NonNegativeInputs(m) ==> s >= 0.0
  {
    RawCombinedScoreNonneg(m);
    MinReal(RawCombinedScore(m), 1.0)
  }

  lemma RawCombinedScoreNonneg(m: Merged)
    ensures NonNegativeInputs(m) ==> RawCombinedScore(m) >= 0.0
  {
    if NonNegativeInputs(m) {
      SumNonneg(m.findings, FindingContribution);
      SumNonneg(m.risks, RiskContribution);
    }
    SumNonneg(m.complianceIssues, ComplianceContribution);
  }

  /** The score does not depend on the order of any of the lists. */
  lemma CombinedRiskScoreOrderFree(m: Merged, m': Merged)
    requires multiset(m.findings) == multiset(m'.findings)
    requires multiset(m.risks) == multiset(m'.risks)
    requires |m.gasOptimizations| == |m'.gasOptimizations|
    requires multiset(m.complianceIssues) == multiset(m'.complianceIssues)
    ensures CombinedRiskScore(m) == CombinedRiskScore(m')
  {
    SumPermutation(m.findings, m'.findings, FindingContribution);
    SumPermutation(m.risks, m'.risks, RiskContribution);
    SumPermutation(m.complianceIssues, m'.complianceIssues, ComplianceContribution);
  }

  /** One more finding with a non-negative confidence never lowers the score. */
  lemma CombinedRiskScoreMonotone(m: Merged, f: FindingPayload)
    requires f.confidence.GetOr(0.5) >= 0.0
    ensures CombinedRiskScore(m) <= CombinedRiskScore(m.(findings := m.findings + [f]))
  {
    SumAppend(m.findings, [f], FindingContribution);
  }

  // ---------------------------------------------------------------------------
  // Summary

  const NoIssuesSummary := "No significant security issues or risks identified"

  /** A summary part for a count, present only when the count is positive. */
  function Part(n: nat, noun: string): (r: seq<string>)
    ensures |r| == (if n > 0 then 1 else 0)
  {
    if n > 0 then [Text.NatToString(n) + noun] else []
  }

  /** The eight counts the summary reports, in its order. */
  function SummaryCounts(m: Merged): seq<nat> {
    [Count(m.findings, SeverityIs("critical")), Count(m.findings, SeverityIs("high")),
     Count(m.findings, SeverityIs("medium")), Count(m.findings, SeverityIs("low")),
     Count(m.risks, LevelIs("critical")), Count(m.risks, LevelIs("high")),
     |m.gasOptimizations|, |m.complianceIssues|]
  }

  const CriticalIssuesLabel: string := " critical security issues"
  const HighIssuesLabel: string := " high-severity issues"
  const MediumIssuesLabel: string := " medium-severity issues"
  const LowIssuesLabel: string := " low-severity issues"
  const CriticalRisksLabel: string := " critical risks"
  const HighRisksLabel: string := " high-level risks"
  const GasLabel: string := " gas optimization opportunities"
  const ComplianceLabel: string := " compliance issues"
  const SummaryLabels: seq<string> := [
    CriticalIssuesLabel, HighIssuesLabel, MediumIssuesLabel, LowIssuesLabel,
    CriticalRisksLabel, HighRisksLabel, GasLabel, ComplianceLabel]

  /** The part for each positive count, in order. */
  function Parts(c: seq<nat>, nouns: seq<string>): seq<string>
    requires |c| == |nouns|
  {
    if |c| == 0 then [] else Part(c[0], nouns[0]) + Parts(c[1..], nouns[1..])
  }

  function SummaryParts(m: Merged): seq<string> {
    Parts(SummaryCounts(m), SummaryLabels)
  }

  function NonZero(c: seq<nat>): nat {
    if |c| == 0 then 0 else (if c[0] > 0 then 1 else 0) + NonZero(c[1..])
  }

  /** There is one part per non-zero count. */
  lemma {:induction false} PartsCount(c: seq<nat>, nouns: seq<string>)
    requires |c| == |nouns|
    ensures |Parts(c, nouns)| == NonZero(c)
  {
    if |c| > 0 {
      PartsCount(c[1..], nouns[1..]);
    }
  }

  /** The parts are exactly the renderings of the positive counts with their nouns. */
  lemma {:induction false} PartsMembers(c: seq<nat>, nouns: seq<string>)
    requires |c| == |nouns|
    ensures forall j :: 0 <= j < |c| && c[j] > 0 ==> Text.NatToString(c[j]) + nouns[j] in Parts(c, nouns)
    ensures forall p :: p in Parts(c, nouns) ==>
      exists j :: 0 <= j < |c| && c[j] > 0 && p == Text.NatToString(c[j]) + nouns[j]
  {
    if |c| > 0 {
      PartsMembers(c[1..], nouns[1..]);
      var rest := Parts(c[1..], nouns[1..]);
      assert Parts(c, nouns) == Part(c[0], nouns[0]) + rest;
      forall j | 0 <= j < |c| && c[j] > 0 ensures Text.NatToString(c[j]) + nouns[j] in Parts(c, nouns) {
        if j > 0 {
          assert c[1..][j - 1] == c[j] && nouns[1..][j - 1] == nouns[j];
        }
      }
      forall p | p in Parts(c, nouns)
        ensures exists j :: 0 <= j < |c| && c[j] > 0 && p == Text.NatToString(c[j]) + nouns[j]
      {
        if p !in Part(c[0], nouns[0]) {
          assert p in rest;
          var k :| 0 <= k < |c| - 1 && c[1..][k] > 0 && p == Text.NatToString(c[1..][k]) + nouns[1..][k];
          assert c[k + 1] > 0 && p == Text.NatToString(c[k + 1]) + nouns[k + 1];
        }
      }
    }
  }

  /** `_generate_analysis_summary`: the fixed no-issues sentence exactly when every count is
      zero, and otherwise the parts joined by ". " and closed by a full stop. */
  function AnalysisSummary(m: Merged): (s: string)
    ensures s == NoIssuesSummary <==> forall i :: 0 <= i < 8 ==> SummaryCounts(m)[i] == 0
    ensures s != NoIssuesSummary ==> |s| > 0 && s[|s| - 1] == '.'
  {
    var parts := SummaryParts(m);
    PartsCount(SummaryCounts(m), SummaryLabels);
    NonZeroZero(SummaryCounts(m));
    if parts == [] then NoIssuesSummary
    else
      var s := Text.Join(parts, ". ") + ".";
      assert s[|s| - 1] == '.';
      assert NoIssuesSummary[|NoIssuesSummary| - 1] == 'd';
      s
  }

  /** A summary other than the no-issues sentence gives back its parts: split at ". " once
      the closing full stop is removed. */
  lemma AnalysisSummaryRoundTrip(m: Merged)
    ensures var s := AnalysisSummary(m);
      s != NoIssuesSummary ==> Text.SplitOn(s[..|s| - 1], ". ") == SummaryParts(m)
  {
    var s := AnalysisSummary(m);
    var parts := SummaryParts(m);
    if s != NoIssuesSummary {
      PartsCount(SummaryCounts(m), SummaryLabels);
      NonZeroZero(SummaryCounts(m));
      assert s == Text.Join(parts, ". ") + ".";
      assert s[..|s| - 1] == Text.Join(parts, ". ");
      SummaryPartsDotFree(m);
      Text.SplitOnJoin(parts, ". ");
    }
  }

  /** No summary part contains a full stop: each is a decimal count and a label. */
  lemma SummaryPartsDotFree(m: Merged)
    ensures forall k :: 0 <= k < |SummaryParts(m)| ==> '.' !in SummaryParts(m)[k]
  {
    var c := SummaryCounts(m);
    var parts := SummaryParts(m);
    PartsMembers(c, SummaryLabels);
    forall k | 0 <= k < |parts| ensures '.' !in parts[k] {
      assert parts[k] in parts;
      var j :| 0 <= j < |c| && c[j] > 0 && parts[k] == Text.NatToString(c[j]) + SummaryLabels[j];
      LabelDotFree(j);
      Text.DigitsDotFree(Text.NatToString(c[j]));
    }
  }

  /** No label of the summary contains a full stop. */
  lemma LabelDotFree(j: nat)
    requires j < |SummaryLabels|
    ensures '.' !in SummaryLabels[j]
  {
    if j < 4 {
      IssueLabelsDotFree();
    } else {
      OtherLabelsDotFree();
    }
  }

  lemma IssueLabelsDotFree()
    ensures '.' !in CriticalIssuesLabel && '.' !in HighIssuesLabel
    ensures '.' !in MediumIssuesLabel && '.' !in LowIssuesLabel
  {
  }

  lemma OtherLabelsDotFree()
    ensures '.' !in CriticalRisksLabel && '.' !in HighRisksLabel
    ensures '.' !in GasLabel && '.' !in ComplianceLabel
  {
  }

  lemma {:induction false} NonZeroZero(c: seq<nat>)
    ensures NonZero(c) == 0 <==> forall i :: 0 <= i < |c| ==> c[i] == 0
  {
    if |c| > 0 {
      NonZeroZero(c[1..]);
      assert forall i :: 1 <= i < |c| ==> c[1..][i - 1] == c[i];
    }
  }

  // ---------------------------------------------------------------------------
  // The run

  /** The list `asyncio.gather` returns: the static outcome if static analysis is enabled,
      then the AI outcome if AI analysis is enabled; an exception is a `Failure`. */
  function Gathered(useStatic: bool, useAi: bool, st: Result<ToolResults, string>, ai: Result<ToolResults, string>)
    : seq<Result<ToolResults, string>>
  {
    (if useStatic then [st] else []) + (if useAi then [ai] else [])
  }

  function SuccessValue(r: Result<ToolResults, string>): Option<ToolResults> {
    if r.Success? then Some(r.value) else None
  }

  /** Reading the gathered list back: index 0 for static results when enabled, and index 1
      for the AI results when static analysis is enabled, else index 0. An exception is
      logged and read as no result. */
  function SelectResults(useStatic: bool, useAi: bool, results: seq<Result<ToolResults, string>>)
    : (r: (Option<ToolResults>, Option<ToolResults>))
    ensures !useStatic ==> r.0.None?
    ensures !useAi ==> r.1.None?
    ensures r.0.Some? ==> |results| > 0 && results[0] == Success(r.0.value)
    ensures r.1.Some? ==>
      var k := if useStatic then 1 else 0;
      |results| > k && results[k] == Success(r.1.value)
    ensures useStatic && |results| > 0 && results[0].Success? ==> r.0.Some?
  {
    var st := if useStatic && |results| > 0 then SuccessValue(results[0]) else None;
    var aiIndex := if useStatic then 1 else 0;
    var ai := if useAi && |results| > aiIndex then SuccessValue(results[aiIndex]) else None;
    (st, ai)
  }

  /** The index arithmetic picks each service's own outcome, whichever are enabled. */
  lemma SelectResultsPicksOwnOutcome(useStatic: bool, useAi: bool, st: Result<ToolResults, string>, ai: Result<ToolResults, string>)
    ensures SelectResults(useStatic, useAi, Gathered(useStatic, useAi, st, ai)) ==
      (if useStatic then SuccessValue(st) else None, if useAi then SuccessValue(ai) else None)
  {
  }

  /** The awaited steps of a run that can raise: the start notice, saving the results and the
      completion notice (a notice raises when its broadcast does). */
  datatype Step = StartNotice | SaveResults | CompletionNotice

  /** The notices inside the gathered tasks that can raise: the static task's 25 notice, the
      AI task's 50 notice, and the AI service's own notice that raises, if any. A raise inside
      a task becomes that task's exception in the gathered list. */
  datatype TaskRaises = TaskRaises(staticNotice: bool, aiNotice: bool, aiService: Option<Ai.NoticeRaise>)

  /** The error a task's raising notice leaves in the gathered list. */
  const NoticeError: string := "progress notice raised"

  datatype Run = Run(contract: E.Contract, results: Option<Merged>, notices: seq<ProgressEvent>, raised: bool)

  /** The instants a run reads from the clock: this service's start, the AI service's own
      start and end (it stamps the shared contract too), and this service's end. */
  datatype Clock = Clock(startedAt: real, aiStartedAt: real, aiCompletedAt: real, completedAt: real)

  /** Whether the AI service ran: it is enabled, the run's start notice did not raise first,
      and neither did the AI task's own notice. */
  predicate AiRan(useAi: bool, raisesAt: Option<Step>, tasks: TaskRaises) {
    useAi && raisesAt != Some(StartNotice) && !tasks.aiNotice
  }

  /** Whether the AI service wrote its score, summary and duration: it ran and its loop
      completed (a raise at its own completion notice comes after those writes). */
  predicate AiWroteColumns(types: seq<string>, useAi: bool, raisesAt: Option<Step>, oracle: Ai.Oracle, tasks: TaskRaises) {
    AiRan(useAi, raisesAt, tasks) && Ai.LoopCompletes(Ai.AnalysisTypes(types), oracle, tasks.aiService)
  }

  /** The results of the AI service's loop over the run's types. */
  function AiLoopResults(types: seq<string>, oracle: Ai.Oracle): ToolResults {
    Ai.RunSections(Ai.AnalysisTypes(types), oracle).results
  }

  /** The start time the contract holds once the services ran: the AI service overwrites it. */
  function RunStart(aiRan: bool, clock: Clock): real {
    if aiRan then clock.aiStartedAt else clock.startedAt
  }

  /** The contract as this service marks it when a run starts. */
  function Analyzing(c: E.Contract, clock: Clock): E.Contract {
    c.(analysisStatus := "analyzing", startedAt := Some(clock.startedAt))
  }

  /** The AI service's run, on the same contract object this service marked analyzing. */
  function AiRunOf(c: E.Contract, types: seq<string>, oracle: Ai.Oracle, tasks: TaskRaises, clock: Clock): Ai.AiRun {
    Ai.AnalyzeContract(Analyzing(c, clock), Ai.AnalysisTypes(types), oracle, tasks.aiService,
                       clock.aiStartedAt, clock.aiCompletedAt)
  }

  /** The contract once the gathered services are done: as the AI service left it when it ran,
      as this service marked it otherwise (the static service never writes it). It holds the
      AI service's start time when that service ran, and its score, summary and duration when
      its loop completed, even if a notice raised after that; otherwise the ones it held
      before the run. */
  function ServicesContract(c: E.Contract, types: seq<string>, useAi: bool, raisesAt: Option<Step>,
                            oracle: Ai.Oracle, tasks: TaskRaises, clock: Clock): (t: E.Contract)
    ensures t.startedAt == Some(RunStart(AiRan(useAi, raisesAt, tasks), clock))
    ensures t.id == c.id && t.address == c.address && t.sourceCode == c.sourceCode
    ensures AiRan(useAi, raisesAt, tasks) ==>
      (t.analysisStatus == "failed" <==> AiRunOf(c, types, oracle, tasks, clock).raised)
    ensures !AiRan(useAi, raisesAt, tasks) ==> t.analysisStatus == "analyzing"
    ensures AiWroteColumns(types, useAi, raisesAt, oracle, tasks) ==>
      var done := AiLoopResults(types, oracle);
      t.riskScore == Some(Ai.AiRiskScore(done)) && t.summary == Some(Ai.AiSummary(done))
      && t.duration == Some(Trunc(clock.aiCompletedAt - clock.aiStartedAt))
    ensures !AiWroteColumns(types, useAi, raisesAt, oracle, tasks) ==>
      t.riskScore == c.riskScore && t.summary == c.summary && t.duration == c.duration
  {
    if AiRan(useAi, raisesAt, tasks) then AiRunOf(c, types, oracle, tasks, clock).contract else Analyzing(c, clock)
  }

  /** What the gather returns for the static task: the static service's outcome, or the
      exception of its raising notice, which comes before the service starts. */
  function StaticTaskOutcome(staticOutcome: Result<ToolResults, string>, tasks: TaskRaises)
    : (o: Result<ToolResults, string>)
    ensures o.Success? <==> !tasks.staticNotice && staticOutcome.Success?
    ensures o.Success? ==> o == staticOutcome
  {
    if tasks.staticNotice then Failure(NoticeError) else staticOutcome
  }

  /** What the gather returns for the AI task: its results, or the exception its own notice
      raised before the service started, or the one the service re-raised. */
  function AiOutcome(c: E.Contract, types: seq<string>, oracle: Ai.Oracle, tasks: TaskRaises, clock: Clock)
    : (o: Result<ToolResults, string>)
    ensures o.Success? <==> !tasks.aiNotice && !AiRunOf(c, types, oracle, tasks, clock).raised
    ensures o.Success? ==> o.value == AiLoopResults(types, oracle)
  {
    var ai := AiRunOf(c, types, oracle, tasks, clock);
    if tasks.aiNotice then Failure(NoticeError)
    else if ai.results.Some? then Success(ai.results.value) else Failure("AI analysis failed")
  }

  /** The results the run merges, from the outcomes of the enabled tasks. */
  function ServicesResults(c: E.Contract, types: seq<string>, useStatic: bool, useAi: bool,
                           staticOutcome: Result<ToolResults, string>, oracle: Ai.Oracle, tasks: TaskRaises,
                           clock: Clock): Merged
  {
    RunResults(useStatic, useAi, StaticTaskOutcome(staticOutcome, tasks), AiOutcome(c, types, oracle, tasks, clock))
  }

  /** The whole seconds from a recorded start to `end`; without a start the prior duration stays. */
  function Elapsed(start: Option<real>, end: real, prior: Option<int>): Option<int>
  {
    if start.Some? then Some(Trunc(end - start.value)) else prior
  }

  /** The contract at the end of a run, from the contract as the services left it (as this
      service marked it when the start notice raised before they ran). A raising step fails
      it, keeping the score, summary and duration it holds. Otherwise the run completes it
      with the combined score and summary, and a duration measured from the start time it
      holds. A failing completion notice leaves the completed columns in place under the
      failed status. The handler restamps the end time with a second clock reading, which is
      taken as `clock.completedAt` too, and so is the `updated_at` stamp of the last commit. */
  function FinalContract(tools: E.Contract, m: Merged, raisesAt: Option<Step>, clock: Clock): (r: E.Contract)
    ensures r.analysisStatus == (if raisesAt.Some? then "failed" else "completed")
    ensures r.completedAt == Some(clock.completedAt) && r.startedAt == tools.startedAt
    ensures r.updatedAt == clock.completedAt
    ensures raisesAt == Some(StartNotice) || raisesAt == Some(SaveResults) ==>
      r.riskScore == tools.riskScore && r.summary == tools.summary && r.duration == tools.duration
    ensures raisesAt.None? || raisesAt == Some(CompletionNotice) ==>
      r.riskScore == Some(CombinedRiskScore(m)) && r.summary == Some(AnalysisSummary(m))
      && r.duration == Elapsed(tools.startedAt, clock.completedAt, tools.duration)
    ensures r.id == tools.id && r.address == tools.address && r.sourceCode == tools.sourceCode
      && r.findings == tools.findings && r.risks == tools.risks && r.projectId == tools.projectId
  {
    var stamped := tools.(updatedAt := clock.completedAt);
    var done := stamped.(analysisStatus := "completed", completedAt := Some(clock.completedAt),
                       riskScore := Some(CombinedRiskScore(m)), summary := Some(AnalysisSummary(m)),
                       duration := Elapsed(tools.startedAt, clock.completedAt, tools.duration));
    match raisesAt
    case None => done
    case Some(StartNotice) => stamped.(analysisStatus := "failed", completedAt := Some(clock.completedAt))
    case Some(SaveResults) => stamped.(analysisStatus := "failed", completedAt := Some(clock.completedAt))
    case Some(CompletionNotice) => done.(analysisStatus := "failed")
  }

  /** The progress notices this service sends in a run: 0 on start, 25 from the static task,
      50 from the AI task, 100 on completion, and a failure notice with progress 0 when a step
      raises. The notices the AI service sends itself while it runs are not among them. */
  function Notices(useStatic: bool, useAi: bool, raisesAt: Option<Step>): (r: seq<ProgressEvent>)
    ensures |r| >= 2 && r[0] == ProgressEvent("analyzing", 0)
    ensures r[|r| - 1] == (if raisesAt.Some? then ProgressEvent("failed", 0) else ProgressEvent("completed", 100))
    ensures forall i, j :: 0 <= i < j < |r| && r[j].status != "failed" ==> r[i].progress < r[j].progress
  {
    var start := [ProgressEvent("analyzing", 0)];
    var tools := (if useStatic then [ProgressEvent("analyzing", 25)] else [])
                 + (if useAi then [ProgressEvent("analyzing", 50)] else []);
    var complete := [ProgressEvent("completed", 100)];
    var failed := [ProgressEvent("failed", 0)];
    match raisesAt
    case None => start + tools + complete
    case Some(StartNotice) => start + failed
    case Some(SaveResults) => start + tools + failed
    case Some(CompletionNotice) => start + tools + complete + failed
  }

  /** The results the run merges, from the outcomes of the enabled services. */
  function RunResults(useStatic: bool, useAi: bool,
                      staticOutcome: Result<ToolResults, string>, aiOutcome: Result<ToolResults, string>): Merged
  {
    var picked := SelectResults(useStatic, useAi, Gathered(useStatic, useAi, staticOutcome, aiOutcome));
    MergeAnalysisResults(picked.0, picked.1)
  }

  /** `analyze_contract_comprehensive`. The contract is marked analyzing; the static service's
      outcome is a parameter and the AI service runs on the same contract; a step of the run
      that raises marks the contract failed, sends the failure notice and re-raises; failures
      inside the two tasks, their own notices included, are absorbed by the gather and never
      fail the run. An empty type list means all four types. */
  function AnalyzeComprehensive(
    c: E.Contract, types: seq<string>, useStatic: bool, useAi: bool,
    staticOutcome: Result<ToolResults, string>, oracle: Ai.Oracle, tasks: TaskRaises,
    raisesAt: Option<Step>, clock: Clock): (r: Run)
    ensures r.raised <==> raisesAt.Some?
    ensures r.results.None? <==> raisesAt == Some(StartNotice)
    ensures r.results.Some? ==>
      r.results.value == ServicesResults(c, types, useStatic, useAi, staticOutcome, oracle, tasks, clock)
    ensures r.contract.analysisStatus == "completed" <==> !r.raised
    ensures |r.notices| >= 2
  {
    var m := ServicesResults(c, types, useStatic, useAi, staticOutcome, oracle, tasks, clock);
    Run(FinalContract(ServicesContract(c, types, useAi, raisesAt, oracle, tasks, clock), m, raisesAt, clock),
        if raisesAt == Some(StartNotice) then None else Some(m),
        Notices(useStatic, useAi, raisesAt), raisesAt.Some?)
  }

  /** The times and identity of a run's contract: it is stamped completed (or failed) at the
      run's end and holds the AI service's start time when that service ran. */
  lemma RunTimes(
    c: E.Contract, types: seq<string>, useStatic: bool, useAi: bool,
    staticOutcome: Result<ToolResults, string>, oracle: Ai.Oracle, tasks: TaskRaises, raisesAt: Option<Step>, clock: Clock)
    ensures var r := AnalyzeComprehensive(c, types, useStatic, useAi, staticOutcome, oracle, tasks, raisesAt, clock);
      r.contract.completedAt == Some(clock.completedAt)
      && r.contract.startedAt == Some(RunStart(AiRan(useAi, raisesAt, tasks), clock))
      && r.contract.id == c.id && r.contract.address == c.address
  {
    var t := ServicesContract(c, types, useAi, raisesAt, oracle, tasks, clock);
    var m := ServicesResults(c, types, useStatic, useAi, staticOutcome, oracle, tasks, clock);
    var r := AnalyzeComprehensive(c, types, useStatic, useAi, staticOutcome, oracle, tasks, raisesAt, clock);
    assert r.contract == FinalContract(t, m, raisesAt, clock);
  }

  /** A completed run measures its duration from the start time the contract then holds: the
      AI service's start when it ran, this service's start otherwise. */
  lemma CompletedRunDuration(
    c: E.Contract, types: seq<string>, useStatic: bool, useAi: bool,
    staticOutcome: Result<ToolResults, string>, oracle: Ai.Oracle, tasks: TaskRaises, clock: Clock)
    ensures AnalyzeComprehensive(c, types, useStatic, useAi, staticOutcome, oracle, tasks, None, clock).contract.duration
         == Some(Trunc(clock.completedAt - RunStart(useAi && !tasks.aiNotice, clock)))
  {
    ComprehensiveContract(c, types, useStatic, useAi, staticOutcome, oracle, tasks, None, clock);
    ServicesDuration(c, types, useAi, oracle, tasks, clock,
                     ServicesResults(c, types, useStatic, useAi, staticOutcome, oracle, tasks, clock));
  }

  /** Finishing the services' contract without a raise measures from the start it holds. */
  lemma ServicesDuration(c: E.Contract, types: seq<string>, useAi: bool, oracle: Ai.Oracle, tasks: TaskRaises,
                         clock: Clock, m: Merged)
    ensures FinalContract(ServicesContract(c, types, useAi, None, oracle, tasks, clock), m, None, clock).duration
         == Some(Trunc(clock.completedAt - RunStart(useAi && !tasks.aiNotice, clock)))
  {
    ServicesStart(c, types, useAi, oracle, tasks, clock);
    FinishedDuration(ServicesContract(c, types, useAi, None, oracle, tasks, clock), m, clock,
                     RunStart(useAi && !tasks.aiNotice, clock));
  }

  /** When no step of the run raises, the contract holds the start time of the service that
      stamped it last. */
  lemma ServicesStart(c: E.Contract, types: seq<string>, useAi: bool, oracle: Ai.Oracle, tasks: TaskRaises, clock: Clock)
    ensures ServicesContract(c, types, useAi, None, oracle, tasks, clock).startedAt
         == Some(RunStart(useAi && !tasks.aiNotice, clock))
  {
    assert AiRan(useAi, None, tasks) == (useAi && !tasks.aiNotice);
  }

  /** The run's contract is the services' contract finished with the merged results. */
  lemma ComprehensiveContract(
    c: E.Contract, types: seq<string>, useStatic: bool, useAi: bool,
    staticOutcome: Result<ToolResults, string>, oracle: Ai.Oracle, tasks: TaskRaises, raisesAt: Option<Step>, clock: Clock)
    ensures AnalyzeComprehensive(c, types, useStatic, useAi, staticOutcome, oracle, tasks, raisesAt, clock).contract
         == FinalContract(ServicesContract(c, types, useAi, raisesAt, oracle, tasks, clock),
                          ServicesResults(c, types, useStatic, useAi, staticOutcome, oracle, tasks, clock), raisesAt, clock)
  {
  }

  /** A run that finishes from a recorded start measures its duration from that start. */
  lemma FinishedDuration(t: E.Contract, m: Merged, clock: Clock, start: real)
    requires t.startedAt == Some(start)
    ensures FinalContract(t, m, None, clock).duration == Some(Trunc(clock.completedAt - start))
  {
  }

  /** A completed run stores the capped combined score and the summary of the results it
      merged, overwriting what the AI service wrote. */
  lemma CompletedRunScore(
    c: E.Contract, types: seq<string>, useStatic: bool, useAi: bool,
    staticOutcome: Result<ToolResults, string>, oracle: Ai.Oracle, tasks: TaskRaises, clock: Clock)
    ensures var r := AnalyzeComprehensive(c, types, useStatic, useAi, staticOutcome, oracle, tasks, None, clock);
      r.results.Some? && r.contract.riskScore == Some(CombinedRiskScore(r.results.value))
      && r.contract.summary == Some(AnalysisSummary(r.results.value))
      && r.notices[|r.notices| - 1] == ProgressEvent("completed", 100)
  {
    var t := ServicesContract(c, types, useAi, None, oracle, tasks, clock);
    var m := ServicesResults(c, types, useStatic, useAi, staticOutcome, oracle, tasks, clock);
    var r := AnalyzeComprehensive(c, types, useStatic, useAi, staticOutcome, oracle, tasks, None, clock);
    assert r.results == Some(m);
    assert r.contract == FinalContract(t, m, None, clock);
  }

  /** When saving the results raises, the contract is failed and keeps the AI service's own
      score, summary and duration when that service wrote them, even when the AI service
      itself then raised at its completion notice; otherwise it keeps the ones it had before
      the run. */
  lemma SaveFailureKeepsAiColumns(
    c: E.Contract, types: seq<string>, useStatic: bool, useAi: bool,
    staticOutcome: Result<ToolResults, string>, oracle: Ai.Oracle, tasks: TaskRaises, clock: Clock)
    ensures var r := AnalyzeComprehensive(c, types, useStatic, useAi, staticOutcome, oracle, tasks, Some(SaveResults), clock);
      var done := AiLoopResults(types, oracle);
      r.contract.analysisStatus == "failed"
      && (AiWroteColumns(types, useAi, Some(SaveResults), oracle, tasks) ==>
            r.contract.riskScore == Some(Ai.AiRiskScore(done))
            && r.contract.summary == Some(Ai.AiSummary(done))
            && r.contract.duration == Some(Trunc(clock.aiCompletedAt - clock.aiStartedAt)))
      && (!AiWroteColumns(types, useAi, Some(SaveResults), oracle, tasks) ==>
            r.contract.riskScore == c.riskScore && r.contract.summary == c.summary
            && r.contract.duration == c.duration)
  {
    var t := ServicesContract(c, types, useAi, Some(SaveResults), oracle, tasks, clock);
    var m := ServicesResults(c, types, useStatic, useAi, staticOutcome, oracle, tasks, clock);
    var r := AnalyzeComprehensive(c, types, useStatic, useAi, staticOutcome, oracle, tasks, Some(SaveResults), clock);
    assert r.contract == FinalContract(t, m, Some(SaveResults), clock);
  }

  /** The AI service raising at its completion notice: the gathered AI outcome is an
      exception, so the run merges no AI results, yet the contract already holds the AI
      service's score, summary and duration, under the failed status. */
  lemma AiCompletionRaiseKeepsColumns(
    c: E.Contract, types: seq<string>, useAi: bool, oracle: Ai.Oracle, tasks: TaskRaises, clock: Clock)
    requires useAi && !tasks.aiNotice && tasks.aiService == Some(Ai.CompletionRaises)
    requires Ai.RunSections(Ai.AnalysisTypes(types), oracle).error.None?
    ensures AiOutcome(c, types, oracle, tasks, clock).Failure?
    ensures var t := ServicesContract(c, types, useAi, None, oracle, tasks, clock);
      var done := AiLoopResults(types, oracle);
      t.analysisStatus == "failed" && t.riskScore == Some(Ai.AiRiskScore(done))
      && t.summary == Some(Ai.AiSummary(done))
  {
    assert Ai.AnalysisTypes(Ai.AnalysisTypes(types)) == Ai.AnalysisTypes(types);
    assert AiWroteColumns(types, useAi, None, oracle, tasks);
  }

  /** The AI task's own notice raising: the AI service never runs, so the contract keeps
      this service's start time and its earlier columns, and the run merges the static side
      alone. */
  lemma AiNoticeRaiseSkipsAi(
    c: E.Contract, types: seq<string>, useStatic: bool, useAi: bool,
    staticOutcome: Result<ToolResults, string>, oracle: Ai.Oracle, tasks: TaskRaises, clock: Clock)
    requires tasks.aiNotice
    ensures var t := ServicesContract(c, types, useAi, None, oracle, tasks, clock);
      t.startedAt == Some(clock.startedAt) && t.riskScore == c.riskScore && t.summary == c.summary
    ensures ServicesResults(c, types, useStatic, useAi, staticOutcome, oracle, tasks, clock)
         == MergeAnalysisResults(if useStatic then SuccessValue(StaticTaskOutcome(staticOutcome, tasks)) else None, None)
  {
    var aiOutcome := AiOutcome(c, types, oracle, tasks, clock);
    SelectResultsPicksOwnOutcome(useStatic, useAi, StaticTaskOutcome(staticOutcome, tasks), aiOutcome);
  }

  /** When the static task fails and the AI task is off or itself fails, a run whose own
      steps succeed still completes, with nothing found and a zero score. */
  lemma ToolFailuresNeverFailRun(
    c: E.Contract, types: seq<string>, useStatic: bool, useAi: bool, staticError: string,
    oracle: Ai.Oracle, tasks: TaskRaises, clock: Clock)
    requires useAi ==> AiOutcome(c, types, oracle, tasks, clock).Failure?
    ensures var r := AnalyzeComprehensive(c, types, useStatic, useAi, Failure(staticError), oracle, tasks, None, clock);
      r.contract.analysisStatus == "completed" && r.results.Some?
      && r.results.value.findings == [] && r.results.value.risks == []
      && r.contract.riskScore == Some(0.0)
  {
    var m := ServicesResults(c, types, useStatic, useAi, Failure(staticError), oracle, tasks, clock);
    FailedServicesMergeNothing(c, types, useStatic, useAi, staticError, oracle, tasks, clock);
    MergeNothing();
    var t := ServicesContract(c, types, useAi, None, oracle, tasks, clock);
    var r := AnalyzeComprehensive(c, types, useStatic, useAi, Failure(staticError), oracle, tasks, None, clock);
    assert r.contract == FinalContract(t, m, None, clock) && r.results == Some(m);
  }

  /** Tasks that both fail, or are off, leave nothing to merge. */
  lemma FailedServicesMergeNothing(
    c: E.Contract, types: seq<string>, useStatic: bool, useAi: bool, staticError: string,
    oracle: Ai.Oracle, tasks: TaskRaises, clock: Clock)
    requires useAi ==> AiOutcome(c, types, oracle, tasks, clock).Failure?
    ensures ServicesResults(c, types, useStatic, useAi, Failure(staticError), oracle, tasks, clock)
         == MergeAnalysisResults(None, None)
  {
    var aiOutcome := AiOutcome(c, types, oracle, tasks, clock);
    var st := StaticTaskOutcome(Failure(staticError), tasks);
    assert st.Failure?;
    SelectResultsPicksOwnOutcome(useStatic, useAi, st, aiOutcome);
  }

  /** Merging two missing result dictionaries gives empty lists and a zero score. */
  lemma MergeNothing()
    ensures var m := MergeAnalysisResults(None, None);
      m.findings == [] && m.risks == [] && m.gasOptimizations == [] && m.complianceIssues == []
      && CombinedRiskScore(m) == 0.0
  {
    assert MergedFindingsBeforeDedup(None, None) == [];
    assert MergedRisksBeforeDedup(None, None) == [];
    var m := MergeAnalysisResults(None, None);
    assert RawCombinedScore(m) == 0.0;
  }
}

=== FILE: config.dfy ===
/** The service settings: the field validators that run when the settings are loaded from
    the environment, and the required-settings check that runs after loading. Reading the
    environment and the `.env` file is not modelled: the raw values are parameters. */
module Config {
  import opened Wrappers
  import opened Text
  import opened Json

  const DefaultAccessTokenExpireMinutes := 30
  const DefaultRefreshTokenExpireDays := 7
  const DefaultAllowedOrigins: seq<string> := ["http://localhost:3000", "https://clauselens.ai"]

  const DatabaseUrlRequired := "DATABASE_URL is required"
  const SecretKeyTooShort := "SECRET_KEY must be at least 32 characters long"

  /** `validate_database_url`: any non-empty URL, unchanged. */
  function ValidateDatabaseUrl(v: string): (r: Result<string, string>)
    ensures r.Success? <==> |v| > 0
    ensures r.Success? ==> r.value == v
    ensures r.Failure? ==> r.error == DatabaseUrlRequired
  {
    if |v| == 0 then Failure(DatabaseUrlRequired) else Success(v)
  }

  /** `validate_secret_key`: a key of at least 32 characters, unchanged; the empty key is
      one of the rejected short keys. */
  function ValidateSecretKey(v: string): (r: Result<string, string>)
    ensures r.Success? <==> |v| >= 32
    ensures r.Success? ==> r.value == v
    ensures r.Failure? ==> r.error == SecretKeyTooShort
  {
    if |v| == 0 || |v| < 32 then Failure(SecretKeyTooShort) else Success(v)
  }

  // ---------------------------------------------------------------------------
  // Allowed origins

  /** The pieces of origin text: split at every comma, each piece stripped. */
  function SplitOrigins(text: string): (r: seq<string>)
    ensures |r| == CountChar(text, ',') + 1
    ensures forall i :: 0 <= i < |r| ==> Trimmed(r[i])
  {
    var parts := Split(text, ',');
    SplitCount(text, ',');
    assert forall i :: 0 <= i < |parts| ==> Trimmed(Strip(parts[i])) by {
      forall i | 0 <= i < |parts| ensures Trimmed(Strip(parts[i])) {
        StripTrimmed(parts[i]);
      }
    }
    seq(|parts|, i requires 0 <= i < |parts| => Strip(parts[i]))
  }

  /** Strings as JSON strings. */
  function Strs(ss: seq<string>): (r: seq<Json>)
    ensures |r| == |ss| && forall i :: 0 <= i < |ss| ==> r[i] == JStr(ss[i])
  {
    seq(|ss|, i requires 0 <= i < |ss| => JStr(ss[i]))
  }

  /** `validate_allowed_origins`, on the value the environment decoded to: a JSON string is
      split into its stripped comma-separated pieces; any other value passes unchanged. */
  function ValidateAllowedOrigins(v: Json): (r: Json)
    ensures !v.JStr? ==> r == v
    ensures v.JStr? ==> r.JArr? && |r.items| == CountChar(v.s, ',') + 1
    ensures v.JStr? ==> forall i :: 0 <= i < |r.items| ==> r.items[i].JStr? && Trimmed(r.items[i].s)
  {
    match v
    case JStr(text) => JArr(Strs(SplitOrigins(text)))
    case _ => v
  }

  /** Neither end of the string is whitespace. */
  predicate Trimmed(s: string) {
    |s| == 0 || (!IsSpace(s[0]) && !IsSpace(s[|s| - 1]))
  }

  predicate NoSpace(s: string) {
    forall i :: 0 <= i < |s| ==> !IsSpace(s[i])
  }

  lemma StripTrimmed(s: string)
    ensures Trimmed(Strip(s))
  {
    var n := LeadingSpaces(s);
    var t := s[n..];
    if n < |s| {
      assert t[0] == s[n];
      assert TrailingSpaces(t) < |t|;
    }
  }

  lemma StripNoSpace(s: string)
    requires NoSpace(s)
    ensures Strip(s) == s
  {
    if |s| > 0 {
      assert !IsSpace(s[0]);
      assert !IsSpace(s[|s| - 1]);
    }
  }

  /** Every character of a piece comes from the split text. */
  lemma {:induction false} SplitChars(s: string, sep: char)
    ensures forall k, i :: 0 <= k < |Split(s, sep)| && 0 <= i < |Split(s, sep)[k]| ==>
      Split(s, sep)[k][i] in s
  {
    if |s| > 0 {
      SplitChars(s[1..], sep);
      var rest := Split(s[1..], sep);
      forall k, i | 0 <= k < |Split(s, sep)| && 0 <= i < |Split(s, sep)[k]|
        ensures Split(s, sep)[k][i] in s
      {
        if s[0] == sep {
          assert Split(s, sep)[k] == ([""] + rest)[k];
          if k > 0 {
            assert Split(s, sep)[k] == rest[k - 1];
            assert rest[k - 1][i] in s[1..];
          }
        } else {
          var parts := [[s[0]] + rest[0]] + rest[1..];
          assert Split(s, sep) == parts;
          if k == 0 {
            if i > 0 {
              assert parts[0][i] == rest[0][i - 1];
              assert rest[0][i - 1] in s[1..];
            }
          } else {
            assert parts[k] == rest[k];
            assert rest[k][i] in s[1..];
          }
        }
      }
    }
  }

  /** For text without whitespace the origins are exactly the comma-separated pieces, so
      joining them with commas gives the text back. */
  lemma OriginsRoundTrip(text: string)
    requires NoSpace(text)
    ensures var r := SplitOrigins(text);
      r == Split(text, ',') && Join(r, ",") == text
  {
    var parts := Split(text, ',');
    SplitChars(text, ',');
    forall i | 0 <= i < |parts| ensures Strip(parts[i]) == parts[i] {
      forall j | 0 <= j < |parts[i]| ensures !IsSpace(parts[i][j]) {
        assert parts[i][j] in text;
      }
      StripNoSpace(parts[i]);
    }
    JoinSplit(text, ',');
  }

  /** Feeding the validated value back in changes nothing. */
  lemma OriginsIdempotent(v: Json)
    ensures ValidateAllowedOrigins(ValidateAllowedOrigins(v)) == ValidateAllowedOrigins(v)
  {
  }

  const NotAList := "value is not a valid list"
  const NoneNotAllowed := "none is not an allowed value"

  /** pydantic's `str` check on a value that is not text-like: null has its own message. */
  function StrError(j: Json): string {
    if j == JNull then NoneNotAllowed else NotText
  }

  /** The first item that fails the `str` check, as its message. */
  function ItemsError(items: seq<Json>): (e: Option<string>)
    ensures e.None? <==> forall i :: 0 <= i < |items| ==> TextLike(items[i])
    ensures e.Some? ==> exists i :: 0 <= i < |items| && !TextLike(items[i]) && e.value == StrError(items[i])
  {
    if |items| == 0 then None
    else if !TextLike(items[0]) then Some(StrError(items[0]))
    else
      var rest := ItemsError(items[1..]);
      assert forall i :: 1 <= i < |items| ==> items[1..][i - 1] == items[i];
      rest
  }

  /** The `List[str]` field check of ALLOWED_ORIGINS, run on the validator's result: a list
      whose items are all text-like, each rendered as text (`render` is Python's `str()` on a
      number or a boolean); null and any other non-list value are rejected. */
  function OriginsField(v: Json, render: Json -> string): (r: Result<seq<string>, string>)
    ensures r.Success? <==> v.JArr? && forall i :: 0 <= i < |v.items| ==> TextLike(v.items[i])
    ensures r.Success? ==> |r.value| == |v.items|
    ensures r.Success? ==> forall i :: 0 <= i < |v.items| && v.items[i].JStr? ==> r.value[i] == v.items[i].s
    ensures v == JNull ==> r == Failure(NoneNotAllowed)
    ensures !v.JArr? && v != JNull ==> r == Failure(NotAList)
    ensures r.Failure? && v.JArr? ==> r.error == NotText || r.error == NoneNotAllowed
  {
    match v
    case JNull => Failure(NoneNotAllowed)
    case JArr(items) =>
      var e := ItemsError(items);
      if e.Some? then Failure(e.value)
      else Success(seq(|items|, i requires 0 <= i < |items| => if items[i].JStr? then items[i].s else render(items[i])))
    case _ => Failure(NotAList)
  }

  /** Origin text that reaches the validator as a JSON string ends up as its pieces. */
  lemma OriginsTextField(text: string, render: Json -> string)
    ensures OriginsField(ValidateAllowedOrigins(JStr(text)), render) == Success(SplitOrigins(text))
  {
    var v := ValidateAllowedOrigins(JStr(text));
    var r := OriginsField(v, render);
    assert r.Success?;
    assert r.value == SplitOrigins(text);
  }

  // ---------------------------------------------------------------------------
  // Etherscan keys

  /** Python's falsy values among the non-string JSON values. */
  predicate Falsy(j: Json) {
    j == JNull || j == JBool(false) || j == JInt(0) || j == JNum(0.0)
    || j == JArr([]) || j == JObj(map[])
  }

  /** `validate_etherscan_keys`: text is parsed as JSON, an unparsable text giving `{}`; any
      other value is kept unless it is falsy, in which case it becomes `{}`. `parse` stands
      for the JSON decoder (`None` for a decoding error). */
  function ValidateEtherscanKeys(v: Json, parse: string -> Option<Json>): (r: Json)
    ensures v.JStr? && parse(v.s).None? ==> r == JObj(map[])
    ensures v.JStr? && parse(v.s).Some? ==> r == parse(v.s).value
    ensures !v.JStr? ==> (r == JObj(map[]) <==> Falsy(v))
    ensures !v.JStr? ==> !Falsy(r) || r == JObj(map[])
    ensures !v.JStr? && !Falsy(v) ==> r == v
  {
    match v
    case JStr(s) => parse(s).GetOr(JObj(map[]))
    case _ => if Falsy(v) then JObj(map[]) else v
  }

  /** For a value that is not text, validating twice is validating once. */
  lemma EtherscanKeysIdempotent(v: Json, parse: string -> Option<Json>)
    requires !v.JStr?
    ensures ValidateEtherscanKeys(ValidateEtherscanKeys(v, parse), parse) == ValidateEtherscanKeys(v, parse)
  {
  }

  /** A JSON value pydantic turns into text for a `str` field: a string as it is, a number or
      a boolean through Python's `str()`. */
  predicate TextLike(j: Json) {
    j.JStr? || j.JInt? || j.JNum? || j.JBool?
  }

  /** The values that pass the `Dict[str, str]` type of ETHERSCAN_API_KEYS after its validator:
      an object whose values are all text-like, or an empty list or empty string, which
      `dict()` turns into `{}`. */
  predicate KeysDictAccepted(v: Json) {
    (v.JObj? && forall k :: k in v.fields ==> TextLike(v.fields[k]))
    || v == JArr([]) || v == JStr("")
  }

  const NotADict := "value is not a valid dict"
  const NotText := "str type expected"

  /** The `Dict[str, str]` field check of ETHERSCAN_API_KEYS, run on the validator's result.
      A null value is refused with the null message, any other value that is not text-like
      with the string-type message. `render` stands for Python's `str()` on a number or a
      boolean. */
  function EtherscanKeysField(v: Json, render: Json -> string): (r: Result<map<string, string>, string>)
    ensures r.Success? <==> KeysDictAccepted(v)
    ensures r.Success? && v.JObj? ==> r.value.Keys == v.fields.Keys
    ensures r.Success? && v.JObj? ==>
      forall k :: k in v.fields && v.fields[k].JStr? ==> r.value[k] == v.fields[k].s
    ensures r.Success? && !v.JObj? ==> r.value == map[]
    ensures r.Failure? && !v.JObj? ==> r.error == NotADict
    ensures r.Failure? && v.JObj? ==>
      (r.error == NoneNotAllowed <==> exists k :: k in v.fields && v.fields[k] == JNull)
    ensures r.Failure? && v.JObj? ==> r.error == NoneNotAllowed || r.error == NotText
  {
    match v
    case JObj(fields) =>
      if forall k :: k in fields ==> TextLike(fields[k]) then
        Success(map k | k in fields :: if fields[k].JStr? then fields[k].s else render(fields[k]))
      else if exists k :: k in fields && fields[k] == JNull then Failure(NoneNotAllowed)
      else Failure(NotText)
    case JArr(items) => if |items| == 0 then Success(map[]) else Failure(NotADict)
    case JStr(text) => if text == "" then Success(map[]) else Failure(NotADict)
    case _ => Failure(NotADict)
  }

  /** An object of text values passes the check unchanged: rendering the checked map back as
      JSON gives the object. */
  lemma EtherscanKeysFieldRoundTrip(fields: map<string, Json>, render: Json -> string)
    requires forall k :: k in fields ==> fields[k].JStr?
    ensures var r := EtherscanKeysField(JObj(fields), render);
      r.Success? && JObj(map k | k in r.value :: JStr(r.value[k])) == JObj(fields)
  {
    var r := EtherscanKeysField(JObj(fields), render);
    var back := map k | k in r.value :: JStr(r.value[k]);
    assert forall k :: k in back <==> k in fields;
    assert forall k :: k in back ==> back[k] == fields[k];
  }

  /** The keys as the settings hold them: the validated value, or `{}` when absent. */
  function EtherscanKeysOf(keys: Option<Json>, parse: string -> Option<Json>, render: Json -> string)
    : Result<map<string, string>, string>
  {
    if keys.Some? then EtherscanKeysField(ValidateEtherscanKeys(keys.value, parse), render)
    else Success(map[])
  }

  /** A JSON list of one key in ETHERSCAN_API_KEYS fails loading: the validator keeps it and
      the field type rejects it. (A two-character item would be read by `dict()` as one pair.) */
  lemma EtherscanKeysListRejected(item: string, parse: string -> Option<Json>, render: Json -> string)
    requires |item| != 2
    ensures EtherscanKeysOf(Some(JArr([JStr(item)])), parse, render) == Failure(NotADict)
  {
  }

  // ---------------------------------------------------------------------------
  // Loading and the required-settings check

  datatype Settings = Settings(
    databaseUrl: string,
    secretKey: string,
    allowedOrigins: seq<string>,
    etherscanApiKeys: map<string, string>,
    accessTokenExpireMinutes: int,
    refreshTokenExpireDays: int)

  /** The raw text of the modelled settings, from the environment or the `.env` file; `None`
      when a variable is not set. */
  datatype Env = Env(
    databaseUrl: Option<string>,
    secretKey: Option<string>,
    allowedOrigins: Option<string>,
    etherscanApiKeys: Option<string>)

  /** Why loading fails: a `List` or `Dict` setting whose text is not JSON stops it before
      any validation; otherwise the messages of the failing fields, in field order. */
  datatype LoadError = SettingsError(message: string) | ValidationErrors(messages: seq<string>)

  const FieldRequired := "field required"

  function EnvParseError(name: string): string {
    "error parsing env var \"" + name + "\""
  }

  /** How pydantic reads a `List` or `Dict` setting from the environment: the text is decoded
      as JSON before any validator sees it. `parse` stands for the JSON decoder. */
  function DecodeComplex(name: string, raw: Option<string>, parse: string -> Option<Json>)
    : (r: Result<Option<Json>, string>)
    ensures raw.None? ==> r == Success(None)
    ensures raw.Some? ==> (r.Failure? <==> parse(raw.value).None?)
    ensures r.Failure? ==> r.error == EnvParseError(name)
    ensures raw.Some? && r.Success? ==> r.value == parse(raw.value)
  {
    if raw.None? then Success(None)
    else if parse(raw.value).None? then Failure(EnvParseError(name))
    else Success(parse(raw.value))
  }

  /** Whether the set `List` and `Dict` settings decode as JSON. */
  predicate EnvDecodes(env: Env, parse: string -> Option<Json>) {
    (env.allowedOrigins.Some? ==> parse(env.allowedOrigins.value).Some?)
    && (env.etherscanApiKeys.Some? ==> parse(env.etherscanApiKeys.value).Some?)
  }

  /** Whether the decoded settings pass their validators and field types. */
  predicate FieldsValid(env: Env, parse: string -> Option<Json>, render: Json -> string)
    requires EnvDecodes(env, parse)
  {
    env.secretKey.Some? && |env.secretKey.value| >= 32
    && env.databaseUrl.Some? && |env.databaseUrl.value| > 0
    && (env.allowedOrigins.Some? ==>
          OriginsField(ValidateAllowedOrigins(parse(env.allowedOrigins.value).value), render).Success?)
    && (env.etherscanApiKeys.Some? ==>
          KeysDictAccepted(ValidateEtherscanKeys(parse(env.etherscanApiKeys.value).value, parse)))
  }

  /** A required text setting: a missing one is reported as required and its validator does
      not run; a set one goes through the validator. */
  function RequiredText(raw: Option<string>, isUrl: bool): (r: Result<string, string>)
    ensures raw.None? ==> r == Failure(FieldRequired)
    ensures raw.Some? && isUrl ==> r == ValidateDatabaseUrl(raw.value)
    ensures raw.Some? && !isUrl ==> r == ValidateSecretKey(raw.value)
  {
    if raw.None? then Failure(FieldRequired)
    else if isUrl then ValidateDatabaseUrl(raw.value) else ValidateSecretKey(raw.value)
  }

  /** The message of a failed field, if it failed. */
  function ErrorOf<T>(r: Result<T, string>): seq<string> {
    if r.Failure? then [r.error] else []
  }

  /** `Settings()`: the `List` and `Dict` settings are decoded first (ALLOWED_ORIGINS, then
      ETHERSCAN_API_KEYS); then every field is validated, and the messages of the failing ones
      are reported in field order (SECRET_KEY, ALLOWED_ORIGINS, DATABASE_URL,
      ETHERSCAN_API_KEYS). */
  function LoadSettings(env: Env, parse: string -> Option<Json>, render: Json -> string)
    : (r: Result<Settings, LoadError>)
    ensures r.Failure? && r.error.SettingsError? <==> !EnvDecodes(env, parse)
    ensures r.Failure? && r.error.SettingsError? ==>
      r.error.message == EnvParseError(
        if env.allowedOrigins.Some? && parse(env.allowedOrigins.value).None? then "ALLOWED_ORIGINS"
        else "ETHERSCAN_API_KEYS")
    ensures r.Success? <==> EnvDecodes(env, parse) && FieldsValid(env, parse, render)
    ensures r.Success? ==>
      r.value.databaseUrl == env.databaseUrl.value && r.value.secretKey == env.secretKey.value
    ensures r.Success? && env.allowedOrigins.None? ==> r.value.allowedOrigins == DefaultAllowedOrigins
    ensures r.Success? && env.etherscanApiKeys.None? ==> r.value.etherscanApiKeys == map[]
    ensures r.Failure? && r.error.ValidationErrors? ==> 1 <= |r.error.messages| <= 4
    ensures r.Failure? && r.error.ValidationErrors? && env.secretKey.None? ==> r.error.messages[0] == FieldRequired
    ensures r.Failure? && r.error.ValidationErrors? && env.secretKey.Some? && |env.secretKey.value| < 32 ==>
      r.error.messages[0] == SecretKeyTooShort
    ensures EnvDecodes(env, parse) && env.databaseUrl.None? ==>
      r.Failure? && FieldRequired in r.error.messages
  {
    var origins := DecodeComplex("ALLOWED_ORIGINS", env.allowedOrigins, parse);
    var keys := DecodeComplex("ETHERSCAN_API_KEYS", env.etherscanApiKeys, parse);
    if origins.Failure? then Failure(SettingsError(origins.error))
    else if keys.Failure? then Failure(SettingsError(keys.error))
    else
      var key := RequiredText(env.secretKey, false);
      var originsField :=
        if origins.value.Some? then OriginsField(ValidateAllowedOrigins(origins.value.value), render)
        else Success(DefaultAllowedOrigins);
      var url := RequiredText(env.databaseUrl, true);
      var ether := EtherscanKeysOf(keys.value, parse, render);
      if key.Failure? || originsField.Failure? || url.Failure? || ether.Failure? then
        Failure(ValidationErrors(ErrorOf(key) + ErrorOf(originsField) + ErrorOf(url) + ErrorOf(ether)))
      else
        Success(Settings(url.value, key.value, originsField.value, ether.value,
                         DefaultAccessTokenExpireMinutes, DefaultRefreshTokenExpireDays))
  }

  /** Comma-separated origin text that is not JSON stops loading: pydantic decodes it before
      the validator that would split it runs. */
  lemma CommaOriginsRejected(env: Env, parse: string -> Option<Json>, render: Json -> string)
    requires env.allowedOrigins.Some? && parse(env.allowedOrigins.value).None?
    ensures LoadSettings(env, parse, render) == Failure(SettingsError(EnvParseError("ALLOWED_ORIGINS")))
  {
  }

  /** The required settings that are empty, in the order DATABASE_URL, SECRET_KEY. */
  function MissingSettings(s: Settings): (names: seq<string>)
    ensures "DATABASE_URL" in names <==> s.databaseUrl == ""
    ensures "SECRET_KEY" in names <==> s.secretKey == ""
    ensures |names| == 2 ==> names == ["DATABASE_URL", "SECRET_KEY"]
  {
    (if s.databaseUrl == "" then ["DATABASE_URL"] else [])
    + (if s.secretKey == "" then ["SECRET_KEY"] else [])
  }

  /** `validate_settings`: fails with the missing names joined by ", ". */
  function ValidateSettings(s: Settings): (r: Result<(), string>)
    ensures r.Success? <==> s.databaseUrl != "" && s.secretKey != ""
    ensures r.Failure? ==> r.error == "Missing required settings: " + Join(MissingSettings(s), ", ")
  {
    var missing := MissingSettings(s);
    if |missing| > 0 then Failure("Missing required settings: " + Join(missing, ", "))
    else Success(())
  }

  /** Settings that loaded always pass the required-settings check: the field validators
      already reject the empty values it looks for. */
  lemma LoadedSettingsComplete(env: Env, parse: string -> Option<Json>, render: Json -> string)
    requires LoadSettings(env, parse, render).Success?
    ensures ValidateSettings(LoadSettings(env, parse, render).value).Success?
  {
  }
}

=== FILE: endpoints.dfy ===
/** The enhanced contract endpoints: starting an analysis behind the "already analyzing"
    guard, uploading source files, reporting status and progress, gating the results on a
    completed analysis, and filtering findings by tool. A background task is recorded, not
    run; the current user and the owner of the contract's project are parameters. */
module Endpoints {
  import opened Wrappers
  import opened Seqs
  import Text
  import E = Entities
  import S = Schemas
  import L = Lifecycle
  import Ac = Access

  /** The analysis types run when a request names none. */
  const AllAnalysisTypes: seq<string> := ["security", "risk", "gas", "compliance"]
  /** The estimated length of an analysis, in seconds. */
  const EstimatedTotal := 300

  /** A comprehensive analysis scheduled to run after the response is sent. */
  datatype Task = Task(contract: E.Contract, analysisTypes: seq<string>, useAi: bool, useStatic: bool)

  /** The state an endpoint leaves behind: the contracts table, its answer and the tasks it
      scheduled. */
  datatype Outcome<R> = Outcome(db: seq<E.Contract>, response: Result<R, Ac.HttpError>, tasks: seq<Task>)

  // ---------------------------------------------------------------------------
  // Starting an analysis

  datatype AnalyzeRequest = AnalyzeRequest(address: string, chainId: int, analysisTypes: seq<string>)

  datatype AnalyzeResponse = AnalyzeResponse(
    contractId: string,
    analysisId: string,
    status: string,
    estimatedDuration: int,
    message: string)

  /** The request body passes its schema: an address matching the pattern as written (so one
      trailing newline gets through), a positive chain id and known analysis types. */
  predicate AnalyzeRequestValid(req: AnalyzeRequest) {
    S.AddressPatternAsWritten(req.address) && req.chainId >= 1 && S.ValidateAnalysisTypes(req.analysisTypes).Success?
  }

  /** The project an analysis goes into: the user's first project or, when the user has
      none, the one created for it (`None` when that creation fails). */
  function TargetProject(userProjects: seq<string>, newProject: Option<string>): (r: Option<string>)
    ensures |userProjects| > 0 ==> r == Some(userProjects[0])
    ensures |userProjects| == 0 ==> r == newProject
  {
    if |userProjects| > 0 then Some(userProjects[0]) else newProject
  }

  /** The types a task runs: the requested ones, or all four when none are named. */
  function TaskTypes(requested: seq<string>): (r: seq<string>)
    ensures |r| > 0
    ensures |requested| > 0 ==> r == requested
  {
    if |requested| > 0 then requested else AllAnalysisTypes
  }

  /** The guard and the scheduling within a chosen project. */
  function StartAnalysis(req: AnalyzeRequest, projectId: string, db: seq<E.Contract>, newId: string, now: real)
    : (r: Outcome<AnalyzeResponse>)
    ensures r.response.Success?
    ensures r.response.value.estimatedDuration == EstimatedTotal
    ensures var existing := L.ContractByAddress(db, projectId, req.address, req.chainId);
      r.response.value.status == "analyzing" <==> existing.Some? && existing.value.analysisStatus == "analyzing"
    ensures r.response.value.status == "analyzing" ==> r.tasks == [] && r.db == db
    ensures r.response.value.status != "analyzing" ==>
      r.response.value.status == "pending" && |r.tasks| == 1
      && L.SameKey(r.tasks[0].contract, projectId, req.address, req.chainId)
      && r.tasks[0].contract.id == r.response.value.contractId
      && r.tasks[0].analysisTypes == TaskTypes(req.analysisTypes)
  {
    var existing := L.ContractByAddress(db, projectId, req.address, req.chainId);
    if existing.Some? && existing.value.analysisStatus == "analyzing" then
      Outcome(db, Success(AnalyzeResponse(existing.value.id, existing.value.id, "analyzing",
                                          EstimatedTotal, "Analysis already in progress")), [])
    else
      var created := L.CreateContract(db, true, projectId, req.address, req.chainId,
                                      "// Source code will be fetched from blockchain explorer",
                                      Some(L.DefaultContractName(req.address)), newId, now);
      var c := created.contract.value;
      Outcome(created.db,
              Success(AnalyzeResponse(c.id, c.id, "pending", EstimatedTotal,
                                      "Comprehensive analysis initiated successfully")),
              [Task(c, TaskTypes(req.analysisTypes), true, true)])
  }

  /** `analyze_contract`: the contract is looked up in the target project. A contract
      already "analyzing" is answered as such and nothing is scheduled; any other contract,
      existing or newly created, gets exactly one comprehensive task and the answer
      "pending". With no project to use the handler answers 500. */
  function Analyze(req: AnalyzeRequest, userProjects: seq<string>, newProject: Option<string>,
                   db: seq<E.Contract>, newId: string, now: real)
    : (r: Outcome<AnalyzeResponse>)
    requires AnalyzeRequestValid(req)
    ensures r.response.Failure? <==> TargetProject(userProjects, newProject).None?
    ensures r.response.Failure? ==> r.response.error.status == 500 && r.tasks == [] && r.db == db
    ensures r.response.Success? ==> r.response.value.status in {"analyzing", "pending"}
    ensures r.response.Success? && r.response.value.status == "analyzing" ==> r.tasks == [] && r.db == db
    ensures r.response.Success? && r.response.value.status == "pending" ==>
      |r.tasks| == 1 && r.tasks[0].contract.address == req.address
      && r.tasks[0].contract.id == r.response.value.contractId
      && r.tasks[0].analysisTypes == TaskTypes(req.analysisTypes)
  {
    match TargetProject(userProjects, newProject)
    case None =>
      Outcome(db, Failure(Ac.HttpError(500, "Failed to initiate analysis: 'NoneType' object has no attribute 'id'")), [])
    case Some(projectId) => StartAnalysis(req, projectId, db, newId, now)
  }

  /** The guard answers "analyzing" exactly for a contract found in that status. */
  lemma AnalyzeGuardIff(req: AnalyzeRequest, projectId: string, db: seq<E.Contract>, newId: string, now: real)
    requires AnalyzeRequestValid(req)
    ensures var r := Analyze(req, [projectId], None, db, newId, now);
      var existing := L.ContractByAddress(db, projectId, req.address, req.chainId);
      r.response.Success?
      && (r.response.value.status == "analyzing" <==>
            existing.Some? && existing.value.analysisStatus == "analyzing")
      && (r.response.value.status == "analyzing" || |r.tasks| == 1)
  {
  }

  /** The guard only looks for "analyzing", and the endpoint does not change the status it
      found: two requests for a pending contract both schedule a run. */
  lemma PendingContractScheduledTwice(req: AnalyzeRequest, projectId: string, db: seq<E.Contract>,
                                      c: E.Contract, id1: string, id2: string, now1: real, now2: real)
    requires AnalyzeRequestValid(req)
    requires L.ContractByAddress(db, projectId, req.address, req.chainId) == Some(c)
    requires c.analysisStatus == "pending"
    ensures var first := Analyze(req, [projectId], None, db, id1, now1);
      var second := Analyze(req, [projectId], None, first.db, id2, now2);
      first.db == db && second.db == db
      && first.tasks == second.tasks == [Task(c, TaskTypes(req.analysisTypes), true, true)]
  {
  }

  // ---------------------------------------------------------------------------
  // Uploading source files

  /** The block one file contributes to the combined source. */
  function FileBlock(f: S.SourceFile): string {
    "// File: " + f.0 + "\n" + f.1 + "\n\n"
  }

  /** The uploaded files combined into one source text, in request order. */
  function CombinedSource(files: seq<S.SourceFile>): string {
    if |files| == 0 then "" else FileBlock(files[0]) + CombinedSource(files[1..])
  }

  /** Combining distributes over concatenation of the file list. */
  lemma {:induction false} CombinedSourceAppend(a: seq<S.SourceFile>, b: seq<S.SourceFile>)
    ensures CombinedSource(a + b) == CombinedSource(a) + CombinedSource(b)
  {
    if |a| > 0 {
      assert (a + b)[0] == a[0];
      assert (a + b)[1..] == a[1..] + b;
      CombinedSourceAppend(a[1..], b);
      calc {
        CombinedSource(a + b);
        FileBlock(a[0]) + CombinedSource(a[1..] + b);
        FileBlock(a[0]) + (CombinedSource(a[1..]) + CombinedSource(b));
        (FileBlock(a[0]) + CombinedSource(a[1..])) + CombinedSource(b);
      }
    } else {
      assert a + b == b;
    }
  }

  /** Each file's block stands at its place, between the blocks of the files before and
      after it. */
  lemma CombinedSourceBlock(files: seq<S.SourceFile>, i: nat)
    requires i < |files|
    ensures CombinedSource(files) ==
      CombinedSource(files[..i]) + (FileBlock(files[i]) + CombinedSource(files[i + 1..]))
  {
    var tail := [files[i]] + files[i + 1..];
    SplitAround(files, i);
    CombinedSourceAppend(files[..i], tail);
    assert CombinedSource(tail) == FileBlock(files[i]) + CombinedSource(files[i + 1..]);
  }

  lemma SplitAround<T>(s: seq<T>, i: nat)
    requires i < |s|
    ensures s == s[..i] + ([s[i]] + s[i + 1..])
    ensures ([s[i]] + s[i + 1..])[0] == s[i] && ([s[i]] + s[i + 1..])[1..] == s[i + 1..]
  {
  }

  /** The characters of all names and contents together. */
  function Chars(files: seq<S.SourceFile>): nat {
    if |files| == 0 then 0 else |files[0].0| + |files[0].1| + Chars(files[1..])
  }

  /** Twelve characters of framing per file: nothing is dropped or truncated. */
  lemma {:induction false} CombinedSourceLength(files: seq<S.SourceFile>)
    ensures |CombinedSource(files)| == Chars(files) + 12 * |files|
  {
    if |files| > 0 {
      CombinedSourceLength(files[1..]);
    }
  }

  function Names(files: seq<S.SourceFile>): (ns: seq<string>)
    ensures |ns| == |files| && forall i :: 0 <= i < |files| ==> ns[i] == files[i].0
  {
    seq(|files|, i requires 0 <= i < |files| => files[i].0)
  }

  /** The name of an uploaded contract: the requested one, or the first three file names.
      The schema has already refused an empty requested name. */
  function UploadName(contractName: Option<string>, files: seq<S.SourceFile>): string {
    if contractName.Some? then contractName.value
    else "Uploaded Contract (" + Text.Join(SliceTo(Names(files), 3), ", ") + ")"
  }

  datatype UploadResponse = UploadResponse(
    contractId: string,
    status: string,
    filesUploaded: nat,
    analysisTypes: seq<string>)

  const UploadChainId := 1

  /** `upload_contract_source`: a request whose name (by its length) or files fail the schema
      is refused with 422, the name being checked first; a missing or inaccessible project with
      404; otherwise the combined source is stored under the placeholder address (through the
      idempotent creation) and one comprehensive task is scheduled on the contract returned. */
  function Upload(projectId: string, project: Option<E.Project>, u: E.User, contractName: Option<string>,
                  files: seq<S.SourceFile>, db: seq<E.Contract>, newId: string, now: real)
    : (r: Outcome<UploadResponse>)
    ensures r.response.Success? <==>
      (contractName.None? || 1 <= |contractName.value| <= 255)
      && S.ValidateSourceFiles(files).Success? && project.Some? && Ac.CanAccessProject(u, project.value)
    ensures contractName == Some("") ==> r.response == Failure(Ac.HttpError(422, S.NameTooShort))
    ensures contractName.Some? && |contractName.value| > 255 ==>
      r.response == Failure(Ac.HttpError(422, S.NameTooLong))
    ensures r.response.Failure? ==> r.tasks == [] && r.db == db
    ensures r.response.Success? ==>
      r.response.value.filesUploaded == |files| && r.response.value.status == "analyzing"
      && |r.tasks| == 1 && r.tasks[0].contract.id == r.response.value.contractId
      && r.tasks[0].analysisTypes == AllAnalysisTypes
  {
    var nameCheck := S.ContractNameField(contractName);
    if nameCheck.Failure? then Outcome(db, Failure(Ac.HttpError(422, nameCheck.error)), [])
    else
    match S.ValidateSourceFiles(files)
    case Failure(msg) => Outcome(db, Failure(Ac.HttpError(422, msg)), [])
    case Success(_) =>
      if project.None? || !Ac.CanAccessProject(u, project.value) then
        Outcome(db, Failure(Ac.HttpError(404, "Project not found or access denied")), [])
      else
        var created := L.CreateContract(db, true, projectId, S.ZeroAddress(), UploadChainId,
                                        CombinedSource(files), Some(UploadName(contractName, files)),
                                        newId, now);
        var c := created.contract.value;
        Outcome(created.db, Success(UploadResponse(c.id, "analyzing", |files|, AllAnalysisTypes)),
                [Task(c, AllAnalysisTypes, true, true)])
  }

  /** A first upload into a project stores its combined source under a new contract. */
  lemma FirstUploadStoresSource(projectId: string, p: E.Project, u: E.User, name: Option<string>,
                                files: seq<S.SourceFile>, db: seq<E.Contract>, id: string, now: real)
    requires S.ContractNameField(name).Success?
    requires S.ValidateSourceFiles(files).Success? && Ac.CanAccessProject(u, p)
    requires Count(db, L.KeyOf(projectId, S.ZeroAddress(), UploadChainId)) == 0
    ensures var r := Upload(projectId, Some(p), u, name, files, db, id, now);
      r.tasks[0].contract.sourceCode == CombinedSource(files) && r.tasks[0].contract.id == id
  {
  }

  /** Every upload into a project shares the one placeholder address, so after the first,
      later uploads get the first upload's contract back, with its source, and the new files
      are not stored. */
  lemma LaterUploadReusesContract(projectId: string, p: E.Project, u: E.User,
                                  name1: Option<string>, files1: seq<S.SourceFile>, id1: string, now1: real,
                                  name2: Option<string>, files2: seq<S.SourceFile>, id2: string, now2: real,
                                  db: seq<E.Contract>)
    requires S.ContractNameField(name1).Success? && S.ContractNameField(name2).Success?
    requires S.ValidateSourceFiles(files1).Success? && S.ValidateSourceFiles(files2).Success?
    requires Ac.CanAccessProject(u, p)
    requires Count(db, L.KeyOf(projectId, S.ZeroAddress(), UploadChainId)) == 0
    ensures var first := Upload(projectId, Some(p), u, name1, files1, db, id1, now1);
      var second := Upload(projectId, Some(p), u, name2, files2, first.db, id2, now2);
      second.db == first.db && second.tasks == first.tasks
      && second.tasks[0].contract.sourceCode == CombinedSource(files1)
  {
    L.CreateContractIdempotent(db, projectId, S.ZeroAddress(), UploadChainId,
                               CombinedSource(files1), Some(UploadName(name1, files1)), id1, now1,
                               CombinedSource(files2), Some(UploadName(name2, files2)), id2, now2);
  }

  // ---------------------------------------------------------------------------
  // Status and progress

  /** The progress shown for a status: 50 while analyzing, 100 once completed, 0 for
      pending, failed and any other status. */
  function Progress(status: string): (p: int)
    ensures p == 0 || p == 50 || p == 100
    ensures p == 100 <==> status == "completed"
    ensures p == 50 <==> status == "analyzing"
  {
    if status == "pending" then 0
    else if status == "analyzing" then 50
    else if status == "completed" then 100
    else if status == "failed" then 0
    else 0
  }

  datatype StatusBody = StatusBody(
    contractId: string,
    status: string,
    progress: int,
    startedAt: Option<real>,
    completedAt: Option<real>,
    duration: Option<int>,
    estimatedRemaining: real,
    riskScore: Option<real>,
    summary: Option<string>,
    address: string,
    name: Option<string>,
    chainId: int)

  const NotFound := Ac.HttpError(404, "Contract not found")
  const AccessDenied := Ac.HttpError(403, "Access denied")

  /** The two checks every per-contract endpoint makes first: the contract exists, and the
      user may access it. */
  function AccessibleContract(c: Option<E.Contract>, u: E.User, projectOwner: string)
    : (r: Result<E.Contract, Ac.HttpError>)
    ensures r.Success? <==> c.Some? && Ac.CanAccessContract(u, projectOwner)
    ensures r.Success? ==> r.value == c.value
    ensures c.None? ==> r == Failure(NotFound)
  {
    if c.None? then Failure(NotFound)
    else if !Ac.CanAccessContract(u, projectOwner) then Failure(AccessDenied)
    else Success(c.value)
  }

  /** The estimated remaining time as written: the elapsed time is computed with a date
      module the endpoint file never imports, so for an analyzing contract with a start
      time the name lookup fails and the handler answers 500. */
  function EstimatedRemainingAsWritten(c: E.Contract, now: real): (r: Result<real, string>)
    ensures r.Failure? <==> c.analysisStatus == "analyzing" && c.startedAt.Some?
    ensures r.Success? ==> r.value == 0.0
  {
    if c.analysisStatus == "analyzing" && c.startedAt.Some? then Failure("name 'datetime' is not defined")
    else Success(0.0)
  }

  /** The status response as written. */
  function StatusAsWritten(c: Option<E.Contract>, u: E.User, projectOwner: string, now: real)
    : (r: Result<StatusBody, Ac.HttpError>)
    ensures r.Success? ==> r.value.estimatedRemaining == 0.0
    ensures r.Failure? && c.Some? && Ac.CanAccessContract(u, projectOwner) ==>
      r.error.status == 500 && c.value.analysisStatus == "analyzing"
  {
    var k :- AccessibleContract(c, u, projectOwner);
    match EstimatedRemainingAsWritten(k, now)
    case Failure(e) => Failure(Ac.HttpError(500, "Failed to get analysis status: " + e))
    case Success(rem) => Success(Body(k, rem))
  }

  /** The intended estimate: 300 seconds less the time since the start, never below zero,
      for an analyzing contract with a start time, and zero otherwise. */
  function EstimatedRemaining(c: E.Contract, now: real): (r: real)
    ensures 0.0 <= r
    ensures c.analysisStatus == "analyzing" && c.startedAt.Some? ==>
      r == (if EstimatedTotal as real - (now - c.startedAt.value) > 0.0
            then EstimatedTotal as real - (now - c.startedAt.value) else 0.0)
    ensures !(c.analysisStatus == "analyzing" && c.startedAt.Some?) ==> r == 0.0
    ensures c.startedAt.Some? && now >= c.startedAt.value ==> r <= EstimatedTotal as real
  {
    if c.analysisStatus == "analyzing" && c.startedAt.Some? then
      var rest := EstimatedTotal as real - (now - c.startedAt.value);
      if rest > 0.0 then rest else 0.0
    else 0.0
  }

  /** The estimate never grows as time passes. */
  lemma EstimatedRemainingMonotone(c: E.Contract, t1: real, t2: real)
    requires t1 <= t2
    ensures EstimatedRemaining(c, t2) <= EstimatedRemaining(c, t1)
  {
  }

  function Body(c: E.Contract, remaining: real): StatusBody {
    StatusBody(c.id, c.analysisStatus, Progress(c.analysisStatus), c.startedAt, c.completedAt,
               c.duration, remaining, c.riskScore, c.summary, c.address, c.name, c.chainId)
  }

  /** `get_analysis_status` with the intended estimate. */
  function Status(c: Option<E.Contract>, u: E.User, projectOwner: string, now: real)
    : (r: Result<StatusBody, Ac.HttpError>)
    ensures r.Success? <==> c.Some? && Ac.CanAccessContract(u, projectOwner)
    ensures r.Success? ==>
      r.value.progress == Progress(c.value.analysisStatus) && r.value.status == c.value.analysisStatus
      && r.value.estimatedRemaining == EstimatedRemaining(c.value, now)
  {
    var k :- AccessibleContract(c, u, projectOwner);
    Success(Body(k, EstimatedRemaining(k, now)))
  }

  /** The two agree except on analyzing contracts with a start time, where the written one
      fails; one started 100 seconds ago is such a contract, with 200 seconds to go. */
  lemma StatusCounterexample(c: E.Contract, u: E.User)
    requires c.analysisStatus == "analyzing" && c.startedAt == Some(1000.0) && E.IsAdmin(u)
    ensures StatusAsWritten(Some(c), u, "", 1100.0).Failure?
    ensures Status(Some(c), u, "", 1100.0).Success?
    ensures Status(Some(c), u, "", 1100.0).value.estimatedRemaining == 200.0
  {
  }

  /** Wherever the written status answers, it answers as the intended one does. */
  lemma StatusAgrees(c: Option<E.Contract>, u: E.User, projectOwner: string, now: real)
    ensures StatusAsWritten(c, u, projectOwner, now).Success? ==>
      StatusAsWritten(c, u, projectOwner, now) == Status(c, u, projectOwner, now)
  {
  }

  // ---------------------------------------------------------------------------
  // Results and findings

  /** `get_comprehensive_analysis_results` up to fetching the stored results: only a
      completed analysis has results; any other status is answered with 400 naming it. */
  function ResultsGate(c: Option<E.Contract>, u: E.User, projectOwner: string)
    : (r: Result<E.Contract, Ac.HttpError>)
    ensures r.Success? <==> c.Some? && Ac.CanAccessContract(u, projectOwner) && c.value.analysisStatus == "completed"
    ensures r.Success? ==> r.value == c.value
    ensures c.Some? && Ac.CanAccessContract(u, projectOwner) && c.value.analysisStatus != "completed" ==>
      r == Failure(Ac.HttpError(400, "Analysis not completed yet. Current status: " + c.value.analysisStatus))
  {
    var k :- AccessibleContract(c, u, projectOwner);
    if k.analysisStatus != "completed" then
      Failure(Ac.HttpError(400, "Analysis not completed yet. Current status: " + k.analysisStatus))
    else Success(k)
  }

  /** Results are served exactly when the shown progress is 100. */
  lemma ResultsIffFullProgress(c: E.Contract, u: E.User, projectOwner: string)
    requires Ac.CanAccessContract(u, projectOwner)
    ensures ResultsGate(Some(c), u, projectOwner).Success? <==> Progress(c.analysisStatus) == 100
  {
  }

  function ToolIs(tool: string): E.Finding -> bool {
    (f: E.Finding) => f.tool == tool
  }

  /** The tool filter: with a tool given, exactly the findings of that tool, in order;
      otherwise all of them. */
  function FilterByTool(fs: seq<E.Finding>, tool: Option<string>): (r: seq<E.Finding>)
    ensures !Ac.Given(tool) ==> r == fs
    ensures Ac.Given(tool) ==> forall i :: 0 <= i < |r| ==> r[i].tool == tool.value
    ensures Ac.Given(tool) ==> forall f :: f in fs && f.tool == tool.value ==> f in r
    ensures IsSubseq(r, fs)
  {
    if Ac.Given(tool) then
      FilterSubseq(fs, ToolIs(tool.value));
      Filter(fs, ToolIs(tool.value))
    else
      SubseqRefl(fs);
      fs
  }

  lemma {:induction false} FilterKeepsSorted<T>(xs: seq<T>, p: T -> bool, rank: T -> Rank)
    requires SortedDesc(xs, rank)
    ensures SortedDesc(Filter(xs, p), rank)
  {
    if |xs| > 0 {
      FilterKeepsSorted(xs[1..], p, rank);
      var rest := Filter(xs[1..], p);
      forall j | 0 <= j < |rest| ensures !RankLess(rank(xs[0]), rank(rest[j])) {
        assert rest[j] in xs[1..];
        var m :| 0 <= m < |xs[1..]| && xs[1..][m] == rest[j];
        assert xs[m + 1] == rest[j];
      }
    }
  }

  datatype FindingsBody = FindingsBody(contractId: string, findings: seq<E.Finding>, totalCount: nat)

  /** `get_security_findings`: the contract's findings filtered by severity and category,
      then by tool; the count is the number returned. */
  function SecurityFindings(c: Option<E.Contract>, u: E.User, projectOwner: string, table: seq<E.Finding>,
                            contractId: string, severity: Option<string>, category: Option<string>,
                            tool: Option<string>)
    : (r: Result<FindingsBody, Ac.HttpError>)
    ensures r.Success? <==> c.Some? && Ac.CanAccessContract(u, projectOwner)
    ensures r.Success? ==> r.value.totalCount == |r.value.findings|
    ensures r.Success? ==> forall i :: 0 <= i < |r.value.findings| ==>
      L.FindingSelected(r.value.findings[i], contractId, severity, category)
      && (Ac.Given(tool) ==> r.value.findings[i].tool == tool.value)
    ensures r.Success? ==> forall f ::
      (f in table && L.FindingSelected(f, contractId, severity, category)
       && (Ac.Given(tool) ==> f.tool == tool.value)) ==> f in r.value.findings
    ensures r.Success? ==> SortedDesc(r.value.findings, L.FindingRank)
  {
    var _ :- AccessibleContract(c, u, projectOwner);
    var all := L.ContractFindings(table, contractId, severity, category);
    var fs := FilterByTool(all, tool);
    assert SortedDesc(fs, L.FindingRank) by {
      if Ac.Given(tool) {
        FilterKeepsSorted(all, ToolIs(tool.value), L.FindingRank);
      }
    }
    SubseqMembers(fs, all);
    Success(FindingsBody(contractId, fs, |fs|))
  }
  /** The endpoint as written, over the findings lookup as written: an accessible contract
      always gets an empty list and a zero count. */
  function SecurityFindingsAsWritten(c: Option<E.Contract>, u: E.User, projectOwner: string,
                                     table: seq<E.Finding>, contractId: string, severity: Option<string>,
                                     category: Option<string>, tool: Option<string>)
    : (r: Result<FindingsBody, Ac.HttpError>)
    ensures r.Success? <==> c.Some? && Ac.CanAccessContract(u, projectOwner)
    ensures r.Success? ==> r.value.findings == [] && r.value.totalCount == 0
  {
    var _ :- AccessibleContract(c, u, projectOwner);
    var fs := FilterByTool(L.ContractFindingsAsWritten(table, contractId, severity, category), tool);
    Success(FindingsBody(contractId, fs, |fs|))
  }

}

=== FILE: entities.dfy ===
/** The persisted entities and their derived properties: security findings, risk
    assessments, contracts, projects, reports and users, each with its `to_dict` rendering.
    Timestamps are seconds as `real`; rendering them as ISO-8601 text is not modelled, so
    a timestamp is rendered as a number. */
module Entities {
  import opened Wrappers
  import opened Json
  import Seqs

  // ---------------------------------------------------------------------------
  // Severity and risk levels

  /** The four levels, lowest first; a finding's severity and a risk's level share them. */
  const Levels: seq<string> := ["low", "medium", "high", "critical"]
  const LevelNames: set<string> := {"low", "medium", "high", "critical"}

  /** The level's sorting score: 1 to 4 for the four levels, 0 for any other string. */
  function LevelScore(level: string): (s: nat)
    ensures s <= 4
    ensures s == 0 <==> level !in LevelNames
    ensures s > 0 ==> Levels[s - 1] == level
  {
    if level == "low" then 1
    else if level == "medium" then 2
    else if level == "high" then 3
    else if level == "critical" then 4
    else 0
  }

  /** The score is the level's position in `Levels`, counted from one. */
  lemma LevelScorePosition()
    ensures forall i :: 0 <= i < |Levels| ==> LevelScore(Levels[i]) == i + 1
  {
  }

  function IsLevel(l: string): string -> bool {
    x => x == l
  }

  /** The per-level counting loop of `findings_count` and `risks_count`: it starts from a zero
      count for each of the four levels and increments the entry of each element in order,
      raising `KeyError` on the first element that is not a level. */
  function CountByLevel(levels: seq<string>): (r: Result<map<string, nat>, string>)
    ensures r.Success? <==> forall i :: 0 <= i < |levels| ==> levels[i] in LevelNames
    ensures r.Failure? ==> r.error !in LevelNames && r.error in levels
    ensures r.Success? ==> r.value.Keys == LevelNames
    ensures r.Success? ==>
      r.value["low"] + r.value["medium"] + r.value["high"] + r.value["critical"] == |levels|
  {
    if |levels| == 0 then Success(map["low" := 0, "medium" := 0, "high" := 0, "critical" := 0])
    else if levels[0] !in LevelNames then Failure(levels[0])
    else
      var rest :- CountByLevel(levels[1..]);
      Success(rest[levels[0] := rest[levels[0]] + 1])
  }

  /** Each count is the number of elements with that level. */
  lemma {:induction false} CountByLevelCounts(levels: seq<string>, l: string)
    requires CountByLevel(levels).Success? && l in LevelNames
    ensures CountByLevel(levels).value[l] == Seqs.Count(levels, IsLevel(l))
  {
    if |levels| > 0 {
      CountByLevelCounts(levels[1..], l);
    }
  }

  // ---------------------------------------------------------------------------
  // Security findings

  datatype Finding = Finding(
    id: string,
    title: string,
    description: string,
    recommendation: string,
    severity: string,
    category: string,
    lineNumber: Option<int>,
    functionName: Option<string>,
    fileName: Option<string>,
    tool: string,
    confidence: Option<real>,
    metadata: Json,
    contractId: string,
    createdAt: real)

  function SeverityScore(f: Finding): nat {
    LevelScore(f.severity)
  }

  /** `is_critical`: exactly the findings of the top score. */
  function FindingIsCritical(f: Finding): (b: bool)
    ensures b <==> SeverityScore(f) == 4
  {
    f.severity == "critical"
  }

  /** `is_high_or_critical`: exactly the findings scoring 3 or more. */
  function FindingIsHighOrCritical(f: Finding): (b: bool)
    ensures b <==> SeverityScore(f) >= 3
  {
    f.severity in ["high", "critical"]
  }

  lemma FindingCriticalIsHigh(f: Finding)
    ensures FindingIsCritical(f) ==> FindingIsHighOrCritical(f)
  {
  }

  function FindingToDict(f: Finding): (d: Dict)
    ensures "severity_score" in d && "is_critical" in d && "is_high_or_critical" in d
    ensures d["is_critical"] == JBool(true) ==> d["is_high_or_critical"] == JBool(true)
    ensures d["severity_score"].JInt? && 0 <= d["severity_score"].i <= 4
  {
    map[
      "id" := JStr(f.id),
      "title" := JStr(f.title),
      "description" := JStr(f.description),
      "recommendation" := JStr(f.recommendation),
      "severity" := JStr(f.severity),
      "category" := JStr(f.category),
      "line_number" := OfOptInt(f.lineNumber),
      "function_name" := OfOptStr(f.functionName),
      "file_name" := OfOptStr(f.fileName),
      "tool" := JStr(f.tool),
      "confidence" := OfOptNum(f.confidence),
      "metadata" := f.metadata,
      "contract_id" := JStr(f.contractId),
      "severity_score" := JInt(SeverityScore(f)),
      "is_critical" := JBool(FindingIsCritical(f)),
      "is_high_or_critical" := JBool(FindingIsHighOrCritical(f)),
      "created_at" := JNum(f.createdAt)
    ]
  }

  /** Reads a finding back from its dictionary; the derived entries are ignored. */
  function FindingFromDict(d: Dict): Option<Finding> {
    var id :- GetStr(d, "id");
    var title :- GetStr(d, "title");
    var description :- GetStr(d, "description");
    var recommendation :- GetStr(d, "recommendation");
    var severity :- GetStr(d, "severity");
    var category :- GetStr(d, "category");
    var lineNumber :- GetOptInt(d, "line_number");
    var functionName :- GetOptStr(d, "function_name");
    var fileName :- GetOptStr(d, "file_name");
    var tool :- GetStr(d, "tool");
    var confidence :- GetOptNum(d, "confidence");
    var metadata :- GetAny(d, "metadata");
    var contractId :- GetStr(d, "contract_id");
    var createdAt :- GetNum(d, "created_at");
    Some(Finding(id, title, description, recommendation, severity, category, lineNumber,
                 functionName, fileName, tool, confidence, metadata, contractId, createdAt))
  }

  lemma FindingDictColumns(f: Finding)
    ensures var d := FindingToDict(f);
      && GetStr(d, "id") == Some(f.id)
      && GetStr(d, "title") == Some(f.title)
      && GetStr(d, "description") == Some(f.description)
      && GetStr(d, "recommendation") == Some(f.recommendation)
  {
  }

  lemma FindingDictClassColumns(f: Finding)
    ensures var d := FindingToDict(f);
      && GetStr(d, "severity") == Some(f.severity)
      && GetStr(d, "category") == Some(f.category)
      && GetOptInt(d, "line_number") == Some(f.lineNumber)
  {
  }

  lemma FindingDictMoreColumns(f: Finding)
    ensures var d := FindingToDict(f);
      && GetOptStr(d, "function_name") == Some(f.functionName)
      && GetOptStr(d, "file_name") == Some(f.fileName)
      && GetStr(d, "tool") == Some(f.tool)
      && GetOptNum(d, "confidence") == Some(f.confidence)
      && GetAny(d, "metadata") == Some(f.metadata)
      && GetStr(d, "contract_id") == Some(f.contractId)
      && GetNum(d, "created_at") == Some(f.createdAt)
  {
  }

  /** The derived entries of `to_dict`: the level's sorting score, and the two flags that hold
      exactly for a "critical" severity and for a "high" or "critical" one. */
  lemma FindingDictDerived(f: Finding)
    ensures var d := FindingToDict(f);
      && d["severity_score"].JInt?
      && (d["severity_score"].i == 0 <==> f.severity !in LevelNames)
      && (d["severity_score"].i > 0 ==> Levels[d["severity_score"].i - 1] == f.severity)
      && d["is_critical"] == JBool(f.severity == "critical")
      && d["is_high_or_critical"] == JBool(f.severity == "high" || f.severity == "critical")
  {
  }

  /** `to_dict` copies every column unchanged: reading the dictionary back gives the finding. */
  lemma FindingDictRoundTrip(f: Finding)
    ensures FindingFromDict(FindingToDict(f)) == Some(f)
  {
    FindingDictColumns(f);
    FindingDictClassColumns(f);
    FindingDictMoreColumns(f);
  }

  // ---------------------------------------------------------------------------
  // Risk assessments

  datatype Risk = Risk(
    id: string,
    title: string,
    description: string,
    impact: string,
    mitigation: string,
    riskLevel: string,
    category: string,
    probability: real,
    impactScore: Option<real>,
    riskScore: Option<real>,
    metadata: Json,
    contractId: string,
    createdAt: real)

  function RiskLevelScore(r: Risk): nat {
    LevelScore(r.riskLevel)
  }

  function RiskIsCritical(r: Risk): (b: bool)
    ensures b <==> RiskLevelScore(r) == 4
  {
    r.riskLevel == "critical"
  }

  function RiskIsHighOrCritical(r: Risk): (b: bool)
    ensures b <==> RiskLevelScore(r) >= 3
  {
    r.riskLevel in ["high", "critical"]
  }

  lemma RiskCriticalIsHigh(r: Risk)
    ensures RiskIsCritical(r) ==> RiskIsHighOrCritical(r)
  {
  }

  /** `calculated_risk_score`: the stored score when set, else probability times impact
      score when that is set, else the probability alone. */
  function CalculatedRiskScore(r: Risk): (s: real)
    ensures r.riskScore.Some? ==> s == r.riskScore.value
    ensures r.riskScore.None? && r.impactScore.None? ==> s == r.probability
    ensures r.riskScore.None? && r.impactScore == Some(1.0) ==> s == r.probability
    ensures r.riskScore.None? && r.impactScore == Some(0.0) ==> s == 0.0
    ensures (r.riskScore.None? && r.impactScore.Some? && 0.0 <= r.impactScore.value <= 1.0
             && r.probability >= 0.0) ==> 0.0 <= s <= r.probability
  {
    if r.riskScore.Some? then r.riskScore.value
    else if r.impactScore.Some? then r.probability * r.impactScore.value
    else r.probability
  }

  predicate InUnit(x: real) { 0.0 <= x <= 1.0 }

  /** With every input in [0, 1], so is the calculated score. */
  lemma CalculatedRiskScoreInUnit(r: Risk)
    requires InUnit(r.probability)
    requires r.impactScore.Some? ==> InUnit(r.impactScore.value)
    requires r.riskScore.Some? ==> InUnit(r.riskScore.value)
    ensures InUnit(CalculatedRiskScore(r))
  {
    if r.riskScore.None? && r.impactScore.Some? {
      MulInUnit(r.probability, r.impactScore.value);
    }
  }

  lemma MulInUnit(a: real, b: real)
    requires InUnit(a) && InUnit(b)
    ensures InUnit(a * b) && a * b <= a
  {
    MulNonneg(a, b);
    MulNonneg(a, 1.0 - b);
    assert a * (1.0 - b) == a - a * b;
  }

  lemma MulNonneg(x: real, y: real)
    requires x >= 0.0 && y >= 0.0
    ensures x * y >= 0.0
  {
  }

  function RiskToDict(r: Risk): (d: Dict)
    ensures "risk_score" in d && d["risk_score"].JNum?
    ensures "is_critical" in d && "is_high_or_critical" in d
    ensures d["is_critical"] == JBool(true) ==> d["is_high_or_critical"] == JBool(true)
  {
    map[
      "id" := JStr(r.id),
      "title" := JStr(r.title),
      "description" := JStr(r.description),
      "impact" := JStr(r.impact),
      "mitigation" := JStr(r.mitigation),
      "risk_level" := JStr(r.riskLevel),
      "category" := JStr(r.category),
      "probability" := JNum(r.probability),
      "impact_score" := OfOptNum(r.impactScore),
      "risk_score" := JNum(CalculatedRiskScore(r)),
      "metadata" := r.metadata,
      "contract_id" := JStr(r.contractId),
      "risk_level_score" := JInt(RiskLevelScore(r)),
      "is_critical" := JBool(RiskIsCritical(r)),
      "is_high_or_critical" := JBool(RiskIsHighOrCritical(r)),
      "created_at" := JNum(r.createdAt)
    ]
  }

  function RiskFromDict(d: Dict): Option<Risk> {
    var id :- GetStr(d, "id");
    var title :- GetStr(d, "title");
    var description :- GetStr(d, "description");
    var impact :- GetStr(d, "impact");
    var mitigation :- GetStr(d, "mitigation");
    var riskLevel :- GetStr(d, "risk_level");
    var category :- GetStr(d, "category");
    var probability :- GetNum(d, "probability");
    var impactScore :- GetOptNum(d, "impact_score");
    var riskScore :- GetOptNum(d, "risk_score");
    var metadata :- GetAny(d, "metadata");
    var contractId :- GetStr(d, "contract_id");
    var createdAt :- GetNum(d, "created_at");
    Some(Risk(id, title, description, impact, mitigation, riskLevel, category, probability,
              impactScore, riskScore, metadata, contractId, createdAt))
  }

  /** `to_dict` exports the calculated score, not the stored column, under "risk_score":
      reading the dictionary back gives the risk with that score stored, which calculates to
      the same value. */
  lemma RiskDictRoundTrip(r: Risk)
    ensures RiskFromDict(RiskToDict(r)) == Some(r.(riskScore := Some(CalculatedRiskScore(r))))
    ensures CalculatedRiskScore(RiskFromDict(RiskToDict(r)).value) == CalculatedRiskScore(r)
  {
    RiskDictColumns(r);
    RiskDictClassColumns(r);
    RiskDictMoreColumns(r);
  }

  /** The derived entries of `to_dict`, as for a finding but over the risk level. */
  lemma RiskDictDerived(r: Risk)
    ensures var d := RiskToDict(r);
      && d["risk_level_score"].JInt?
      && (d["risk_level_score"].i == 0 <==> r.riskLevel !in LevelNames)
      && (d["risk_level_score"].i > 0 ==> Levels[d["risk_level_score"].i - 1] == r.riskLevel)
      && d["is_critical"] == JBool(r.riskLevel == "critical")
      && d["is_high_or_critical"] == JBool(r.riskLevel == "high" || r.riskLevel == "critical")
  {
  }

  lemma RiskDictColumns(r: Risk)
    ensures var d := RiskToDict(r);
      && GetStr(d, "id") == Some(r.id)
      && GetStr(d, "title") == Some(r.title)
      && GetStr(d, "description") == Some(r.description)
      && GetStr(d, "impact") == Some(r.impact)
  {
  }

  lemma RiskDictClassColumns(r: Risk)
    ensures var d := RiskToDict(r);
      && GetStr(d, "mitigation") == Some(r.mitigation)
      && GetStr(d, "risk_level") == Some(r.riskLevel)
      && GetStr(d, "category") == Some(r.category)
  {
  }

  lemma RiskDictMoreColumns(r: Risk)
    ensures var d := RiskToDict(r);
      && GetNum(d, "probability") == Some(r.probability)
      && GetOptNum(d, "impact_score") == Some(r.impactScore)
      && GetOptNum(d, "risk_score") == Some(Some(CalculatedRiskScore(r)))
      && GetAny(d, "metadata") == Some(r.metadata)
      && GetStr(d, "contract_id") == Some(r.contractId)
      && GetNum(d, "created_at") == Some(r.createdAt)
  {
  }

  // ---------------------------------------------------------------------------
  // Contracts

  /** The status a contract row starts in. */
  const DefaultAnalysisStatus := "pending"

  datatype Contract = Contract(
    id: string,
    address: string,
    chainId: int,
    name: Option<string>,
    sourceCode: string,
    analysisStatus: string,
    startedAt: Option<real>,
    completedAt: Option<real>,
    duration: Option<int>,
    summary: Option<string>,
    riskScore: Option<real>,
    projectId: string,
    createdAt: real,
    updatedAt: real,
    findings: seq<Finding>,
    risks: seq<Risk>)

  function Severities(fs: seq<Finding>): (ls: seq<string>)
    ensures |ls| == |fs| && forall i :: 0 <= i < |fs| ==> ls[i] == fs[i].severity
  {
    seq(|fs|, i requires 0 <= i < |fs| => fs[i].severity)
  }

  function RiskLevels(rs: seq<Risk>): (ls: seq<string>)
    ensures |ls| == |rs| && forall i :: 0 <= i < |rs| ==> ls[i] == rs[i].riskLevel
  {
    seq(|rs|, i requires 0 <= i < |rs| => rs[i].riskLevel)
  }

  /** `findings_count`: a count per level over exactly the four level keys, summing to the
      number of findings; a finding with any other severity makes it raise. */
  function FindingsCount(c: Contract): (r: Result<map<string, nat>, string>)
    ensures r.Success? <==> forall i :: 0 <= i < |c.findings| ==> c.findings[i].severity in LevelNames
    ensures r.Success? ==> r.value.Keys == LevelNames
    ensures r.Success? ==>
      r.value["low"] + r.value["medium"] + r.value["high"] + r.value["critical"] == |c.findings|
  {
    CountByLevel(Severities(c.findings))
  }

  /** `risks_count`: the same over the risks' levels. */
  function RisksCount(c: Contract): (r: Result<map<string, nat>, string>)
    ensures r.Success? <==> forall i :: 0 <= i < |c.risks| ==> c.risks[i].riskLevel in LevelNames
    ensures r.Success? ==> r.value.Keys == LevelNames
    ensures r.Success? ==>
      r.value["low"] + r.value["medium"] + r.value["high"] + r.value["critical"] == |c.risks|
  {
    CountByLevel(RiskLevels(c.risks))
  }

  /** `has_critical_issues`: some finding has severity "critical" or some risk has level
      "critical". */
  function HasCriticalIssues(c: Contract): (b: bool)
    ensures b <==> "critical" in Severities(c.findings) || "critical" in RiskLevels(c.risks)
  {
    var r := (exists i :: 0 <= i < |c.findings| && FindingIsCritical(c.findings[i]))
             || (exists i :: 0 <= i < |c.risks| && RiskIsCritical(c.risks[i]));
    assert ("critical" in Severities(c.findings)) ==> exists i :: 0 <= i < |c.findings| && FindingIsCritical(c.findings[i]) by {
      if "critical" in Severities(c.findings) {
        var i :| 0 <= i < |Severities(c.findings)| && Severities(c.findings)[i] == "critical";
        assert FindingIsCritical(c.findings[i]);
      }
    }
    assert ("critical" in RiskLevels(c.risks)) ==> exists i :: 0 <= i < |c.risks| && RiskIsCritical(c.risks[i]) by {
      if "critical" in RiskLevels(c.risks) {
        var i :| 0 <= i < |RiskLevels(c.risks)| && RiskLevels(c.risks)[i] == "critical";
        assert RiskIsCritical(c.risks[i]);
      }
    }
    r
  }

  lemma {:induction false} CountPositiveWitness(levels: seq<string>, l: string)
    ensures Seqs.Count(levels, IsLevel(l)) > 0 <==> exists i :: 0 <= i < |levels| && levels[i] == l
  {
    if |levels| > 0 {
      CountPositiveWitness(levels[1..], l);
      if exists i :: 0 <= i < |levels[1..]| && levels[1..][i] == l {
        var i :| 0 <= i < |levels[1..]| && levels[1..][i] == l;
        assert levels[i + 1] == l;
      }
      if exists i :: 0 <= i < |levels| && levels[i] == l {
        var i :| 0 <= i < |levels| && levels[i] == l;
        if i > 0 {
          assert levels[1..][i - 1] == l;
        }
      }
    }
  }

  /** Where both counts are defined, a contract has critical issues exactly when one of its
      counts has a non-zero "critical" entry. */
  lemma HasCriticalIssuesIffCounts(c: Contract)
    requires FindingsCount(c).Success? && RisksCount(c).Success?
    ensures HasCriticalIssues(c) <==>
      FindingsCount(c).value["critical"] > 0 || RisksCount(c).value["critical"] > 0
  {
    CountByLevelCounts(Severities(c.findings), "critical");
    CountByLevelCounts(RiskLevels(c.risks), "critical");
    CountPositiveWitness(Severities(c.findings), "critical");
    CountPositiveWitness(RiskLevels(c.risks), "critical");
  }

  // ---------------------------------------------------------------------------
  // Projects

  datatype Project = Project(
    id: string,
    name: string,
    description: Option<string>,
    userId: string,
    isPublic: bool,
    contracts: seq<Contract>,
    createdAt: real,
    updatedAt: real)

  function IsCompletedContract(c: Contract): bool {
    c.analysisStatus == "completed"
  }

  function CriticalCount(c: Contract): nat {
    Seqs.Count(c.findings, FindingIsCritical)
  }

  function ContractCount(p: Project): nat {
    |p.contracts|
  }

  /** `completed_analyses`: never more than the number of contracts. */
  function CompletedAnalyses(p: Project): (n: nat)
    ensures n <= ContractCount(p)
    ensures n == ContractCount(p) <==> forall i :: 0 <= i < |p.contracts| ==> IsCompletedContract(p.contracts[i])
  {
    AllCountedIffFull(p.contracts, IsCompletedContract);
    Seqs.Count(p.contracts, IsCompletedContract)
  }

  lemma {:induction false} AllCountedIffFull<T>(xs: seq<T>, q: T -> bool)
    ensures Seqs.Count(xs, q) == |xs| <==> forall i :: 0 <= i < |xs| ==> q(xs[i])
  {
    if |xs| > 0 {
      AllCountedIffFull(xs[1..], q);
      assert forall i :: 1 <= i < |xs| ==> xs[1..][i - 1] == xs[i];
    }
  }

  function SumCritical(cs: seq<Contract>): nat {
    if |cs| == 0 then 0 else CriticalCount(cs[0]) + SumCritical(cs[1..])
  }

  /** The findings of all the contracts, one contract after the other. */
  function AllFindings(cs: seq<Contract>): seq<Finding> {
    if |cs| == 0 then [] else cs[0].findings + AllFindings(cs[1..])
  }

  /** `critical_findings_count`: the critical findings summed over the contracts. It is the
      number of critical findings among all of them, and zero exactly when no contract has a
      finding of severity "critical". */
  function CriticalFindingsCount(p: Project): (n: nat)
    ensures n == Seqs.Count(AllFindings(p.contracts), FindingIsCritical)
    ensures n == 0 <==> forall i, f :: 0 <= i < |p.contracts| && f in p.contracts[i].findings ==> f.severity != "critical"
    ensures n > 0 ==> exists i :: 0 <= i < |p.contracts| && HasCriticalIssues(p.contracts[i])
  {
    SumCriticalIsFlatCount(p.contracts);
    NoCriticalIff(p.contracts);
    var n := SumCritical(p.contracts);
    if n > 0 then CriticalFindingsWitness(p.contracts); n else n
  }

  /** Summing per contract counts the same findings as counting the concatenation. */
  lemma {:induction false} SumCriticalIsFlatCount(cs: seq<Contract>)
    ensures SumCritical(cs) == Seqs.Count(AllFindings(cs), FindingIsCritical)
  {
    if |cs| > 0 {
      SumCriticalIsFlatCount(cs[1..]);
      Seqs.CountAppend(cs[0].findings, AllFindings(cs[1..]), FindingIsCritical);
    }
  }

  lemma {:induction false} CountZeroIff<T>(xs: seq<T>, q: T -> bool)
    ensures Seqs.Count(xs, q) == 0 <==> forall x :: x in xs ==> !q(x)
  {
    if |xs| > 0 {
      CountZeroIff(xs[1..], q);
      assert forall x :: x in xs <==> x == xs[0] || x in xs[1..];
    }
  }

  /** The per-contract sum is zero exactly when no finding of any contract is critical. */
  lemma {:induction false} NoCriticalIff(cs: seq<Contract>)
    ensures SumCritical(cs) == 0 <==> forall i, f :: 0 <= i < |cs| && f in cs[i].findings ==> f.severity != "critical"
  {
    if |cs| > 0 {
      NoCriticalIff(cs[1..]);
      CountZeroIff(cs[0].findings, FindingIsCritical);
      assert forall i :: 1 <= i < |cs| ==> cs[1..][i - 1] == cs[i];
    }
  }

  lemma {:induction false} CountWitness<T>(xs: seq<T>, q: T -> bool)
    requires Seqs.Count(xs, q) > 0
    ensures exists i :: 0 <= i < |xs| && q(xs[i])
  {
    if !q(xs[0]) {
      CountWitness(xs[1..], q);
      var i :| 0 <= i < |xs[1..]| && q(xs[1..][i]);
      assert xs[i + 1] == xs[1..][i];
    }
  }

  /** A project with critical findings has a contract with critical issues. */
  lemma {:induction false} CriticalFindingsWitness(cs: seq<Contract>)
    requires SumCritical(cs) > 0
    ensures exists i :: 0 <= i < |cs| && HasCriticalIssues(cs[i])
  {
    if CriticalCount(cs[0]) > 0 {
      CountWitness(cs[0].findings, FindingIsCritical);
      assert HasCriticalIssues(cs[0]);
    } else {
      CriticalFindingsWitness(cs[1..]);
      var i :| 0 <= i < |cs[1..]| && HasCriticalIssues(cs[1..][i]);
      assert cs[i + 1] == cs[1..][i];
    }
  }

  function ProjectToDict(p: Project): (d: Dict)
    ensures d.Keys == {"id", "name", "description", "user_id", "is_public", "contract_count",
                       "completed_analyses", "critical_findings_count", "created_at", "updated_at"}
    ensures d["completed_analyses"].JInt? && d["contract_count"].JInt?
    ensures 0 <= d["completed_analyses"].i <= d["contract_count"].i
    ensures d["contract_count"] == JInt(|p.contracts|)
    ensures d["completed_analyses"] == JInt(CompletedAnalyses(p))
    ensures d["critical_findings_count"] == JInt(Seqs.Count(AllFindings(p.contracts), FindingIsCritical))
    ensures d["id"] == JStr(p.id) && d["name"] == JStr(p.name) && d["user_id"] == JStr(p.userId)
    ensures d["is_public"] == JBool(p.isPublic)
    ensures d["created_at"] == JNum(p.createdAt) && d["updated_at"] == JNum(p.updatedAt)
  {
    map[
      "id" := JStr(p.id),
      "name" := JStr(p.name),
      "description" := OfOptStr(p.description),
      "user_id" := JStr(p.userId),
      "is_public" := JBool(p.isPublic),
      "contract_count" := JInt(ContractCount(p)),
      "completed_analyses" := JInt(CompletedAnalyses(p)),
      "critical_findings_count" := JInt(CriticalFindingsCount(p)),
      "created_at" := JNum(p.createdAt),
      "updated_at" := JNum(p.updatedAt)
    ]
  }

  // ---------------------------------------------------------------------------
  // Reports

  const DefaultReportStatus := "pending"
  const DefaultReportFormat := "pdf"

  datatype Report = Report(
    id: string,
    title: string,
    description: Option<string>,
    reportType: string,
    format: string,
    status: string,
    content: Option<string>,
    filePath: Option<string>,
    fileSize: Option<int>,
    generationStartedAt: Option<real>,
    generationCompletedAt: Option<real>,
    generationDuration: Option<int>,
    config: Json,
    projectId: string,
    createdAt: real,
    updatedAt: real)

  /** A report row as first inserted: the column defaults apply, nothing is generated yet. */
  function NewReport(id: string, title: string, reportType: string, projectId: string, now: real)
    : (r: Report)
    ensures !ReportIsCompleted(r) && !ReportIsFailed(r) && !ReportIsGenerating(r)
    ensures !ReportHasFile(r)
    ensures r.format == DefaultReportFormat
  {
    Report(id, title, None, reportType, DefaultReportFormat, DefaultReportStatus, None, None, None,
           None, None, None, JNull, projectId, now, now)
  }

  /** `is_completed`, `is_failed`, `is_generating`: the status is that value; the pending
      status of a new report is none of them. */
  function ReportIsCompleted(r: Report): (b: bool)
    ensures b <==> r.status == "completed"
    ensures r.status == DefaultReportStatus ==> !b
  {
    r.status == "completed"
  }

  function ReportIsFailed(r: Report): (b: bool)
    ensures b <==> r.status == "failed"
    ensures r.status == DefaultReportStatus ==> !b
  {
    r.status == "failed"
  }

  function ReportIsGenerating(r: Report): (b: bool)
    ensures b <==> r.status == "generating"
    ensures r.status == DefaultReportStatus ==> !b
  {
    r.status == "generating"
  }

  /** `has_file`: both the file path and the file size are recorded. */
  function ReportHasFile(r: Report): (b: bool)
    ensures b <==> r.filePath.Some? && r.fileSize.Some?
    ensures r.filePath.None? || r.fileSize.None? ==> !b
  {
    r.filePath.Some? && r.fileSize.Some?
  }

  /** The three status flags exclude one another. */
  lemma ReportFlagsExclusive(r: Report)
    ensures (if ReportIsCompleted(r) then 1 else 0) + (if ReportIsFailed(r) then 1 else 0)
            + (if ReportIsGenerating(r) then 1 else 0) <= 1
  {
  }

  /** The rendering reports the flags as the properties compute them, and leaves the
      generated content out. */
  function ReportToDict(r: Report): (d: Dict)
    ensures "content" !in d
    ensures "has_file" in d && "file_path" in d && "file_size" in d
    ensures "is_completed" in d && "is_failed" in d && "is_generating" in d
    ensures d["has_file"] == JBool(true) <==> d["file_path"].JStr? && d["file_size"].JInt?
    ensures d["is_completed"] == JBool(true) ==>
      d["is_failed"] == JBool(false) && d["is_generating"] == JBool(false)
    ensures d["is_failed"] == JBool(true) ==> d["is_generating"] == JBool(false)
  {
    map[
      "id" := JStr(r.id),
      "title" := JStr(r.title),
      "description" := OfOptStr(r.description),
      "report_type" := JStr(r.reportType),
      "format" := JStr(r.format),
      "status" := JStr(r.status),
      "file_path" := OfOptStr(r.filePath),
      "file_size" := OfOptInt(r.fileSize),
      "generation_started_at" := OfOptNum(r.generationStartedAt),
      "generation_completed_at" := OfOptNum(r.generationCompletedAt),
      "generation_duration" := OfOptInt(r.generationDuration),
      "config" := r.config,
      "project_id" := JStr(r.projectId),
      "is_completed" := JBool(ReportIsCompleted(r)),
      "is_failed" := JBool(ReportIsFailed(r)),
      "is_generating" := JBool(ReportIsGenerating(r)),
      "has_file" := JBool(ReportHasFile(r)),
      "created_at" := JNum(r.createdAt),
      "updated_at" := JNum(r.updatedAt)
    ]
  }

  // ---------------------------------------------------------------------------
  // Users

  datatype User = User(
    id: string,
    email: string,
    hashedPassword: string,
    name: string,
    role: string,
    isActive: bool,
    isVerified: bool,
    createdAt: real,
    updatedAt: real,
    lastLogin: Option<real>,
    projectIds: seq<string>)

  function IsAdmin(u: User): bool {
    u.role == "admin"
  }

  /** `is_analyst` holds for analysts and for admins. */
  function IsAnalyst(u: User): (b: bool)
    ensures b <==> IsAdmin(u) || u.role == "analyst"
  {
    u.role in ["admin", "analyst"]
  }

  /** `User.can_access_project`: the user owns a project with that id. */
  function OwnsProject(u: User, projectId: string): (b: bool)
    ensures b <==> projectId in u.projectIds
  {
    exists i :: 0 <= i < |u.projectIds| && u.projectIds[i] == projectId
  }

  /** The rendering never carries the password hash, and `last_login` is null exactly when
      the user never logged in. */
  function UserToDict(u: User): (d: Dict)
    ensures d.Keys == {"id", "email", "name", "role", "is_active", "is_verified",
                       "created_at", "updated_at", "last_login"}
    ensures "hashed_password" !in d
    ensures d["last_login"] == JNull <==> u.lastLogin.None?
  {
    map[
      "id" := JStr(u.id),
      "email" := JStr(u.email),
      "name" := JStr(u.name),
      "role" := JStr(u.role),
      "is_active" := JBool(u.isActive),
      "is_verified" := JBool(u.isVerified),
      "created_at" := JNum(u.createdAt),
      "updated_at" := JNum(u.updatedAt),
      "last_login" := OfOptNum(u.lastLogin)
    ]
  }
}

=== FILE: json.dfy ===
/** JSON values, as the services build and read them: `to_dict` results, response bodies
    and the claims of a token. Typed readers return `None` when the key is absent or
    holds a value of another type. */
module Json {
  import opened Wrappers

  datatype Json =
    | JNull
    | JBool(b: bool)
    | JInt(i: int)
    | JNum(n: real)
    | JStr(s: string)
    | JArr(items: seq<Json>)
    | JObj(fields: map<string, Json>)

  type Dict = map<string, Json>

  /** An optional string column: `None` is rendered as `null`. */
  function OfOptStr(o: Option<string>): Json {
    match o
    case Some(s) => JStr(s)
    case None => JNull
  }

  function OfOptInt(o: Option<int>): Json {
    match o
    case Some(n) => JInt(n)
    case None => JNull
  }

  function OfOptNum(o: Option<real>): Json {
    match o
    case Some(n) => JNum(n)
    case None => JNull
  }

  function GetStr(d: Dict, k: string): Option<string> {
    if k in d && d[k].JStr? then Some(d[k].s) else None
  }

  function GetBool(d: Dict, k: string): Option<bool> {
    if k in d && d[k].JBool? then Some(d[k].b) else None
  }

  function GetInt(d: Dict, k: string): Option<int> {
    if k in d && d[k].JInt? then Some(d[k].i) else None
  }

  function GetNum(d: Dict, k: string): Option<real> {
    if k in d && d[k].JNum? then Some(d[k].n) else None
  }

  function GetAny(d: Dict, k: string): Option<Json> {
    if k in d then Some(d[k]) else None
  }

  /** Reads back a value written by `OfOptStr`. */
  function GetOptStr(d: Dict, k: string): (r: Option<Option<string>>)
    ensures forall o :: k in d && d[k] == OfOptStr(o) ==> r == Some(o)
  {
    if k !in d then None
    else match d[k]
      case JNull => Some(None)
      case JStr(s) => Some(Some(s))
      case _ => None
  }

  /** Reads back a value written by `OfOptInt`. */
  function GetOptInt(d: Dict, k: string): (r: Option<Option<int>>)
    ensures forall o :: k in d && d[k] == OfOptInt(o) ==> r == Some(o)
  {
    if k !in d then None
    else match d[k]
      case JNull => Some(None)
      case JInt(n) => Some(Some(n))
      case _ => None
  }

  /** Reads back a value written by `OfOptNum`. */
  function GetOptNum(d: Dict, k: string): (r: Option<Option<real>>)
    ensures forall o :: k in d && d[k] == OfOptNum(o) ==> r == Some(o)
  {
    if k !in d then None
    else match d[k]
      case JNull => Some(None)
      case JNum(n) => Some(Some(n))
      case _ => None
  }
}

=== FILE: lifecycle.dfy ===
/** The state changes of the contract and project services: idempotent contract creation,
    status bookkeeping with timestamps and duration, the filtered findings and risks of a
    contract, project creation, update and sharing, and a project's recent activity. A
    table is a sequence of rows; a lookup by key finds the single matching row, and the
    clock and generated ids are parameters. */
module Lifecycle {
  import opened Wrappers
  import opened Seqs
  import opened Numbers
  import E = Entities
  import Ac = Access

  // ---------------------------------------------------------------------------
  // Creating contracts

  predicate SameKey(c: E.Contract, projectId: string, address: string, chainId: int) {
    c.projectId == projectId && c.address == address && c.chainId == chainId
  }

  function KeyOf(projectId: string, address: string, chainId: int): E.Contract -> bool {
    (c: E.Contract) => SameKey(c, projectId, address, chainId)
  }

  /** `get_contract_by_address`: the one row with this project, address and chain. With no
      row it is `None`, and also with several: the single-row read then raises, and the
      lookup answers `None` for any error. */
  function ContractByAddress(db: seq<E.Contract>, projectId: string, address: string, chainId: int)
    : (r: Option<E.Contract>)
    ensures r.Some? <==> Count(db, KeyOf(projectId, address, chainId)) == 1
    ensures r.Some? ==> r.value in db && SameKey(r.value, projectId, address, chainId)
  {
    var matching := Filter(db, KeyOf(projectId, address, chainId));
    if |matching| == 1 then Some(matching[0]) else None
  }

  /** `address[:8]`. */
  function DefaultContractName(address: string): (n: string)
    ensures |n| == 9 + (if |address| < 8 then |address| else 8) && n[..9] == "Contract_"
  {
    "Contract_" + SliceTo(address, 8)
  }

  /** The contracts table after a creation request, and the contract it returned. */
  datatype Created = Created(db: seq<E.Contract>, contract: Option<E.Contract>)

  /** `create_contract`: `None` for a missing project; the existing contract, unchanged, when
      one with the same project, address and chain is found; otherwise a new "pending" row
      named by the caller or after the address. */
  function CreateContract(db: seq<E.Contract>, projectExists: bool, projectId: string, address: string,
                          chainId: int, sourceCode: string, name: Option<string>, id: string, now: real)
    : (r: Created)
    ensures !projectExists ==> r == Created(db, None)
    ensures projectExists && ContractByAddress(db, projectId, address, chainId).Some? ==>
      r == Created(db, ContractByAddress(db, projectId, address, chainId))
    ensures projectExists && ContractByAddress(db, projectId, address, chainId).None? ==>
      r.contract.Some? && r.db == db + [r.contract.value]
      && r.contract.value.analysisStatus == E.DefaultAnalysisStatus
      && SameKey(r.contract.value, projectId, address, chainId)
      && r.contract.value.sourceCode == sourceCode
      && r.contract.value.name == Some(if name.Some? && name.value != "" then name.value
                                       else DefaultContractName(address))
  {
    if !projectExists then Created(db, None)
    else
      var existing := ContractByAddress(db, projectId, address, chainId);
      if existing.Some? then Created(db, existing)
      else
        var c := E.Contract(id, address, chainId,
                            Some(if name.Some? && name.value != "" then name.value else DefaultContractName(address)),
                            sourceCode, E.DefaultAnalysisStatus, None, None, None, None, None,
                            projectId, now, now, [], []);
        Created(db + [c], Some(c))
  }

  /** Creating the same contract again returns the contract of the first request and
      leaves the table as the first request left it, whatever source, name, id or time the
      second request carries. */
  lemma CreateContractIdempotent(db: seq<E.Contract>, projectId: string, address: string, chainId: int,
                                 source1: string, name1: Option<string>, id1: string, now1: real,
                                 source2: string, name2: Option<string>, id2: string, now2: real)
    requires Count(db, KeyOf(projectId, address, chainId)) <= 1
    ensures var first := CreateContract(db, true, projectId, address, chainId, source1, name1, id1, now1);
      CreateContract(first.db, true, projectId, address, chainId, source2, name2, id2, now2) == first
  {
    var key := KeyOf(projectId, address, chainId);
    var first := CreateContract(db, true, projectId, address, chainId, source1, name1, id1, now1);
    if ContractByAddress(db, projectId, address, chainId).None? {
      assert Count(db, key) == 0;
      CountAppend(db, [first.contract.value], key);
      assert Count([first.contract.value], key) == 1;
      assert Count(first.db, key) == 1;
      assert Filter(first.db, key) == [first.contract.value] by {
        FilterAppendOne(db, first.contract.value, key);
        assert |Filter(db, key)| == 0;
      }
    }
  }

  // ---------------------------------------------------------------------------
  // Status bookkeeping

  /** `update_contract_status` on the looked-up contract (`None`: not found, nothing
      changes). "analyzing" stamps the start; "completed" and "failed" stamp the end and,
      when a start is recorded, the whole seconds between the two; any other status only
      replaces the status. No transition is refused. The commit restamps `updated_at` when
      the row changed (its `onupdate`), and leaves a row that did not change as it was. */
  function UpdateContractStatus(c: Option<E.Contract>, status: string, now: real): (r: Option<E.Contract>)
    ensures r.Some? <==> c.Some?
    ensures r.Some? ==> r.value.analysisStatus == status
    ensures r.Some? && status == "analyzing" ==>
      r.value.startedAt == Some(now) && r.value.completedAt == c.value.completedAt
      && r.value.duration == c.value.duration
    ensures r.Some? && (status == "completed" || status == "failed") ==>
      r.value.completedAt == Some(now) && r.value.startedAt == c.value.startedAt
      && r.value.duration == (if c.value.startedAt.Some? then Some(Trunc(now - c.value.startedAt.value))
                              else c.value.duration)
    ensures r.Some? && status !in {"analyzing", "completed", "failed"} ==>
      r.value.(updatedAt := c.value.updatedAt) == c.value.(analysisStatus := status)
    ensures r.Some? ==>
      r.value.(analysisStatus := c.value.analysisStatus, startedAt := c.value.startedAt,
               completedAt := c.value.completedAt, duration := c.value.duration,
               updatedAt := c.value.updatedAt) == c.value
    ensures r.Some? && r.value.(updatedAt := c.value.updatedAt) != c.value ==> r.value.updatedAt == now
    ensures r.Some? && r.value.(updatedAt := c.value.updatedAt) == c.value ==> r.value == c.value
  {
    match c
    case None => None
    case Some(k) =>
      var k1 := k.(analysisStatus := status);
      var k2 :=
        if status == "analyzing" then k1.(startedAt := Some(now))
        else if status == "completed" || status == "failed" then
          if k.startedAt.Some? then k1.(completedAt := Some(now), duration := Some(Trunc(now - k.startedAt.value)))
          else k1.(completedAt := Some(now))
        else k1;
      if k2 == k then Some(k) else Some(k2.(updatedAt := now))
  }

  /** A run that starts at `t0` and ends at `t1 >= t0` records its start, its end, and a
      non-negative duration of the whole seconds in between. */
  lemma RunDuration(c: E.Contract, t0: real, t1: real, outcome: string)
    requires t0 <= t1 && (outcome == "completed" || outcome == "failed")
    ensures var r := UpdateContractStatus(UpdateContractStatus(Some(c), "analyzing", t0), outcome, t1).value;
      r.analysisStatus == outcome && r.startedAt == Some(t0) && r.completedAt == Some(t1)
      && r.duration.Some? && 0 <= r.duration.value
      && r.duration.value as real <= t1 - t0 < r.duration.value as real + 1.0
  {
  }

  /** Finished runs are not protected: a completed contract can be moved back to
      "analyzing", and it then keeps the end time of its earlier run. */
  lemma FinishedRunReopens(c: E.Contract, now: real)
    requires c.analysisStatus == "completed" && c.completedAt.Some?
    ensures var r := UpdateContractStatus(Some(c), "analyzing", now).value;
      r.analysisStatus == "analyzing" && r.completedAt == c.completedAt
  {
  }

  // ---------------------------------------------------------------------------
  // Filtered findings and risks

  /** A query filter: an absent or empty filter selects everything. */
  predicate MatchesFilter(value: string, filter: Option<string>) {
    !Ac.Given(filter) || value == filter.value
  }

  predicate FindingSelected(f: E.Finding, contractId: string, severity: Option<string>, category: Option<string>) {
    f.contractId == contractId && MatchesFilter(f.severity, severity) && MatchesFilter(f.category, category)
  }

  function FindingRank(f: E.Finding): Rank {
    Rank(E.SeverityScore(f), f.createdAt)
  }

  /** `get_contract_findings` as written: the ordering names the severity score, a plain
      Python property of the model class rather than a column, and asking it for a
      descending order raises; the error handler then returns an empty list, whatever the
      table holds. */
  function ContractFindingsAsWritten(table: seq<E.Finding>, contractId: string,
                                     severity: Option<string>, category: Option<string>)
    : (r: seq<E.Finding>)
    ensures r == []
  {
    []
  }

  /** `xs` restricted to `p`, in descending rank order. */
  function SortedFilter<T(==)>(xs: seq<T>, p: T -> bool, rank: T -> Rank): (r: seq<T>)
    ensures forall i :: 0 <= i < |r| ==> p(r[i])
    ensures forall x :: x in xs && p(x) ==> x in r
    ensures multiset(r) == multiset(Filter(xs, p))
    ensures SortedDesc(r, rank)
  {
    SortedFilterSpec(xs, p, rank);
    SortDesc(Filter(xs, p), rank)
  }

  lemma SortedFilterSpec<T>(xs: seq<T>, p: T -> bool, rank: T -> Rank)
    ensures var r := SortDesc(Filter(xs, p), rank);
      (forall i :: 0 <= i < |r| ==> p(r[i]))
      && (forall x :: x in xs && p(x) ==> x in r)
      && multiset(r) == multiset(Filter(xs, p))
      && SortedDesc(r, rank)
  {
    var selected := Filter(xs, p);
    var r := SortDesc(selected, rank);
    SortDescSpec(selected, rank);
    assert forall i :: 0 <= i < |r| ==> p(r[i]) by {
      forall i | 0 <= i < |r| ensures p(r[i]) {
        PermutationMember(r, selected, r[i]);
        var j :| 0 <= j < |selected| && selected[j] == r[i];
      }
    }
    assert forall x :: x in xs && p(x) ==> x in r by {
      forall x | x in xs && p(x) ensures x in r {
        PermutationMember(selected, r, x);
      }
    }
  }

  function FindingFilter(contractId: string, severity: Option<string>, category: Option<string>)
    : E.Finding -> bool
  {
    (f: E.Finding) => FindingSelected(f, contractId, severity, category)
  }

  /** The findings of a contract, filtered by the given severity and category, highest
      score first and, within a score, newest first. */
  function ContractFindings(table: seq<E.Finding>, contractId: string,
                            severity: Option<string>, category: Option<string>)
    : (r: seq<E.Finding>)
    ensures forall i :: 0 <= i < |r| ==> FindingSelected(r[i], contractId, severity, category)
    ensures forall f :: f in table && FindingSelected(f, contractId, severity, category) ==> f in r
    ensures multiset(r) == multiset(Filter(table, FindingFilter(contractId, severity, category)))
    ensures SortedDesc(r, FindingRank)
  {
    SortedFilter(table, FindingFilter(contractId, severity, category), FindingRank)
  }

  /** A contract with a finding matching the filters gets it back from the corrected query
      and nothing from the query as written. */
  lemma ContractFindingsCounterexample(f: E.Finding)
    ensures ContractFindings([f], f.contractId, None, None) == [f]
    ensures ContractFindingsAsWritten([f], f.contractId, None, None) == []
  {
    var r := ContractFindings([f], f.contractId, None, None);
    assert f in r;
    assert |r| == |multiset(r)| == 1;
  }

  predicate RiskSelected(r: E.Risk, contractId: string, level: Option<string>, category: Option<string>) {
    r.contractId == contractId && MatchesFilter(r.riskLevel, level) && MatchesFilter(r.category, category)
  }

  function RiskRank(r: E.Risk): Rank {
    Rank(E.RiskLevelScore(r), r.createdAt)
  }

  /** `get_contract_risks` as written: the same failure, through the level score property. */
  function ContractRisksAsWritten(table: seq<E.Risk>, contractId: string,
                                  level: Option<string>, category: Option<string>)
    : (r: seq<E.Risk>)
    ensures r == []
  {
    []
  }

  function RiskFilter(contractId: string, level: Option<string>, category: Option<string>): E.Risk -> bool {
    (x: E.Risk) => RiskSelected(x, contractId, level, category)
  }

  /** The risks of a contract, filtered by level and category, highest level first and,
      within a level, newest first. */
  function ContractRisks(table: seq<E.Risk>, contractId: string, level: Option<string>, category: Option<string>)
    : (r: seq<E.Risk>)
    ensures forall i :: 0 <= i < |r| ==> RiskSelected(r[i], contractId, level, category)
    ensures forall x :: x in table && RiskSelected(x, contractId, level, category) ==> x in r
    ensures multiset(r) == multiset(Filter(table, RiskFilter(contractId, level, category)))
    ensures SortedDesc(r, RiskRank)
  {
    SortedFilter(table, RiskFilter(contractId, level, category), RiskRank)
  }

  lemma ContractRisksCounterexample(x: E.Risk)
    ensures ContractRisks([x], x.contractId, None, None) == [x]
    ensures ContractRisksAsWritten([x], x.contractId, None, None) == []
  {
    var r := ContractRisks([x], x.contractId, None, None);
    assert x in r;
    assert |r| == |multiset(r)| == 1;
  }

  // ---------------------------------------------------------------------------
  // Projects

  /** `create_project`: `None` for an unknown user; otherwise a private project of that user
      with no contracts. */
  function CreateProject(userExists: bool, id: string, userId: string, name: string,
                         description: Option<string>, now: real)
    : (r: Option<E.Project>)
    ensures r.Some? <==> userExists
    ensures r.Some? ==> !r.value.isPublic && r.value.userId == userId && r.value.contracts == []
  {
    if !userExists then None
    else Some(E.Project(id, name, description, userId, false, [], now, now))
  }

  /** Only its owner and admins can reach a new project. */
  lemma NewProjectPrivate(id: string, userId: string, name: string, description: Option<string>,
                          now: real, u: E.User)
    ensures var p := CreateProject(true, id, userId, name, description, now).value;
      Ac.CanAccessProject(u, p) <==> E.IsAdmin(u) || u.id == userId
  {
  }

  /** `update_project` on the looked-up project (`None`: not found): each field given as
      non-`None` replaces the stored one, the update time is stamped, nothing else
      changes. */
  function UpdateProject(p: Option<E.Project>, name: Option<string>, description: Option<string>,
                         isPublic: Option<bool>, now: real)
    : (r: Option<E.Project>)
    ensures r.Some? <==> p.Some?
    ensures r.Some? ==>
      r.value.name == name.GetOr(p.value.name)
      && r.value.description == (if description.Some? then description else p.value.description)
      && r.value.isPublic == isPublic.GetOr(p.value.isPublic)
      && r.value.updatedAt == now
    ensures r.Some? ==>
      r.value.(name := p.value.name, description := p.value.description,
               isPublic := p.value.isPublic, updatedAt := p.value.updatedAt) == p.value
  {
    match p
    case None => None
    case Some(q) =>
      Some(q.(name := name.GetOr(q.name),
              description := if description.Some? then description else q.description,
              isPublic := isPublic.GetOr(q.isPublic),
              updatedAt := now))
  }

  /** Repeating an update changes nothing more, and an update with no fields only stamps the
      time. */
  lemma UpdateProjectIdempotent(p: E.Project, name: Option<string>, description: Option<string>,
                                isPublic: Option<bool>, now: real)
    ensures var once := UpdateProject(Some(p), name, description, isPublic, now);
      UpdateProject(once, name, description, isPublic, now) == once
    ensures UpdateProject(Some(p), None, None, None, now) == Some(p.(updatedAt := now))
  {
  }

  /** `share_project`: for an existing project and target user the project is made public
      (the requested permission level is not stored anywhere); otherwise nothing changes. */
  function ShareProject(p: Option<E.Project>, targetExists: bool, permissionLevel: string, now: real)
    : (r: Option<E.Project>)
    ensures r.Some? <==> p.Some? && targetExists
    ensures r.Some? ==> r.value == p.value.(isPublic := true, updatedAt := now)
  {
    if p.Some? && targetExists then Some(p.value.(isPublic := true, updatedAt := now)) else None
  }

  /** After sharing, every user, not only the target, can read the project, while the
      right to modify it is unchanged. */
  lemma ShareOpensToEveryone(p: E.Project, level: string, now: real, u: E.User)
    ensures var s := ShareProject(Some(p), true, level, now).value;
      Ac.CanAccessProject(u, s) && (Ac.CanModifyProject(u, s) <==> Ac.CanModifyProject(u, p))
  {
  }

  // ---------------------------------------------------------------------------
  // Recent activity

  datatype ActivityKind = ContractAdded | AnalysisCompleted

  /** One activity entry; the contract fields it carries depend on the kind. */
  datatype Activity = Activity(
    kind: ActivityKind,
    timestamp: real,
    contractId: string,
    address: string,
    name: Option<string>,
    status: string,
    riskScore: Option<real>,
    duration: Option<int>)

  predicate CompletedWithTime(c: E.Contract) {
    c.analysisStatus == "completed" && c.completedAt.Some?
  }

  /** The entries one contract contributes: its addition and, for a completed analysis with
      an end time, the completion. */
  function ContractActivities(c: E.Contract): (r: seq<Activity>)
    ensures 1 <= |r| <= 2
    ensures r[0].kind == ContractAdded && r[0].timestamp == c.createdAt && r[0].contractId == c.id
    ensures |r| == 2 <==> CompletedWithTime(c)
    ensures |r| == 2 ==>
      r[1].kind == AnalysisCompleted && r[1].timestamp == c.completedAt.value && r[1].contractId == c.id
  {
    var added := Activity(ContractAdded, c.createdAt, c.id, c.address, c.name, c.analysisStatus, None, None);
    if CompletedWithTime(c) then
      [added, Activity(AnalysisCompleted, c.completedAt.value, c.id, c.address, None, "",
                       c.riskScore, c.duration)]
    else [added]
  }

  /** The entries of all contracts, contract by contract: one per contract, plus one per
      completed analysis with an end time, each naming one of the contracts. */
  function Activities(cs: seq<E.Contract>): (r: seq<Activity>)
    ensures |r| == |cs| + Count(cs, CompletedWithTime)
    ensures forall k :: 0 <= k < |r| ==> exists i :: 0 <= i < |cs| && r[k].contractId == cs[i].id
  {
    if |cs| == 0 then []
    else
      var head := ContractActivities(cs[0]);
      var rest := Activities(cs[1..]);
      forall k | 0 <= k < |head + rest| ensures exists i :: 0 <= i < |cs| && (head + rest)[k].contractId == cs[i].id {
        if k < |head| {
          assert (head + rest)[k] == head[k];
        } else {
          assert (head + rest)[k] == rest[k - |head|];
          var i :| 0 <= i < |cs[1..]| && rest[k - |head|].contractId == cs[1..][i].id;
          assert cs[1..][i] == cs[i + 1];
        }
      }
      head + rest
  }

  /** Each contract's entries are among the activities. */
  lemma {:induction false} ActivitiesMembers(cs: seq<E.Contract>, i: nat)
    requires i < |cs|
    ensures ContractActivities(cs[i])[0] in Activities(cs)
    ensures CompletedWithTime(cs[i]) ==> ContractActivities(cs[i])[1] in Activities(cs)
  {
    if i > 0 {
      ActivitiesMembers(cs[1..], i - 1);
      assert cs[1..][i - 1] == cs[i];
    }
  }

  function ActivityRank(a: Activity): Rank {
    Rank(0, a.timestamp)
  }

  /** The closing sort and cut of `get_recent_activity`: the entries newest first, at most
      `limit` of them. */
  function NewestFirst(all: seq<Activity>, limit: nat): (r: seq<Activity>)
    ensures |r| <= limit
    ensures SortedDesc(r, ActivityRank)
    ensures multiset(r) <= multiset(all)
    ensures |all| <= limit ==> multiset(r) == multiset(all)
  {
    SortedCut(all, ActivityRank, limit);
    SliceTo(SortDesc(all, ActivityRank), limit)
  }

  /** `get_recent_activity`: the entries of the newest `limit` contracts (`rows` is the
      project's contracts, newest first), newest entry first, at most `limit` of them. */
  function RecentActivity(rows: seq<E.Contract>, limit: nat): (r: seq<Activity>)
    ensures |r| <= limit
    ensures SortedDesc(r, ActivityRank)
    ensures multiset(r) <= multiset(Activities(SliceTo(rows, limit)))
    ensures |Activities(SliceTo(rows, limit))| <= limit ==>
      multiset(r) == multiset(Activities(SliceTo(rows, limit)))
  {
    NewestFirst(Activities(SliceTo(rows, limit)), limit)
  }

  /** The activity list keeps the newest entries: it has `limit` of them, or all when there
      are fewer, and every entry it drops is no newer than the last one it keeps. */
  lemma RecentActivityNewest(rows: seq<E.Contract>, limit: nat)
    ensures var all := Activities(SliceTo(rows, limit));
      var r := RecentActivity(rows, limit);
      |r| == (if |all| <= limit then |all| else limit)
      && forall a :: a in multiset(all) - multiset(r) ==> |r| > 0 && a.timestamp <= r[|r| - 1].timestamp
  {
    var all := Activities(SliceTo(rows, limit));
    assert limit == 0 ==> all == [];
    var r := RecentActivity(rows, limit);
    NewestActivities(all, limit);
    assert r == NewestFirst(all, limit);
    forall a: Activity | a in multiset(all) - multiset(r)
      ensures |r| > 0 && a.timestamp <= r[|r| - 1].timestamp
    {
    }
  }

  /** Sorting activities newest first and keeping `limit` of them keeps the newest ones. */
  lemma NewestActivities(all: seq<Activity>, limit: nat)
    requires limit > 0 || |all| == 0
    ensures var r := NewestFirst(all, limit);
      |r| == (if |all| <= limit then |all| else limit)
      && forall a :: a in multiset(all) - multiset(r) ==> |r| > 0 && a.timestamp <= r[|r| - 1].timestamp
  {
    if |all| <= limit {
      AllActivitiesKept(all, limit);
    } else {
      OlderActivitiesDropped(all, limit);
    }
  }

  lemma AllActivitiesKept(all: seq<Activity>, limit: nat)
    requires |all| <= limit
    ensures var r := NewestFirst(all, limit); |r| == |all| && multiset(all) - multiset(r) == multiset{}
  {
    assert NewestFirst(all, limit) == SliceTo(SortDesc(all, ActivityRank), limit);
    SortedCutAll(all, ActivityRank, limit);
  }

  lemma OlderActivitiesDropped(all: seq<Activity>, limit: nat)
    requires 0 < limit < |all|
    ensures var r := NewestFirst(all, limit);
      |r| == limit && forall a :: a in multiset(all) - multiset(r) ==> a.timestamp <= r[limit - 1].timestamp
  {
    var r := NewestFirst(all, limit);
    assert r == SliceTo(SortDesc(all, ActivityRank), limit);
    SortedCutDropped(all, ActivityRank, limit);
    forall a: Activity | a in multiset(all) - multiset(r) ensures a.timestamp <= r[limit - 1].timestamp {
      assert !RankLess(ActivityRank(r[limit - 1]), ActivityRank(a));
    }
  }
}

=== FILE: numbers.dfy ===
/** Numeric conversions the services perform on floats. */
module Numbers {

  /** Python's `int(x)` on a float: truncation toward zero. */
  function Trunc(x: real): (n: int)
    ensures x >= 0.0 ==> n >= 0 && n as real <= x < n as real + 1.0
    ensures x < 0.0 ==> n <= 0 && n as real - 1.0 < x <= n as real
  {
    if x >= 0.0 then x.Floor else -((-x).Floor)
  }

  /** Python's `min(a, b)` on floats. */
  function MinReal(a: real, b: real): (m: real)
    ensures m <= a && m <= b && (m == a || m == b)
  {
    if a <= b then a else b
  }

  function Pow2(n: nat): (p: nat)
    ensures p >= 1
  {
    if n == 0 then 1 else 2 * Pow2(n - 1)
  }
}

=== FILE: payloads.dfy ===
/** The dictionaries the analysis services pass to one another. Every key is read with
    `.get(key, default)`, so each entry is an `Option`: `None` when the key is absent.
    A key holding JSON `null` is read the same way as an absent one by every consumer
    modelled here, and the values' JSON types are taken to be the expected ones. */
module Payloads {
  import opened Wrappers
  import J = Json

  /** A finding dictionary, as a tool parser or an AI provider produces it. */
  datatype FindingPayload = FindingPayload(
    title: Option<string>,
    description: Option<string>,
    recommendation: Option<string>,
    severity: Option<string>,
    category: Option<string>,
    lineNumber: Option<int>,
    functionName: Option<string>,
    fileName: Option<string>,
    tool: Option<string>,
    confidence: Option<real>,
    source: Option<string>)

  /** A risk dictionary. */
  datatype RiskPayload = RiskPayload(
    title: Option<string>,
    description: Option<string>,
    impact: Option<string>,
    mitigation: Option<string>,
    riskLevel: Option<string>,
    category: Option<string>,
    probability: Option<real>,
    impactScore: Option<real>,
    riskScore: Option<real>,
    source: Option<string>)

  /** A gas optimisation entry; only the number of them matters to the services. */
  datatype GasOptimization = GasOptimization(title: Option<string>, description: Option<string>)

  /** A compliance issue; only its severity is read. */
  datatype ComplianceIssue = ComplianceIssue(title: Option<string>, severity: Option<string>)

  /** `results["security"]`, `["risk"]`, `["gas"]` and `["compliance"]`. */
  /** `toolsUsed` is the `tools_used` list, which only the static service writes. */
  datatype SecuritySection = SecuritySection(findings: Option<seq<FindingPayload>>, toolsUsed: Option<seq<string>>)
  datatype RiskSection = RiskSection(risks: Option<seq<RiskPayload>>)
  datatype GasSection = GasSection(optimizations: Option<seq<GasOptimization>>)
  datatype ComplianceSection = ComplianceSection(complianceIssues: Option<seq<ComplianceIssue>>)

  /** The result dictionary of one analysis service: a section per analysis type run. */
  datatype ToolResults = ToolResults(
    security: Option<SecuritySection>,
    risk: Option<RiskSection>,
    gas: Option<GasSection>,
    compliance: Option<ComplianceSection>)

  /** `results.get("security", {}).get("findings", [])`, and likewise for the others. */
  function FindingsOf(r: ToolResults): seq<FindingPayload> {
    if r.security.Some? then r.security.value.findings.GetOr([]) else []
  }

  function RisksOf(r: ToolResults): seq<RiskPayload> {
    if r.risk.Some? then r.risk.value.risks.GetOr([]) else []
  }

  function OptimizationsOf(r: ToolResults): seq<GasOptimization> {
    if r.gas.Some? then r.gas.value.optimizations.GetOr([]) else []
  }

  function ComplianceIssuesOf(r: ToolResults): seq<ComplianceIssue> {
    if r.compliance.Some? then r.compliance.value.complianceIssues.GetOr([]) else []
  }

  /** Selectors for the findings of one severity and the risks of one level. */
  function SeverityIs(s: string): FindingPayload -> bool {
    (f: FindingPayload) => f.severity == Some(s)
  }

  function LevelIs(s: string): RiskPayload -> bool {
    (r: RiskPayload) => r.riskLevel == Some(s)
  }

  /** A progress notice sent to a contract's subscribers: its status and percentage. */
  datatype ProgressEvent = ProgressEvent(status: string, progress: int)

  // ---------------------------------------------------------------------------
  // The dictionaries as JSON

  /** The entries of `full` that hold a value: a key holding `null` is dropped. */
  function Present(full: J.Dict): (d: J.Dict)
    ensures forall k :: k in d <==> k in full && full[k] != J.JNull
    ensures forall k :: k in d ==> d[k] == full[k]
  {
    map k | k in full && full[k] != J.JNull :: full[k]
  }

  /** A finding dictionary as JSON, with exactly the keys it holds. */
  function FindingDict(p: FindingPayload): J.Dict {
    Present(FindingEntries(p))
  }

  /** Every key a finding dictionary may hold, `null` where it is absent. */
  function FindingEntries(p: FindingPayload): J.Dict {
    map[
      "title" := J.OfOptStr(p.title),
      "description" := J.OfOptStr(p.description),
      "recommendation" := J.OfOptStr(p.recommendation),
      "severity" := J.OfOptStr(p.severity),
      "category" := J.OfOptStr(p.category),
      "line_number" := J.OfOptInt(p.lineNumber),
      "function_name" := J.OfOptStr(p.functionName),
      "file_name" := J.OfOptStr(p.fileName),
      "tool" := J.OfOptStr(p.tool),
      "confidence" := J.OfOptNum(p.confidence),
      "source" := J.OfOptStr(p.source)
    ]
  }

  /** Reads a finding dictionary back from JSON. */
  function FindingOfDict(d: J.Dict): FindingPayload {
    FindingPayload(
      J.GetStr(d, "title"),
      J.GetStr(d, "description"),
      J.GetStr(d, "recommendation"),
      J.GetStr(d, "severity"),
      J.GetStr(d, "category"),
      J.GetInt(d, "line_number"),
      J.GetStr(d, "function_name"),
      J.GetStr(d, "file_name"),
      J.GetStr(d, "tool"),
      J.GetNum(d, "confidence"),
      J.GetStr(d, "source"))
  }

  /** A risk dictionary as JSON, with exactly the keys it holds. */
  function RiskDict(p: RiskPayload): J.Dict {
    Present(RiskEntries(p))
  }

  function RiskEntries(p: RiskPayload): J.Dict {
    map[
      "title" := J.OfOptStr(p.title),
      "description" := J.OfOptStr(p.description),
      "impact" := J.OfOptStr(p.impact),
      "mitigation" := J.OfOptStr(p.mitigation),
      "risk_level" := J.OfOptStr(p.riskLevel),
      "category" := J.OfOptStr(p.category),
      "probability" := J.OfOptNum(p.probability),
      "impact_score" := J.OfOptNum(p.impactScore),
      "risk_score" := J.OfOptNum(p.riskScore),
      "source" := J.OfOptStr(p.source)
    ]
  }

  function RiskOfDict(d: J.Dict): RiskPayload {
    RiskPayload(
      J.GetStr(d, "title"),
      J.GetStr(d, "description"),
      J.GetStr(d, "impact"),
      J.GetStr(d, "mitigation"),
      J.GetStr(d, "risk_level"),
      J.GetStr(d, "category"),
      J.GetNum(d, "probability"),
      J.GetNum(d, "impact_score"),
      J.GetNum(d, "risk_score"),
      J.GetStr(d, "source"))
  }

  /** A present optional value is read back from the filtered dictionary; an absent one is
      not there. */
  lemma PresentStr(full: J.Dict, k: string, o: Option<string>)
    requires k in full && full[k] == J.OfOptStr(o)
    ensures J.GetStr(Present(full), k) == o
  {
  }

  lemma PresentInt(full: J.Dict, k: string, o: Option<int>)
    requires k in full && full[k] == J.OfOptInt(o)
    ensures J.GetInt(Present(full), k) == o
  {
  }

  lemma PresentNum(full: J.Dict, k: string, o: Option<real>)
    requires k in full && full[k] == J.OfOptNum(o)
    ensures J.GetNum(Present(full), k) == o
  {
  }

  /** A finding dictionary read back from its JSON is the dictionary itself. */
  lemma FindingDictRoundTrip(p: FindingPayload)
    ensures FindingOfDict(FindingDict(p)) == p
  {
    PresentStr(FindingEntries(p), "title", p.title);
    PresentStr(FindingEntries(p), "description", p.description);
    PresentStr(FindingEntries(p), "recommendation", p.recommendation);
    PresentStr(FindingEntries(p), "severity", p.severity);
    PresentStr(FindingEntries(p), "category", p.category);
    PresentInt(FindingEntries(p), "line_number", p.lineNumber);
    PresentStr(FindingEntries(p), "function_name", p.functionName);
    PresentStr(FindingEntries(p), "file_name", p.fileName);
    PresentStr(FindingEntries(p), "tool", p.tool);
    PresentNum(FindingEntries(p), "confidence", p.confidence);
    PresentStr(FindingEntries(p), "source", p.source);
  }

  /** A risk dictionary read back from its JSON is the dictionary itself. */
  lemma RiskDictRoundTrip(p: RiskPayload)
    ensures RiskOfDict(RiskDict(p)) == p
  {
    PresentStr(RiskEntries(p), "title", p.title);
    PresentStr(RiskEntries(p), "description", p.description);
    PresentStr(RiskEntries(p), "impact", p.impact);
    PresentStr(RiskEntries(p), "mitigation", p.mitigation);
    PresentStr(RiskEntries(p), "risk_level", p.riskLevel);
    PresentStr(RiskEntries(p), "category", p.category);
    PresentNum(RiskEntries(p), "probability", p.probability);
    PresentNum(RiskEntries(p), "impact_score", p.impactScore);
    PresentNum(RiskEntries(p), "risk_score", p.riskScore);
    PresentStr(RiskEntries(p), "source", p.source);
  }
}

=== FILE: registry.dfy ===
/** The WebSocket connection registry: sockets subscribed to project, analysis and user
    channels, their metadata, connecting and disconnecting, broadcasts that evict the
    sockets whose send failed, statistics, and the replies to client messages. Sockets are
    numbered; which sends fail is a parameter. */
module Registry {
  import opened Wrappers

  type Socket = nat

  datatype Channel = ProjectChannel | AnalysisChannel | UserChannel

  /** A channel and its key: the project, analysis or user id. */
  datatype Topic = Topic(channel: Channel, key: string)

  /** `connection_metadata[ws]`: the topic the socket joined, its user and when. */
  datatype Meta = Meta(topic: Topic, userId: string, connectedAt: real)

  datatype Registry = Registry(conns: map<Topic, set<Socket>>, meta: map<Socket, Meta>)

  const Empty := Registry(map[], map[])

  /** The registry's invariant: no topic maps to an empty set; a socket listed under a topic
      has that topic as its metadata, if it has metadata at all, and must have it when the
      key is non-empty; every socket with metadata is listed under its topic. */
  predicate Consistent(r: Registry) {
    (forall t :: t in r.conns ==> r.conns[t] != {})
    && (forall t, ws :: t in r.conns && ws in r.conns[t] ==>
          (ws in r.meta ==> r.meta[ws].topic == t) && (t.key != "" ==> ws in r.meta))
    && (forall ws :: ws in r.meta ==> r.meta[ws].topic in r.conns && ws in r.conns[r.meta[ws].topic])
  }

  /** A socket the registry has never seen: each WebSocket object is a new connection. */
  predicate Fresh(r: Registry, ws: Socket) {
    ws !in r.meta && forall t :: t in r.conns ==> ws !in r.conns[t]
  }

  lemma EmptyConsistent()
    ensures Consistent(Empty)
  {
  }

  /** `connect_project`, `connect_analysis`, `connect_user`: add the socket under its topic,
      creating the topic's set if needed, and record its metadata. */
  function Connect(r: Registry, ws: Socket, topic: Topic, userId: string, now: real): (r': Registry)
    ensures topic in r'.conns && ws in r'.conns[topic]
    ensures r'.meta == r.meta[ws := Meta(topic, userId, now)]
    ensures forall t :: t in r.conns ==> t in r'.conns && r.conns[t] <= r'.conns[t]
  {
    var before := if topic in r.conns then r.conns[topic] else {};
    Registry(r.conns[topic := before + {ws}], r.meta[ws := Meta(topic, userId, now)])
  }

  lemma ConnectConsistent(r: Registry, ws: Socket, topic: Topic, userId: string, now: real)
    requires Consistent(r) && Fresh(r, ws)
    ensures Consistent(Connect(r, ws, topic, userId, now))
  {
  }

  /** `disconnect`: forget the socket's metadata and remove it from its topic's set, dropping
      the set once empty. A topic with an empty key is skipped, so the socket stays listed
      there. An unknown socket changes nothing. */
  function Disconnect(r: Registry, ws: Socket): (r': Registry)
    ensures ws !in r'.meta && r'.meta == r.meta - {ws}
    ensures ws !in r.meta ==> r' == r
  {
    if ws !in r.meta then r
    else
      var t := r.meta[ws].topic;
      var conns :=
        if t.key != "" && t in r.conns then
          var rest := r.conns[t] - {ws};
          if rest == {} then r.conns - {t} else r.conns[t := rest]
        else r.conns;
      Registry(conns, r.meta - {ws})
  }

  /** Disconnecting a freshly connected socket restores the registry exactly, provided its
      topic key is non-empty. */
  lemma DisconnectUndoesConnect(r: Registry, ws: Socket, topic: Topic, userId: string, now: real)
    requires Consistent(r) && Fresh(r, ws) && topic.key != ""
    ensures Disconnect(Connect(r, ws, topic, userId, now), ws) == r
  {
    var c := Connect(r, ws, topic, userId, now);
    var d := Disconnect(c, ws);
    assert d.meta == r.meta;
    if topic in r.conns {
      assert c.conns[topic] - {ws} == r.conns[topic];
      assert d.conns == r.conns[topic := r.conns[topic]];
    } else {
      assert c.conns[topic] - {ws} == {};
      assert d.conns == r.conns;
    }
  }

  /** With an empty key the socket stays listed after it disconnects. */
  lemma EmptyKeyLeaks(r: Registry, ws: Socket, topic: Topic, userId: string, now: real)
    requires topic.key == ""
    ensures var d := Disconnect(Connect(r, ws, topic, userId, now), ws);
      topic in d.conns && ws in d.conns[topic] && ws !in d.meta
  {
  }

  /** Disconnecting twice is disconnecting once. */
  lemma DisconnectIdempotent(r: Registry, ws: Socket)
    ensures Disconnect(Disconnect(r, ws), ws) == Disconnect(r, ws)
  {
  }

  // ---------------------------------------------------------------------------
  // Evicting many sockets

  /** The closed form of disconnecting every socket of `gone`: metadata dropped, and each
      non-empty-key topic loses them, disappearing once empty. */
  function EvictAll(r: Registry, gone: set<Socket>): (r': Registry)
    ensures forall ws :: ws in r'.meta <==> ws in r.meta && ws !in gone
    ensures forall t :: t in r'.conns ==> t in r.conns
  {
    Registry(
      map t | t in r.conns && (t.key == "" || r.conns[t] - gone != {}) ::
        if t.key == "" then r.conns[t] else r.conns[t] - gone,
      map ws | ws in r.meta && ws !in gone :: r.meta[ws])
  }

  lemma EvictAllConsistent(r: Registry, gone: set<Socket>)
    requires Consistent(r)
    ensures Consistent(EvictAll(r, gone))
  {
    var e := EvictAll(r, gone);
    forall ws | ws in e.meta ensures e.meta[ws].topic in e.conns && ws in e.conns[e.meta[ws].topic] {
      var t := r.meta[ws].topic;
      assert ws in r.conns[t];
      if t.key != "" {
        assert ws in r.conns[t] - gone;
      }
    }
  }

  /** Evicting in two rounds is evicting the union. */
  lemma EvictAllTwice(r: Registry, s: set<Socket>, u: set<Socket>)
    ensures EvictAll(EvictAll(r, s), u) == EvictAll(r, s + u)
  {
    var a := EvictAll(EvictAll(r, s), u);
    var b := EvictAll(r, s + u);
    forall t | t in r.conns && t.key != "" ensures r.conns[t] - s - u == r.conns[t] - (s + u) {
    }
    assert a.conns == b.conns;
    assert a.meta == b.meta;
  }

  /** Evicting nobody changes nothing. */
  lemma EvictNothing(r: Registry)
    requires Consistent(r)
    ensures EvictAll(r, {}) == r
  {
    var e := EvictAll(r, {});
    forall t | t in r.conns ensures t in e.conns && e.conns[t] == r.conns[t] {
      assert r.conns[t] - {} == r.conns[t];
    }
    assert e.conns == r.conns;
    assert e.meta == r.meta;
  }

  /** One disconnect of a consistent registry is the eviction of that one socket. */
  lemma DisconnectIsEvict(r: Registry, ws: Socket)
    requires Consistent(r)
    ensures Disconnect(r, ws) == EvictAll(r, {ws})
  {
    if ws in r.meta {
      DisconnectKnownIsEvict(r, ws);
    } else {
      var e := EvictAll(r, {ws});
      forall t | t in r.conns ensures t in e.conns && e.conns[t] == r.conns[t] {
        if t.key != "" {
          assert ws !in r.conns[t];
          assert r.conns[t] - {ws} == r.conns[t];
        }
      }
      assert e.conns == r.conns;
      assert e.meta == r.meta;
    }
  }

  lemma DisconnectKnownIsEvict(r: Registry, ws: Socket)
    requires Consistent(r) && ws in r.meta
    ensures Disconnect(r, ws) == EvictAll(r, {ws})
  {
    var d := Disconnect(r, ws);
    var e := EvictAll(r, {ws});
    var t0 := r.meta[ws].topic;
    OtherTopicsKept(r, ws);
    OwnTopicAgrees(r, ws);
    forall t ensures (t in d.conns <==> t in e.conns) && (t in d.conns ==> d.conns[t] == e.conns[t]) {
      if t != t0 && t !in r.conns {
        assert t !in d.conns;
      }
    }
    MapsEqual(d.conns, e.conns);
    assert d.meta == e.meta;
  }

  lemma MapsEqual<K, V>(a: map<K, V>, b: map<K, V>)
    requires forall k :: (k in a <==> k in b) && (k in a ==> a[k] == b[k])
    ensures a == b
  {
  }

  /** On the socket's own topic, a disconnect and an eviction agree. */
  lemma OwnTopicAgrees(r: Registry, ws: Socket)
    requires Consistent(r) && ws in r.meta
    ensures var t0 := r.meta[ws].topic;
      (t0 in Disconnect(r, ws).conns <==> t0 in EvictAll(r, {ws}).conns)
      && (t0 in Disconnect(r, ws).conns ==> Disconnect(r, ws).conns[t0] == EvictAll(r, {ws}).conns[t0])
  {
  }

  /** A disconnect leaves the topics other than the socket's own as they were. */
  lemma OtherTopicsKept(r: Registry, ws: Socket)
    requires Consistent(r) && ws in r.meta
    ensures forall t :: t in r.conns && t != r.meta[ws].topic ==>
      ws !in r.conns[t] && t in Disconnect(r, ws).conns && Disconnect(r, ws).conns[t] == r.conns[t]
      && t in EvictAll(r, {ws}).conns && EvictAll(r, {ws}).conns[t] == r.conns[t]
  {
    forall t | t in r.conns && t != r.meta[ws].topic
      ensures ws !in r.conns[t] && EvictAll(r, {ws}).conns[t] == r.conns[t]
    {
      assert r.conns[t] - {ws} == r.conns[t];
    }
  }

  /** `for websocket in disconnected: self.disconnect(websocket)`, in iteration order. */
  function DisconnectEach(r: Registry, order: seq<Socket>): Registry {
    if |order| == 0 then r else Disconnect(DisconnectEach(r, order[..|order| - 1]), order[|order| - 1])
  }

  /** The sockets of an iteration order. */
  function Elements(order: seq<Socket>): (s: set<Socket>)
    ensures forall ws :: ws in s <==> ws in order
  {
    if |order| == 0 then {} else Elements(order[..|order| - 1]) + {order[|order| - 1]}
  }

  /** Disconnecting sockets one by one, in any order, is evicting them all at once; so the
      iteration order of the `disconnected` set does not matter. */
  lemma {:induction false} DisconnectEachIsEvictAll(r: Registry, order: seq<Socket>)
    requires Consistent(r)
    ensures DisconnectEach(r, order) == EvictAll(r, Elements(order))
  {
    if |order| == 0 {
      EvictNothing(r);
    } else {
      var init := order[..|order| - 1];
      var x := order[|order| - 1];
      var s := Elements(init);
      DisconnectEachIsEvictAll(r, init);
      EvictAllConsistent(r, s);
      DisconnectIsEvict(EvictAll(r, s), x);
      EvictAllTwice(r, s, {x});
    }
  }

  // ---------------------------------------------------------------------------
  // Broadcasts

  datatype Broadcast = Broadcast(registry: Registry, delivered: set<Socket>, raised: bool)

  /** `broadcast_to_project` / `_analysis` / `_user` as written: send to every socket of the
      topic, evict those whose send failed, then log the number of recipients by indexing the
      topic again, which raises when the eviction removed the topic. */
  function BroadcastAsWritten(r: Registry, topic: Topic, failing: set<Socket>): (b: Broadcast)
    ensures topic !in r.conns ==> b == Broadcast(r, {}, false)
    ensures topic in r.conns ==>
      b.delivered == r.conns[topic] - failing && b.registry == EvictAll(r, r.conns[topic] * failing)
  {
    if topic !in r.conns then Broadcast(r, {}, false)
    else
      var evicted := EvictAll(r, r.conns[topic] * failing);
      Broadcast(evicted, r.conns[topic] - failing, topic !in evicted.conns)
  }

  /** The broadcast raises exactly when every subscriber of a non-empty key failed. */
  lemma BroadcastAsWrittenRaisesIff(r: Registry, topic: Topic, failing: set<Socket>)
    requires Consistent(r) && topic in r.conns
    ensures BroadcastAsWritten(r, topic, failing).raised <==> topic.key != "" && r.conns[topic] <= failing
  {
    var gone := r.conns[topic] * failing;
    if topic.key != "" && r.conns[topic] <= failing {
      assert r.conns[topic] - gone == {};
    }
    if topic.key != "" && !(r.conns[topic] <= failing) {
      var ws :| ws in r.conns[topic] && ws !in failing;
      assert ws in r.conns[topic] - gone;
    }
  }

  /** A concrete case: one analysis subscriber whose send fails makes the progress notice
      raise. */
  lemma BroadcastAsWrittenCounterexample()
    ensures var r := Connect(Empty, 0, Topic(AnalysisChannel, "c1"), "u1", 0.0);
      BroadcastAsWritten(r, Topic(AnalysisChannel, "c1"), {0}).raised
  {
    var r := Connect(Empty, 0, Topic(AnalysisChannel, "c1"), "u1", 0.0);
    assert r.conns[Topic(AnalysisChannel, "c1")] == {0};
    assert r.conns[Topic(AnalysisChannel, "c1")] - ({0} * {0}) == {};
  }

  /** The broadcast as evidently intended: the same delivery and eviction, with the final
      count read from the topic's set if it is still there, so the broadcast never raises. */
  function BroadcastTo(r: Registry, topic: Topic, failing: set<Socket>): (b: Broadcast)
    ensures !b.raised
    ensures b.registry == BroadcastAsWritten(r, topic, failing).registry
    ensures b.delivered == BroadcastAsWritten(r, topic, failing).delivered
  {
    if topic !in r.conns then Broadcast(r, {}, false)
    else Broadcast(EvictAll(r, r.conns[topic] * failing), r.conns[topic] - failing, false)
  }

  /** After a broadcast the registry is consistent, every failed subscriber is gone and every
      other socket keeps its metadata. */
  lemma BroadcastToEvicts(r: Registry, topic: Topic, failing: set<Socket>)
    requires Consistent(r)
    ensures var b := BroadcastTo(r, topic, failing);
      Consistent(b.registry)
      && (topic in r.conns ==> forall ws :: ws in r.conns[topic] * failing ==> ws !in b.registry.meta)
      && (forall ws :: ws in r.meta && (topic !in r.conns || ws !in r.conns[topic] * failing) ==>
            ws in b.registry.meta && b.registry.meta[ws] == r.meta[ws])
  {
    if topic in r.conns {
      EvictAllConsistent(r, r.conns[topic] * failing);
    }
  }

  /** The closed form is what the eviction loop computes, whatever order it visits the
      failed sockets in. */
  lemma BroadcastToIsLoop(r: Registry, topic: Topic, failing: set<Socket>, order: seq<Socket>)
    requires Consistent(r) && topic in r.conns && Elements(order) == r.conns[topic] * failing
    ensures DisconnectEach(r, order) == BroadcastTo(r, topic, failing).registry
  {
    DisconnectEachIsEvictAll(r, order);
  }

  /** Every socket listed anywhere. */
  function AllSockets(r: Registry): set<Socket> {
    set t, ws | t in r.conns && ws in r.conns[t] :: ws
  }

  /** `broadcast_to_all`: every listed socket is sent to once; the failed ones are evicted. */
  function BroadcastToAll(r: Registry, failing: set<Socket>): (b: Broadcast)
    ensures !b.raised
    ensures b.delivered == AllSockets(r) - failing
    ensures forall ws :: ws in b.registry.meta <==> ws in r.meta && ws !in AllSockets(r) * failing
  {
    Broadcast(EvictAll(r, AllSockets(r) * failing), AllSockets(r) - failing, false)
  }

  /** When no send fails, a broadcast to all changes nothing. */
  lemma BroadcastToAllNoFailure(r: Registry)
    requires Consistent(r)
    ensures BroadcastToAll(r, {}).registry == r
  {
    assert AllSockets(r) * {} == {};
    EvictNothing(r);
  }

  // ---------------------------------------------------------------------------
  // Statistics

  datatype Stats = Stats(projects: set<string>, analyses: set<string>, users: set<string>, total: nat)

  function Keys(r: Registry, ch: Channel): set<string> {
    set t | t in r.conns && t.channel == ch :: t.key
  }

  lemma KeysOfChannel(r: Registry, ch: Channel)
    ensures forall k :: k in Keys(r, ch) <==> Topic(ch, k) in r.conns
  {
    forall k | Topic(ch, k) in r.conns ensures k in Keys(r, ch) {
      var t := Topic(ch, k);
      assert t.key == k;
    }
  }

  /** `get_connection_stats`: the keys of each channel and the number of sockets with
      metadata. */
  function ConnectionStats(r: Registry): (s: Stats)
    ensures forall k :: k in s.projects <==> Topic(ProjectChannel, k) in r.conns
    ensures forall k :: k in s.analyses <==> Topic(AnalysisChannel, k) in r.conns
    ensures forall k :: k in s.users <==> Topic(UserChannel, k) in r.conns
    ensures s.total == |r.meta|
  {
    KeysOfChannel(r, ProjectChannel);
    KeysOfChannel(r, AnalysisChannel);
    KeysOfChannel(r, UserChannel);
    Stats(Keys(r, ProjectChannel), Keys(r, AnalysisChannel), Keys(r, UserChannel), |r.meta|)
  }

  /** Connecting a fresh socket adds one to the total; disconnecting it takes one away. */
  lemma StatsTotalCounts(r: Registry, ws: Socket, topic: Topic, userId: string, now: real)
    requires Fresh(r, ws)
    ensures ConnectionStats(Connect(r, ws, topic, userId, now)).total == ConnectionStats(r).total + 1
    ensures ConnectionStats(Disconnect(Connect(r, ws, topic, userId, now), ws)).total == ConnectionStats(r).total
  {
    var c := Connect(r, ws, topic, userId, now);
    assert c.meta.Keys == r.meta.Keys + {ws};
    assert (c.meta - {ws}).Keys == r.meta.Keys;
  }

  // ---------------------------------------------------------------------------
  // Client messages

  /** A decoded client message: its `type` and `events` entries. */
  datatype ClientMessage = ClientMessage(kind: Option<string>, events: Option<seq<string>>)

  datatype Reply =
    | Pong(timestamp: real)
    | Subscribed(events: seq<string>, key: string)
    | Unsubscribed(events: seq<string>, key: string)
    | Error(message: string)

  /** `handle_project_message` / `handle_analysis_message`: ping, subscribe and unsubscribe
      are answered; any other type, or none, gets an error naming it. Subscriptions are only
      acknowledged, never recorded. */
  function HandleMessage(key: string, m: ClientMessage, now: real): (reply: Reply)
    ensures reply.Error? <==> m.kind !in {Some("ping"), Some("subscribe"), Some("unsubscribe")}
    ensures reply.Error? ==> reply.message == "Unknown message type: " + (if m.kind.Some? then m.kind.value else "None")
    ensures (reply.Subscribed? || reply.Unsubscribed?) ==> reply.events == m.events.GetOr([]) && reply.key == key
  {
    if m.kind == Some("ping") then Pong(now)
    else if m.kind == Some("subscribe") then Subscribed(m.events.GetOr([]), key)
    else if m.kind == Some("unsubscribe") then Unsubscribed(m.events.GetOr([]), key)
    else Error("Unknown message type: " + (if m.kind.Some? then m.kind.value else "None"))
  }

  /** `send_personal_message`: a failed send disconnects the socket. */
  function SendPersonal(r: Registry, ws: Socket, ok: bool): (r': Registry)
    ensures ok ==> r' == r
    ensures !ok ==> r' == Disconnect(r, ws)
  {
    if ok then r else Disconnect(r, ws)
  }

  /** One incoming frame: `None` when its text is not JSON, which ends the session. */
  datatype Frame = Frame(message: Option<ClientMessage>, replyDelivered: bool)

  datatype Session = Session(registry: Registry, replies: seq<Reply>)

  /** The session loop: one reply per frame, in order, until a frame that is not JSON. */
  function ServeFrames(r: Registry, ws: Socket, key: string, frames: seq<Frame>, now: real): (s: Session)
    ensures |s.replies| <= |frames|
    ensures forall i :: 0 <= i < |s.replies| ==>
      frames[i].message.Some? && s.replies[i] == HandleMessage(key, frames[i].message.value, now)
    ensures |s.replies| < |frames| ==> frames[|s.replies|].message.None?
    decreases |frames|
  {
    if |frames| == 0 || frames[0].message.None? then Session(r, [])
    else
      var reply := HandleMessage(key, frames[0].message.value, now);
      var rest := ServeFrames(SendPersonal(r, ws, frames[0].replyDelivered), ws, key, frames[1..], now);
      Session(rest.registry, [reply] + rest.replies)
  }

  /** Serving frames either keeps the registry or disconnects the socket. */
  lemma {:induction false} ServeFramesOnlyDisconnects(r: Registry, ws: Socket, key: string, frames: seq<Frame>, now: real)
    ensures var s := ServeFrames(r, ws, key, frames, now);
      s.registry == r || s.registry == Disconnect(r, ws)
    decreases |frames|
  {
    if |frames| > 0 && frames[0].message.Some? {
      var r1 := SendPersonal(r, ws, frames[0].replyDelivered);
      ServeFramesOnlyDisconnects(r1, ws, key, frames[1..], now);
      if r1 != r {
        DisconnectIdempotent(r, ws);
      }
    }
  }

  /** `handle_project_connection` / `handle_analysis_connection`: connect, answer frames until
      the client leaves or sends something that is not JSON, then disconnect. */
  function HandleConnection(r: Registry, ws: Socket, topic: Topic, userId: string, frames: seq<Frame>, now: real)
    : (s: Session)
    ensures ws !in s.registry.meta
  {
    var served := ServeFrames(Connect(r, ws, topic, userId, now), ws, topic.key, frames, now);
    Session(Disconnect(served.registry, ws), served.replies)
  }

  /** A whole session over a fresh socket with a non-empty key leaves the registry as it found
      it, whatever the client sends and whichever replies fail. */
  lemma HandleConnectionLeavesNoTrace(r: Registry, ws: Socket, topic: Topic, userId: string, frames: seq<Frame>, now: real)
    requires Consistent(r) && Fresh(r, ws) && topic.key != ""
    ensures HandleConnection(r, ws, topic, userId, frames, now).registry == r
  {
    var c := Connect(r, ws, topic, userId, now);
    ServeFramesOnlyDisconnects(c, ws, topic.key, frames, now);
    DisconnectIdempotent(c, ws);
    DisconnectUndoesConnect(r, ws, topic, userId, now);
  }
}

=== FILE: schemas.dfy ===
/** The request and record schemas: the field patterns, enums and bounds, and the custom
    validators for analysis types, uploaded source files and passwords. A validator either
    returns its input unchanged or fails with the message it raises. */
module Schemas {
  import opened Wrappers
  import opened Text
  import E = Entities
  import A = Analysis
  import P = Payloads
  import J = Json

  // ---------------------------------------------------------------------------
  // Contract addresses

  predicate IsHexChar(c: char) {
    '0' <= c <= '9' || 'a' <= c <= 'f' || 'A' <= c <= 'F'
  }

  /** How the closing `$` of a pattern is read. The pattern library matches `$` at the end
      of the text and also just before a newline that ends the text; `EndOfText` is the
      anchor that accepts the end of the text only. */
  datatype Anchor = EndOfText | DollarAnchor

  /** `n` hexadecimal digits start at position `i`. */
  predicate HexRun(s: string, i: nat, n: nat)
    decreases n
  {
    n == 0 || (i < |s| && IsHexChar(s[i]) && HexRun(s, i + 1, n - 1))
  }

  predicate AnchorAt(s: string, i: nat, a: Anchor) {
    i == |s| || (a == DollarAnchor && i + 1 == |s| && s[i] == '\n')
  }

  /** The address pattern `^0x[a-fA-F0-9]{40}$` matched from the start of the text. */
  predicate MatchesAddressPattern(s: string, a: Anchor) {
    |s| >= 2 && s[0] == '0' && s[1] == 'x' && HexRun(s, 2, 40) && AnchorAt(s, 42, a)
  }

  /** The address check as the schemas write it. */
  function AddressPatternAsWritten(s: string): (b: bool)
    ensures b ==> |s| == 42 || (|s| == 43 && s[42] == '\n')
  {
    MatchesAddressPattern(s, DollarAnchor)
  }

  /** An address the schemas intend to accept: "0x" and forty hexadecimal digits. */
  function ValidAddress(s: string): (b: bool)
    ensures b ==> |s| == 42
  {
    MatchesAddressPattern(s, EndOfText)
  }

  lemma {:induction false} HexRunIff(s: string, i: nat, n: nat)
    requires i <= |s|
    ensures HexRun(s, i, n) <==> i + n <= |s| && forall k :: i <= k < i + n ==> IsHexChar(s[k])
    decreases n
  {
    if n > 0 && i < |s| {
      HexRunIff(s, i + 1, n - 1);
      if i + n <= |s| && forall k :: i <= k < i + n ==> IsHexChar(s[k]) {
        assert IsHexChar(s[i]);
      }
    }
  }

  /** The intended check accepts exactly the 42-character strings made of "0x" and forty
      hexadecimal digits. */
  lemma ValidAddressIff(s: string)
    ensures ValidAddress(s) <==>
      |s| == 42 && s[..2] == "0x" && forall k :: 2 <= k < 42 ==> IsHexChar(s[k])
  {
    if |s| >= 2 {
      HexRunIff(s, 2, 40);
    }
    if |s| == 42 && s[..2] == "0x" {
      assert s[0] == s[..2][0] && s[1] == s[..2][1];
    }
  }

  /** Upper- and lower-case digits are both accepted, so lowering a valid address keeps it
      valid. */
  lemma ValidAddressLower(s: string)
    requires ValidAddress(s)
    ensures ValidAddress(Lower(s))
  {
    ValidAddressIff(s);
    ValidAddressIff(Lower(s));
    assert Lower(s)[..2] == "0x" by {
      assert Lower(s)[0] == LowerChar(s[..2][0]);
      assert Lower(s)[1] == LowerChar(s[..2][1]);
    }
  }

  /** The pattern as written accepts the intended addresses and, besides them, exactly those
      addresses followed by one newline. */
  lemma AddressPatternAsWrittenIff(s: string)
    ensures AddressPatternAsWritten(s) <==>
      ValidAddress(s) || (|s| == 43 && s[42] == '\n' && ValidAddress(s[..42]))
  {
    if |s| >= 2 {
      HexRunIff(s, 2, 40);
    }
    if |s| == 43 {
      HexRunIff(s[..42], 2, 40);
    }
  }

  /** The placeholder address of uploaded contracts: "0x" and forty zeros. */
  function ZeroAddress(): (s: string)
    ensures ValidAddress(s)
  {
    var s := "0x" + seq(40, _ => '0');
    HexRunIff(s, 2, 40);
    s
  }

  /** An address with a trailing newline passes the pattern as written, though it is 43
      characters long and not an address. */
  lemma AddressNewlineCounterexample()
    ensures var s := ZeroAddress() + "\n";
      AddressPatternAsWritten(s) && !ValidAddress(s) && |s| == 43
  {
    var s := ZeroAddress() + "\n";
    AddressPatternAsWrittenIff(s);
    assert s[..42] == ZeroAddress();
  }

  // ---------------------------------------------------------------------------
  // Enums and bounds of the finding and risk records

  const FindingCategories: set<string> := {"access-control", "arithmetic", "reentrancy", "gas", "other"}
  const FindingTools: set<string> := {"slither", "semgrep", "ai-analysis"}
  const RiskCategories: set<string> := {"financial", "operational", "technical", "regulatory"}

  predicate InUnitIfSet(x: Option<real>) {
    x.Some? ==> E.InUnit(x.value)
  }

  predicate NameLength(x: Option<string>) {
    x.Some? ==> 1 <= |x.value| <= 255
  }

  /** An enum pattern `^(a|b|…)$` matched from the start of the text: a member, or under
      `DollarAnchor` a member followed by the newline that ends the text. */
  predicate MatchesEnum(names: set<string>, s: string, a: Anchor) {
    s in names || (a == DollarAnchor && |s| > 0 && s[|s| - 1] == '\n' && s[..|s| - 1] in names)
  }

  /** The field constraints of the security finding schema, with its enum patterns read
      under anchor `a`. */
  predicate FindingSchema(f: E.Finding, a: Anchor) {
    1 <= |f.title| <= 500 && |f.description| >= 1 && |f.recommendation| >= 1
    && MatchesEnum(E.LevelNames, f.severity, a) && MatchesEnum(FindingCategories, f.category, a)
    && (f.lineNumber.Some? ==> f.lineNumber.value >= 1)
    && NameLength(f.functionName) && NameLength(f.fileName)
    && MatchesEnum(FindingTools, f.tool, a) && InUnitIfSet(f.confidence)
  }

  /** The finding schema as written. */
  predicate FindingSchemaValid(f: E.Finding) {
    FindingSchema(f, DollarAnchor)
  }

  /** The finding schema as intended: the enums match their members only. */
  predicate FindingSchemaIntended(f: E.Finding) {
    FindingSchema(f, EndOfText)
  }

  /** The field constraints of the risk assessment schema, enums read under anchor `a`. */
  predicate RiskSchema(r: E.Risk, a: Anchor) {
    1 <= |r.title| <= 500 && |r.description| >= 1 && |r.impact| >= 1 && |r.mitigation| >= 1
    && MatchesEnum(E.LevelNames, r.riskLevel, a) && MatchesEnum(RiskCategories, r.category, a)
    && E.InUnit(r.probability) && InUnitIfSet(r.impactScore) && InUnitIfSet(r.riskScore)
  }

  predicate RiskSchemaValid(r: E.Risk) {
    RiskSchema(r, DollarAnchor)
  }

  predicate RiskSchemaIntended(r: E.Risk) {
    RiskSchema(r, EndOfText)
  }

  /** A finding the schema as written accepts sorts with a non-zero score exactly when its
      severity is one of the four levels; otherwise the severity is a level and a newline,
      and it scores 0. */
  lemma SchemaFindingScored(f: E.Finding)
    requires FindingSchemaValid(f)
    ensures 1 <= E.SeverityScore(f) <= 4 <==> f.severity in E.LevelNames
    ensures E.SeverityScore(f) == 0 ==>
      |f.severity| > 0 && f.severity[|f.severity| - 1] == '\n' && f.severity[..|f.severity| - 1] in E.LevelNames
  {
  }

  /** A finding the intended schema accepts always sorts with a non-zero score. */
  lemma SchemaFindingScoredIntended(f: E.Finding)
    requires FindingSchemaIntended(f)
    ensures 1 <= E.SeverityScore(f) <= 4
  {
  }

  /** A well-formed finding whose severity is "high" and a newline. */
  function NewlineSeverityFinding(): E.Finding {
    E.Finding("id", "t", "d", "r", "high\n", "other", None, None, None, "slither", None,
              J.JNull, "c", 0.0)
  }

  /** The schema as written accepts a severity ending in a newline, which scores 0; the
      intended schema rejects it. */
  lemma SchemaNewlineSeverityCounterexample()
    ensures var f := NewlineSeverityFinding();
      FindingSchemaValid(f) && E.SeverityScore(f) == 0 && !FindingSchemaIntended(f)
  {
    var f := NewlineSeverityFinding();
    assert f.severity[..|f.severity| - 1] == "high";
    assert f.severity !in E.LevelNames;
  }

  /** A risk the schema as written accepts has its calculated score in [0, 1]; its level
      scores from 1 to 4 exactly when it is one of the four levels, 0 for a level and a
      newline. */
  lemma SchemaRiskScoreInUnit(r: E.Risk)
    requires RiskSchemaValid(r)
    ensures E.InUnit(E.CalculatedRiskScore(r))
    ensures 1 <= E.RiskLevelScore(r) <= 4 <==> r.riskLevel in E.LevelNames
    ensures E.RiskLevelScore(r) == 0 ==>
      |r.riskLevel| > 0 && r.riskLevel[|r.riskLevel| - 1] == '\n' && r.riskLevel[..|r.riskLevel| - 1] in E.LevelNames
  {
    E.CalculatedRiskScoreInUnit(r);
  }

  /** A risk the intended schema accepts has its calculated score in [0, 1] and a level
      score from 1 to 4. */
  lemma SchemaRiskScoreInUnitIntended(r: E.Risk)
    requires RiskSchemaIntended(r)
    ensures E.InUnit(E.CalculatedRiskScore(r)) && 1 <= E.RiskLevelScore(r) <= 4
  {
    E.CalculatedRiskScoreInUnit(r);
  }

  /** The tags the comprehensive merge writes into a finding's tool column are not in the
      schema's tool enum (it spells the AI tool "ai-analysis"), so no saved static or
      untagged AI finding satisfies the finding schema. */
  lemma SavedMergeTagOutsideSchema(p: P.FindingPayload, id: string, contractId: string, now: real)
    requires p.source == Some(A.StaticSource) || p.source == Some(A.AiSource)
    ensures !FindingSchemaValid(A.SaveFinding(p, id, contractId, now))
  {
  }

  // ---------------------------------------------------------------------------
  // Analysis types

  const AnalysisTypeNames: set<string> := {"security", "risk", "gas", "compliance"}

  function InvalidTypeMessage(t: string): string {
    "Invalid analysis type: " + t + ". Must be one of ['security', 'risk', 'gas', 'compliance']"
  }

  /** `validate_analysis_type`: the list unchanged when every entry is a known type (the
      empty list included), else the message naming the first unknown entry. */
  function ValidateAnalysisTypes(v: seq<string>): (r: Result<seq<string>, string>)
    ensures r.Success? <==> forall i :: 0 <= i < |v| ==> v[i] in AnalysisTypeNames
    ensures r.Success? ==> r.value == v
    ensures r.Failure? ==>
      exists i :: 0 <= i < |v| && v[i] !in AnalysisTypeNames && r.error == InvalidTypeMessage(v[i])
        && forall j :: 0 <= j < i ==> v[j] in AnalysisTypeNames
  {
    if |v| == 0 then Success(v)
    else if v[0] !in AnalysisTypeNames then Failure(InvalidTypeMessage(v[0]))
    else
      var rest := ValidateAnalysisTypes(v[1..]);
      if rest.Failure? then
        ghost var i :| 0 <= i < |v[1..]| && v[1..][i] !in AnalysisTypeNames
          && rest.error == InvalidTypeMessage(v[1..][i])
          && forall j :: 0 <= j < i ==> v[1..][j] in AnalysisTypeNames;
        assert v[i + 1] == v[1..][i];
        assert forall j :: 1 <= j < i + 1 ==> v[j] == v[1..][j - 1];
        Failure(rest.error)
      else
        assert forall i :: 1 <= i < |v| ==> v[i] == v[1..][i - 1];
        Success(v)
  }

  // ---------------------------------------------------------------------------
  // Uploaded source files

  /** A file name and its content, in the order the request lists them. */
  type SourceFile = (string, string)

  const NoSourceFiles := "At least one source file is required"
  const EmptyFileName := "Filename cannot be empty"

  function EmptyFileMessage(name: string): string {
    "Source file " + name + " cannot be empty"
  }

  /** The per-file checks of `validate_source_files`: the first file whose stripped name or
      stripped content is empty is reported. */
  function CheckFiles(files: seq<SourceFile>): (r: Option<string>)
    ensures r.None? <==> forall i :: 0 <= i < |files| ==>
      Strip(files[i].0) != [] && Strip(files[i].1) != []
    ensures r.Some? ==>
      (exists i :: 0 <= i < |files| && (r.value == EmptyFileName || r.value == EmptyFileMessage(files[i].0)))
  {
    if |files| == 0 then None
    else if Strip(files[0].0) == [] then Some(EmptyFileName)
    else if Strip(files[0].1) == [] then Some(EmptyFileMessage(files[0].0))
    else
      var rest := CheckFiles(files[1..]);
      assert forall i :: 1 <= i < |files| ==> files[i] == files[1..][i - 1];
      rest
  }

  /** `validate_source_files`: the files unchanged, or the message of the first problem. */
  function ValidateSourceFiles(files: seq<SourceFile>): (r: Result<seq<SourceFile>, string>)
    ensures r.Success? ==> r.value == files
    ensures |files| == 0 ==> r == Failure(NoSourceFiles)
  {
    if |files| == 0 then Failure(NoSourceFiles)
    else
      match CheckFiles(files)
      case Some(msg) => Failure(msg)
      case None => Success(files)
  }

  /** The files are accepted exactly when there is at least one, and no name or content
      consists of whitespace only. */
  lemma ValidateSourceFilesIff(files: seq<SourceFile>)
    ensures ValidateSourceFiles(files).Success? <==>
      |files| > 0 && forall i :: 0 <= i < |files| ==> !AllSpace(files[i].0) && !AllSpace(files[i].1)
  {
    forall i | 0 <= i < |files|
      ensures (Strip(files[i].0) == [] <==> AllSpace(files[i].0))
      ensures (Strip(files[i].1) == [] <==> AllSpace(files[i].1))
    {
      StripEmptyIffAllSpace(files[i].0);
      StripEmptyIffAllSpace(files[i].1);
    }
  }

  const NameTooShort := "ensure this value has at least 1 characters"
  const NameTooLong := "ensure this value has at most 255 characters"

  /** The optional `contract_name` of an upload: an absent name is accepted, a given one
      must have between 1 and 255 characters. */
  function ContractNameField(name: Option<string>): (r: Result<Option<string>, string>)
    ensures r.Success? <==> name.None? || 1 <= |name.value| <= 255
    ensures r.Success? ==> r.value == name
    ensures r.Failure? ==> (r.error == NameTooShort <==> name == Some(""))
    ensures r.Failure? ==> (r.error == NameTooLong <==> |name.value| > 255)
  {
    match name
    case None => Success(None)
    case Some(n) =>
      if |n| < 1 then Failure(NameTooShort)
      else if |n| > 255 then Failure(NameTooLong)
      else Success(name)
  }

  // ---------------------------------------------------------------------------
  // Passwords and roles

  const PasswordTooShort := "Password must be at least 8 characters long"
  const PasswordNoUpper := "Password must contain at least one uppercase letter"
  const PasswordNoLower := "Password must contain at least one lowercase letter"
  const PasswordNoDigit := "Password must contain at least one digit"

  /** The password strength validator; the user, reset and change-password schemas carry
      three identical copies of it. The checks run in the order length, upper-case letter,
      lower-case letter, digit, and the first failing one is reported. */
  function ValidatePassword(v: string): (r: Result<string, string>)
    ensures r.Success? <==> |v| >= 8 && HasUpper(v) && HasLower(v) && HasDigit(v)
    ensures r.Success? ==> r.value == v
    ensures r.Failure? ==> r.error in {PasswordTooShort, PasswordNoUpper, PasswordNoLower, PasswordNoDigit}
  {
    if |v| < 8 then Failure(PasswordTooShort)
    else if !HasUpper(v) then Failure(PasswordNoUpper)
    else if !HasLower(v) then Failure(PasswordNoLower)
    else if !HasDigit(v) then Failure(PasswordNoDigit)
    else Success(v)
  }

  /** Each message is reported exactly when its check is the first to fail. */
  lemma ValidatePasswordFirstFailure(v: string)
    ensures ValidatePassword(v) == Failure(PasswordTooShort) <==> |v| < 8
    ensures ValidatePassword(v) == Failure(PasswordNoUpper) <==> |v| >= 8 && !HasUpper(v)
    ensures ValidatePassword(v) == Failure(PasswordNoLower) <==>
      |v| >= 8 && HasUpper(v) && !HasLower(v)
    ensures ValidatePassword(v) == Failure(PasswordNoDigit) <==>
      |v| >= 8 && HasUpper(v) && HasLower(v) && !HasDigit(v)
  {
  }

  const MinLengthMessage := "ensure this value has at least 8 characters"
  const MaxLengthMessage := "ensure this value has at most 128 characters"

  /** A password field: the length bounds of the field are checked before the validator
      runs. */
  function PasswordField(v: string): (r: Result<string, string>)
    ensures r.Success? <==> 8 <= |v| <= 128 && HasUpper(v) && HasLower(v) && HasDigit(v)
    ensures r.Success? ==> r.value == v
  {
    if |v| < 8 then Failure(MinLengthMessage)
    else if |v| > 128 then Failure(MaxLengthMessage)
    else ValidatePassword(v)
  }

  /** Through the field, the validator's own length message is never reported: the field
      bound rejects short passwords first. */
  lemma PasswordFieldShadowsLengthCheck(v: string)
    ensures PasswordField(v) != Failure(PasswordTooShort)
    ensures |v| < 8 ==> PasswordField(v) == Failure(MinLengthMessage)
  {
  }

  const Roles: set<string> := {"user", "admin", "analyst"}
  const DefaultRole := "user"

  const RoleMismatch := "string does not match regex \"^(user|admin|analyst)$\""

  /** The role field of a user schema, its pattern read under anchor `a`: "user" when
      absent, else the given role when it matches. */
  function RoleFieldUnder(role: Option<string>, a: Anchor): (r: Result<string, string>)
    ensures r.Success? <==> role.None? || MatchesEnum(Roles, role.value, a)
    ensures role.None? ==> r == Success(DefaultRole)
    ensures role.Some? && r.Success? ==> r.value == role.value
    ensures r.Failure? ==> r.error == RoleMismatch
  {
    match role
    case None => Success(DefaultRole)
    case Some(x) => if MatchesEnum(Roles, x, a) then Success(x) else Failure(RoleMismatch)
  }

  /** The role field as written: a role followed by a newline gets through, unchanged. */
  function RoleField(role: Option<string>): (r: Result<string, string>)
    ensures r.Success? <==>
      (role.None? || role.value in Roles
       || (|role.value| > 0 && role.value[|role.value| - 1] == '\n' && role.value[..|role.value| - 1] in Roles))
    ensures role.Some? && r.Success? ==> r.value == role.value
  {
    RoleFieldUnder(role, DollarAnchor)
  }

  /** The role field as intended: the stored role is always one of the three. */
  function RoleFieldIntended(role: Option<string>): (r: Result<string, string>)
    ensures r.Success? ==> r.value in Roles
    ensures r.Success? <==> role.None? || role.value in Roles
    ensures role.Some? && r.Success? ==> r.value == role.value
  {
    RoleFieldUnder(role, EndOfText)
  }

  /** "admin" and a newline passes the role pattern as written and is stored as it is, a
      role no access check recognises; the intended field rejects it. */
  lemma RoleNewlineCounterexample()
    ensures RoleField(Some("admin\n")) == Success("admin\n")
    ensures "admin\n" !in Roles
    ensures RoleFieldIntended(Some("admin\n")).Failure?
  {
    assert "admin\n"[..5] == "admin";
  }
}

=== FILE: seqs.dfy ===
/** Generic list operations the services are built from: sums and counts over a list,
    filtering, first-occurrence-wins deduplication (the `seen`-set loop) and a
    descending sort (`sorted(..., reverse=True)`). */
module Seqs {

  /** `sum(f(x) for x in xs)` over reals. */
  function Sum<T>(xs: seq<T>, f: T -> real): real {
    if |xs| == 0 then 0.0 else f(xs[0]) + Sum(xs[1..], f)
  }

  /** `sum(1 for x in xs if p(x))`. */
  function Count<T>(xs: seq<T>, p: T -> bool): (n: nat)
    ensures n <= |xs|
  {
    if |xs| == 0 then 0 else (if p(xs[0]) then 1 else 0) + Count(xs[1..], p)
  }

  lemma {:induction false} SumAppend<T>(a: seq<T>, b: seq<T>, f: T -> real)
    ensures Sum(a + b, f) == Sum(a, f) + Sum(b, f)
  {
    if |a| > 0 {
      assert (a + b)[1..] == a[1..] + b;
      SumAppend(a[1..], b, f);
    } else {
      assert a + b == b;
    }
  }

  lemma {:induction false} CountAppend<T>(a: seq<T>, b: seq<T>, p: T -> bool)
    ensures Count(a + b, p) == Count(a, p) + Count(b, p)
  {
    if |a| > 0 {
      assert (a + b)[1..] == a[1..] + b;
      CountAppend(a[1..], b, p);
    } else {
      assert a + b == b;
    }
  }

  /** A sum of non-negative terms is non-negative. */
  lemma {:induction false} SumNonneg<T>(xs: seq<T>, f: T -> real)
    requires forall i :: 0 <= i < |xs| ==> f(xs[i]) >= 0.0
    ensures Sum(xs, f) >= 0.0
  {
    if |xs| > 0 {
      SumNonneg(xs[1..], f);
    }
  }

  /** Cutting a sequence around position `j`. */
  lemma SplitAt<T>(b: seq<T>, j: int)
    requires 0 <= j < |b|
    ensures b == b[..j] + ([b[j]] + b[j + 1..])
    ensures multiset(b[..j] + b[j + 1..]) == multiset(b) - multiset{b[j]}
  {
    assert b == b[..j] + [b[j]] + b[j + 1..];
  }

  lemma MultisetTail<T>(a: seq<T>)
    requires |a| > 0
    ensures multiset(a[1..]) == multiset(a) - multiset{a[0]}
  {
    assert a == [a[0]] + a[1..];
  }

  lemma SumMiddle<T>(front: seq<T>, x: T, back: seq<T>, f: T -> real)
    ensures Sum(front + ([x] + back), f) == f(x) + Sum(front + back, f)
  {
    SumAppend(front, [x] + back, f);
    assert ([x] + back)[1..] == back;
    SumAppend(front, back, f);
  }

  lemma CountMiddle<T>(front: seq<T>, x: T, back: seq<T>, p: T -> bool)
    ensures Count(front + ([x] + back), p) == (if p(x) then 1 else 0) + Count(front + back, p)
  {
    CountAppend(front, [x] + back, p);
    assert ([x] + back)[1..] == back;
    CountAppend(front, back, p);
  }

  /** A sum does not depend on the order of its terms. */
  lemma {:induction false} SumPermutation<T>(a: seq<T>, b: seq<T>, f: T -> real)
    requires multiset(a) == multiset(b)
    ensures Sum(a, f) == Sum(b, f)
    decreases |a|
  {
    if |a| == 0 {
      assert |b| == |multiset(b)| == 0;
    } else {
      assert a[0] in multiset(b);
      var j :| 0 <= j < |b| && b[j] == a[0];
      var front, back := b[..j], b[j + 1..];
      SplitAt(b, j);
      MultisetTail(a);
      SumPermutation(a[1..], front + back, f);
      SumMiddle(front, b[j], back, f);
    }
  }

  /** The same, for counts. */
  lemma {:induction false} CountPermutation<T>(a: seq<T>, b: seq<T>, p: T -> bool)
    requires multiset(a) == multiset(b)
    ensures Count(a, p) == Count(b, p)
    decreases |a|
  {
    if |a| == 0 {
      assert |b| == |multiset(b)| == 0;
    } else {
      assert a[0] in multiset(b);
      var j :| 0 <= j < |b| && b[j] == a[0];
      var front, back := b[..j], b[j + 1..];
      SplitAt(b, j);
      MultisetTail(a);
      CountPermutation(a[1..], front + back, p);
      CountMiddle(front, b[j], back, p);
    }
  }

  /** `a` is obtained from `b` by deleting elements, keeping the order of the rest. */
  predicate IsSubseq<T(==)>(a: seq<T>, b: seq<T>)
    decreases |b|
  {
    if |a| == 0 then true
    else if |b| == 0 then false
    else if a[|a| - 1] == b[|b| - 1] then IsSubseq(a[..|a| - 1], b[..|b| - 1])
    else IsSubseq(a, b[..|b| - 1])
  }

  /** An element of a sequence is an element of any permutation of it. */
  lemma PermutationMember<T>(a: seq<T>, b: seq<T>, x: T)
    requires multiset(a) == multiset(b) && x in a
    ensures x in b
  {
    assert x in multiset(a);
  }

  lemma {:induction false} SubseqExtend<T>(a: seq<T>, b: seq<T>, x: T)
    requires IsSubseq(a, b)
    ensures IsSubseq(a, b + [x])
    ensures IsSubseq(a + [x], b + [x])
    decreases |b|, 1
  {
    assert (b + [x])[..|b|] == b;
    assert (a + [x])[..|a|] == a;
    if |a| > 0 && a[|a| - 1] == x {
      SubseqDropLast(a, b);
    }
  }

  lemma {:induction false} SubseqDropLast<T>(a: seq<T>, b: seq<T>)
    requires |a| > 0 && IsSubseq(a, b)
    ensures IsSubseq(a[..|a| - 1], b)
    decreases |b|, 0
  {
    var a' := a[..|a| - 1];
    if |a'| > 0 {
      if a[|a| - 1] == b[|b| - 1] {
        SubseqExtend(a', b[..|b| - 1], b[|b| - 1]);
        assert b[..|b| - 1] + [b[|b| - 1]] == b;
      } else {
        SubseqDropLast(a, b[..|b| - 1]);
        SubseqExtend(a', b[..|b| - 1], b[|b| - 1]);
        assert b[..|b| - 1] + [b[|b| - 1]] == b;
      }
    }
  }

  lemma {:induction false} SubseqLength<T>(a: seq<T>, b: seq<T>)
    requires IsSubseq(a, b)
    ensures |a| <= |b|
    decreases |b|
  {
    if |a| > 0 {
      if a[|a| - 1] == b[|b| - 1] {
        SubseqLength(a[..|a| - 1], b[..|b| - 1]);
      } else {
        SubseqLength(a, b[..|b| - 1]);
      }
    }
  }

  /** Every element of a subsequence comes from the sequence. */
  lemma {:induction false} SubseqMembers<T>(a: seq<T>, b: seq<T>)
    requires IsSubseq(a, b)
    ensures forall x :: x in a ==> x in b
    decreases |b|
  {
    if |a| > 0 {
      if a[|a| - 1] == b[|b| - 1] {
        SubseqMembers(a[..|a| - 1], b[..|b| - 1]);
        assert a == a[..|a| - 1] + [a[|a| - 1]];
      } else {
        SubseqMembers(a, b[..|b| - 1]);
      }
    }
  }

  /** A property of every element of a sequence holds of every element of a subsequence. */
  lemma SubseqAll<T>(a: seq<T>, b: seq<T>, p: T -> bool)
    requires IsSubseq(a, b)
    requires forall j :: 0 <= j < |b| ==> p(b[j])
    ensures forall i :: 0 <= i < |a| ==> p(a[i])
  {
    SubseqMembers(a, b);
    forall i | 0 <= i < |a| ensures p(a[i]) {
      assert a[i] in b;
      var j :| 0 <= j < |b| && b[j] == a[i];
    }
  }

  lemma {:induction false} SubseqRefl<T>(a: seq<T>)
    ensures IsSubseq(a, a)
  {
    if |a| > 0 {
      SubseqRefl(a[..|a| - 1]);
    }
  }

  /** `[x for x in xs if p(x)]`. */
  function Filter<T(==)>(xs: seq<T>, p: T -> bool): (r: seq<T>)
    ensures |r| == Count(xs, p)
    ensures forall i :: 0 <= i < |r| ==> p(r[i])
    ensures forall x :: x in xs && p(x) ==> x in r
    ensures forall x :: x in r ==> x in xs
  {
    if |xs| == 0 then [] else (if p(xs[0]) then [xs[0]] else []) + Filter(xs[1..], p)
  }

  /** A filter result is an order-preserving selection of its input. */
  lemma {:induction false} FilterSubseq<T>(xs: seq<T>, p: T -> bool)
    ensures IsSubseq(Filter(xs, p), xs)
  {
    if |xs| > 0 {
      var last := xs[|xs| - 1];
      var init := xs[..|xs| - 1];
      var f := Filter(init, p);
      FilterSubseq(init, p);
      assert init + [last] == xs;
      FilterAppendOne(init, last, p);
      var a := Filter(xs, p);
      if p(last) {
        assert a[|a| - 1] == xs[|xs| - 1] && a[..|a| - 1] == f by {
          assert a == f + [last];
        }
      } else {
        assert IsSubseq(a, xs) by {
          assert a == f;
          SubseqExtend(f, init, last);
        }
      }
    }
  }

  lemma {:induction false} FilterAppendOne<T>(xs: seq<T>, x: T, p: T -> bool)
    ensures Filter(xs + [x], p) == Filter(xs, p) + (if p(x) then [x] else [])
  {
    if |xs| == 0 {
      assert xs + [x] == [x];
    } else {
      assert (xs + [x])[1..] == xs[1..] + [x];
      FilterAppendOne(xs[1..], x, p);
    }
  }

  // ---------------------------------------------------------------------------
  // First-occurrence-wins deduplication

  /** The set of keys occurring in `xs`. */
  function Keys<T(==), K>(xs: seq<T>, key: T -> K): set<K> {
    set x | x in xs :: key(x)
  }

  /** No two elements share a key. */
  predicate UniqueKeys<T, K(==)>(xs: seq<T>, key: T -> K) {
    forall i, j :: 0 <= i < j < |xs| ==> key(xs[i]) != key(xs[j])
  }

  /** The first element of `xs` whose key is `k`: the one a first-wins pass keeps. */
  function FirstWith<T(==), K(==)>(xs: seq<T>, key: T -> K, k: K): (x: T)
    requires k in Keys(xs, key)
    ensures x in xs && key(x) == k
  {
    if key(xs[0]) == k then xs[0]
    else
      assert k in Keys(xs[1..], key) by {
        var y :| y in xs && key(y) == k;
        var i :| 0 <= i < |xs| && xs[i] == y;
        assert xs[1..][i - 1] == y;
      }
      FirstWith(xs[1..], key, k)
  }

  /** In a concatenation, a key present in the first part is first found there. */
  lemma {:induction false} FirstWithConcat<T, K>(a: seq<T>, b: seq<T>, key: T -> K, k: K)
    requires k in Keys(a, key)
    ensures k in Keys(a + b, key)
    ensures FirstWith(a + b, key, k) == FirstWith(a, key, k)
  {
    var y :| y in a && key(y) == k;
    assert y in a + b;
    if key(a[0]) != k {
      var i :| 0 <= i < |a| && a[i] == y;
      assert a[1..][i - 1] == y;
      assert (a + b)[1..] == a[1..] + b;
      FirstWithConcat(a[1..], b, key, k);
    }
  }

  /** The reference definition of the deduplication: scanning left to right, an element is
      kept exactly when its key has not been seen among the kept ones. */
  function FirstWins<T(==), K(==)>(xs: seq<T>, key: T -> K): seq<T> {
    if |xs| == 0 then []
    else
      var r := FirstWins(xs[..|xs| - 1], key);
      var x := xs[|xs| - 1];
      if key(x) in Keys(r, key) then r else r + [x]
  }

  lemma KeysAppend<T, K>(a: seq<T>, x: T, key: T -> K)
    ensures Keys(a + [x], key) == Keys(a, key) + {key(x)}
  {
    assert forall y :: y in a + [x] <==> y in a || y == x;
  }

  lemma KeysConcat<T, K>(a: seq<T>, b: seq<T>, key: T -> K)
    ensures Keys(a + b, key) == Keys(a, key) + Keys(b, key)
  {
    assert forall y :: y in a + b <==> y in a || y in b;
  }

  /** Two lists whose elements have the same keys position by position have the same keys. */
  lemma SameKeys<T, K>(a: seq<T>, b: seq<T>, key: T -> K)
    requires |a| == |b| && forall i :: 0 <= i < |a| ==> key(a[i]) == key(b[i])
    ensures Keys(a, key) == Keys(b, key)
  {
    forall k | k in Keys(a, key) ensures k in Keys(b, key) {
      var x :| x in a && key(x) == k;
      var i :| 0 <= i < |a| && a[i] == x;
      assert b[i] in b;
    }
    forall k | k in Keys(b, key) ensures k in Keys(a, key) {
      var x :| x in b && key(x) == k;
      var i :| 0 <= i < |b| && b[i] == x;
      assert a[i] in a;
    }
  }

  lemma {:induction false} FirstWithAppend<T, K>(xs: seq<T>, x: T, key: T -> K, k: K)
    requires k in Keys(xs + [x], key)
    ensures k in Keys(xs, key) ==> FirstWith(xs + [x], key, k) == FirstWith(xs, key, k)
    ensures k !in Keys(xs, key) ==> FirstWith(xs + [x], key, k) == x
  {
    KeysAppend(xs, x, key);
    if |xs| > 0 {
      assert (xs + [x])[1..] == xs[1..] + [x];
      if key(xs[0]) != k {
        assert k in Keys(xs[1..] + [x], key) by { KeysAppend(xs[1..], x, key); }
        FirstWithAppend(xs[1..], x, key, k);
        if k in Keys(xs, key) {
          var y :| y in xs && key(y) == k;
          var i :| 0 <= i < |xs| && xs[i] == y;
          assert xs[1..][i - 1] == y;
        }
      }
    } else {
      assert xs + [x] == [x];
    }
  }

  /** The deduplication selects from its input in order, and loses no key. */
  lemma {:induction false} FirstWinsSelects<T, K>(xs: seq<T>, key: T -> K)
    ensures IsSubseq(FirstWins(xs, key), xs)
    ensures Keys(FirstWins(xs, key), key) == Keys(xs, key)
  {
    if |xs| > 0 {
      var init := xs[..|xs| - 1];
      var x := xs[|xs| - 1];
      FirstWinsSelects(init, key);
      var r0 := FirstWins(init, key);
      var r := FirstWins(xs, key);
      assert xs == init + [x];
      assert IsSubseq(r, xs) by {
        SubseqExtend(r0, init, x);
      }
      assert Keys(r, key) == Keys(xs, key) by {
        KeysAppend(init, x, key);
        KeysAppend(r0, x, key);
      }
    }
  }

  /** No key occurs twice in the deduplicated list. */
  lemma {:induction false} FirstWinsUniqueKeys<T, K>(xs: seq<T>, key: T -> K)
    ensures UniqueKeys(FirstWins(xs, key), key)
  {
    if |xs| > 0 {
      var init := xs[..|xs| - 1];
      var x := xs[|xs| - 1];
      FirstWinsUniqueKeys(init, key);
      var r0 := FirstWins(init, key);
      if key(x) !in Keys(r0, key) {
        forall i | 0 <= i < |r0| ensures key(r0[i]) != key(x) {
          assert r0[i] in r0;
        }
      }
    }
  }

  /** The element kept for each key is the first input element carrying that key. */
  lemma {:induction false} FirstWinsKeepsFirst<T, K>(xs: seq<T>, key: T -> K)
    ensures var r := FirstWins(xs, key);
      forall i :: 0 <= i < |r| ==> key(r[i]) in Keys(xs, key) && r[i] == FirstWith(xs, key, key(r[i]))
  {
    if |xs| > 0 {
      var init := xs[..|xs| - 1];
      var x := xs[|xs| - 1];
      assert xs == init + [x];
      FirstWinsKeepsFirst(init, key);
      FirstWinsSelects(init, key);
      var r0 := FirstWins(init, key);
      KeysAppend(init, x, key);
      forall i | 0 <= i < |r0|
        ensures r0[i] == FirstWith(xs, key, key(r0[i]))
      {
        FirstWithAppend(init, x, key, key(r0[i]));
      }
      if key(x) !in Keys(r0, key) {
        FirstWithAppend(init, x, key, key(x));
      }
    }
  }

  /** What the deduplication keeps, in one statement: an order-preserving selection of the
      input with no repeated key, covering every key of the input, whose element for each
      key is the first input element with that key. */
  lemma FirstWinsSpec<T, K>(xs: seq<T>, key: T -> K)
    ensures var r := FirstWins(xs, key);
      IsSubseq(r, xs) && UniqueKeys(r, key) && Keys(r, key) == Keys(xs, key)
      && forall i :: 0 <= i < |r| ==> key(r[i]) in Keys(xs, key) && r[i] == FirstWith(xs, key, key(r[i]))
  {
    FirstWinsSelects(xs, key);
    FirstWinsUniqueKeys(xs, key);
    FirstWinsKeepsFirst(xs, key);
  }

  /** A list that already has unique keys is returned unchanged. */
  lemma {:induction false} FirstWinsUnique<T, K>(xs: seq<T>, key: T -> K)
    requires UniqueKeys(xs, key)
    ensures FirstWins(xs, key) == xs
  {
    if |xs| > 0 {
      var init := xs[..|xs| - 1];
      var x := xs[|xs| - 1];
      assert UniqueKeys(init, key) by {
        forall i, j | 0 <= i < j < |init| ensures key(init[i]) != key(init[j]) {
          assert init[i] == xs[i] && init[j] == xs[j];
        }
      }
      FirstWinsUnique(init, key);
      forall y | y in init ensures key(y) != key(x) {
        var i :| 0 <= i < |init| && init[i] == y;
        assert xs[i] == y;
      }
      assert key(x) !in Keys(init, key);
      assert init + [x] == xs;
    }
  }

  /** Deduplicating twice is deduplicating once. */
  lemma FirstWinsIdempotent<T, K>(xs: seq<T>, key: T -> K)
    ensures FirstWins(FirstWins(xs, key), key) == FirstWins(xs, key)
  {
    FirstWinsUniqueKeys(xs, key);
    FirstWinsUnique(FirstWins(xs, key), key);
  }

  /** The imperative pass the services run: a `seen` set of keys and an output list,
      appending each element whose key is new. */
  method DedupFirstWins<T(==), K(==)>(xs: seq<T>, key: T -> K) returns (unique: seq<T>)
    ensures unique == FirstWins(xs, key)
    ensures UniqueKeys(unique, key) && IsSubseq(unique, xs)
  {
    var seen: set<K> := {};
    unique := [];
    var i := 0;
    while i < |xs|
      invariant 0 <= i <= |xs|
      invariant unique == FirstWins(xs[..i], key)
      invariant seen == Keys(unique, key)
    {
      var k := key(xs[i]);
      assert xs[..i + 1][..i] == xs[..i];
      if k !in seen {
        KeysAppend(unique, xs[i], key);
        seen := seen + {k};
        unique := unique + [xs[i]];
      }
      i := i + 1;
    }
    assert xs[..|xs|] == xs;
    FirstWinsUniqueKeys(xs, key);
    FirstWinsSelects(xs, key);
  }

  // ---------------------------------------------------------------------------
  // Descending sort by a lexicographic (int, real) rank

  /** A sort rank: compared on `major` first, then `minor`. */
  datatype Rank = Rank(major: int, minor: real)

  predicate RankLess(a: Rank, b: Rank) {
    a.major < b.major || (a.major == b.major && a.minor < b.minor)
  }

  /** Every element ranks no lower than the ones after it. */
  predicate SortedDesc<T>(xs: seq<T>, rank: T -> Rank) {
    forall i, j :: 0 <= i < j < |xs| ==> !RankLess(rank(xs[i]), rank(xs[j]))
  }

  /** Places `x` after every element that ranks at least as high. */
  function Insert<T>(x: T, xs: seq<T>, rank: T -> Rank): (r: seq<T>)
    ensures multiset(r) == multiset(xs) + multiset{x}
    ensures |r| == |xs| + 1
  {
    if |xs| == 0 then [x]
    else if RankLess(rank(xs[0]), rank(x)) then [x] + xs
    else
      assert xs == [xs[0]] + xs[1..];
      [xs[0]] + Insert(x, xs[1..], rank)
  }

  lemma {:induction false} InsertSorted<T>(x: T, xs: seq<T>, rank: T -> Rank)
    requires SortedDesc(xs, rank)
    ensures SortedDesc(Insert(x, xs, rank), rank)
  {
    if |xs| > 0 && !RankLess(rank(xs[0]), rank(x)) {
      InsertSorted(x, xs[1..], rank);
      var r := Insert(x, xs[1..], rank);
      forall k | 0 <= k < |r| ensures !RankLess(rank(xs[0]), rank(r[k])) {
        assert r[k] in multiset(xs[1..]) + multiset{x};
        if r[k] != x {
          var m :| 0 <= m < |xs[1..]| && xs[1..][m] == r[k];
          assert xs[m + 1] == r[k];
        }
      }
    }
  }

  /** `sorted(xs, key=rank, reverse=True)`. */
  function SortDesc<T>(xs: seq<T>, rank: T -> Rank): seq<T> {
    if |xs| == 0 then [] else Insert(xs[|xs| - 1], SortDesc(xs[..|xs| - 1], rank), rank)
  }

  lemma MultisetSnoc<T>(xs: seq<T>)
    requires |xs| > 0
    ensures multiset(xs) == multiset(xs[..|xs| - 1]) + multiset{xs[|xs| - 1]}
  {
    assert xs == xs[..|xs| - 1] + [xs[|xs| - 1]];
  }

  /** The sort returns a permutation of its input in descending rank order. */
  lemma {:induction false} SortDescSpec<T>(xs: seq<T>, rank: T -> Rank)
    ensures multiset(SortDesc(xs, rank)) == multiset(xs)
    ensures SortedDesc(SortDesc(xs, rank), rank)
  {
    if |xs| > 0 {
      var init := xs[..|xs| - 1];
      var last := xs[|xs| - 1];
      var sorted := SortDesc(init, rank);
      SortDescSpec(init, rank);
      InsertSorted(last, sorted, rank);
      MultisetSnoc(xs);
      assert SortDesc(xs, rank) == Insert(last, sorted, rank);
    }
  }

  /** In a sorted list nothing after position `n` ranks above the element just before it. */
  lemma SortedDescTail<T>(xs: seq<T>, n: nat, rank: T -> Rank)
    requires SortedDesc(xs, rank) && 0 < n <= |xs|
    ensures forall a :: a in multiset(xs[n..]) ==> !RankLess(rank(xs[n - 1]), rank(a))
  {
    forall a | a in multiset(xs[n..]) ensures !RankLess(rank(xs[n - 1]), rank(a)) {
      assert a in xs[n..];
      var k :| 0 <= k < |xs| - n && xs[n..][k] == a;
      assert xs[n + k] == a;
    }
  }

  /** Sorting and keeping the first `n`: at most `n` elements, sorted, drawn from the input,
      and all of them when there are no more than `n`. */
  lemma SortedCut<T>(xs: seq<T>, rank: T -> Rank, n: nat)
    ensures var r := SliceTo(SortDesc(xs, rank), n);
      |r| <= n && SortedDesc(r, rank) && multiset(r) <= multiset(xs)
      && (|xs| <= n ==> multiset(r) == multiset(xs))
  {
    SortDescSpec(xs, rank);
    var sorted := SortDesc(xs, rank);
    var r := SliceTo(sorted, n);
    assert sorted == r + sorted[|r|..];
    assert multiset(sorted) == multiset(r) + multiset(sorted[|r|..]);
    assert forall i :: 0 <= i < |r| ==> r[i] == sorted[i];
  }

  /** Sorting keeps the length. */
  lemma SortDescLength<T>(xs: seq<T>, rank: T -> Rank)
    ensures |SortDesc(xs, rank)| == |xs|
  {
    SortDescSpec(xs, rank);
    assert |multiset(SortDesc(xs, rank))| == |multiset(xs)|;
  }

  /** Cutting a sorted list at `n` below its length drops nothing ranked above the last
      element kept. */
  lemma SortedCutDropped<T>(xs: seq<T>, rank: T -> Rank, n: nat)
    requires 0 < n < |xs|
    ensures var r := SliceTo(SortDesc(xs, rank), n);
      |r| == n && forall a :: a in multiset(xs) - multiset(r) ==> !RankLess(rank(r[n - 1]), rank(a))
  {
    SortDescSpec(xs, rank);
    SortDescLength(xs, rank);
    var sorted := SortDesc(xs, rank);
    var r := sorted[..n];
    assert sorted == r + sorted[n..];
    assert multiset(xs) - multiset(r) == multiset(sorted[n..]);
    SortedDescTail(sorted, n, rank);
  }

  /** Cutting at or above the length keeps everything. */
  lemma SortedCutAll<T>(xs: seq<T>, rank: T -> Rank, n: nat)
    requires |xs| <= n
    ensures var r := SliceTo(SortDesc(xs, rank), n);
      |r| == |xs| && multiset(xs) - multiset(r) == multiset{}
  {
    SortDescSpec(xs, rank);
    SortDescLength(xs, rank);
  }

  /** Python's `xs[:n]` for any integer `n` (a negative `n` drops that many from the end). */
  function SliceTo<T>(xs: seq<T>, n: int): (r: seq<T>)
    ensures n >= 0 ==> |r| == if n < |xs| then n else |xs|
    ensures r <= xs
  {
    if n >= |xs| then xs
    else if n >= 0 then xs[..n]
    else if |xs| + n >= 0 then xs[..|xs| + n]
    else []
  }
}

=== FILE: static_tools.dfy ===
/** The static analysis service: the Slither, Mythril and Semgrep runners over their process
    outcomes, the parsers of their JSON reports, the severity, confidence and category maps,
    and the assembly of the service's result dictionary. The processes themselves are
    parameters: their exit code and what their standard output decoded to. */
module StaticTools {
  import opened Wrappers
  import opened Payloads
  import Text
  import A = Analysis
  import Seqs

  // ---------------------------------------------------------------------------
  // Maps

  /** `_map_slither_severity`: High, Medium, Low and Informational, with anything else "low". */
  function MapSlitherSeverity(impact: string): (s: string)
    ensures s in {"high", "medium", "low"}
    ensures s == "high" <==> impact == "High"
    ensures s == "medium" <==> impact == "Medium"
  {
    if impact == "High" then "high"
    else if impact == "Medium" then "medium"
    else "low"
  }

  /** `_map_mythril_severity`. */
  function MapMythrilSeverity(severity: string): (s: string)
    ensures s in {"high", "medium", "low"}
    ensures s == "high" <==> severity == "High"
    ensures s == "medium" <==> severity == "Medium"
  {
    if severity == "High" then "high"
    else if severity == "Medium" then "medium"
    else "low"
  }

  /** `_map_semgrep_severity`: compared after upper-casing, so it ignores case. */
  function MapSemgrepSeverity(severity: string): (s: string)
    ensures s in {"high", "medium", "low"}
    ensures s == "high" <==> Text.Upper(severity) == "ERROR"
    ensures s == "medium" <==> Text.Upper(severity) == "WARNING"
  {
    var u := Text.Upper(severity);
    if u == "ERROR" then "high"
    else if u == "WARNING" then "medium"
    else "low"
  }

  /** Upper-casing ignores case: the Semgrep map gives the same answer for "error",
      "Error" and "ERROR". */
  lemma SemgrepSeverityIgnoresCase(a: string, b: string)
    requires Text.Upper(a) == Text.Upper(b)
    ensures MapSemgrepSeverity(a) == MapSemgrepSeverity(b)
  {
  }

  /** `_map_slither_confidence`: a value in (0, 1], with unknown levels 0.5. */
  function MapSlitherConfidence(confidence: string): (c: real)
    ensures 0.0 < c <= 1.0
    ensures c == 0.9 <==> confidence == "High"
    ensures c == 0.7 <==> confidence == "Medium"
    ensures c == 0.5 <==> confidence != "High" && confidence != "Medium"
  {
    if confidence == "High" then 0.9
    else if confidence == "Medium" then 0.7
    else 0.5
  }

  const Categories := {"reentrancy", "access-control", "arithmetic", "gas", "other"}

  /** `_categorize_slither_finding`: the category of the first keyword group the lower-cased
      check name hits, tried in the order reentrancy, access control, arithmetic, gas. */
  function CategorizeSlither(check: string): (c: string)
    ensures c in Categories
    ensures var l := Text.Lower(check);
      (c == "reentrancy" <==> Text.Contains(l, "reentrancy"))
      && (c == "access-control" <==>
            !Text.Contains(l, "reentrancy") && (Text.Contains(l, "access") || Text.Contains(l, "modifier")))
      && (c == "arithmetic" <==>
            !Text.Contains(l, "reentrancy") && !Text.Contains(l, "access") && !Text.Contains(l, "modifier")
            && (Text.Contains(l, "arithmetic") || Text.Contains(l, "overflow")))
      && (c == "gas" <==>
            !Text.Contains(l, "reentrancy") && !Text.Contains(l, "access") && !Text.Contains(l, "modifier")
            && !Text.Contains(l, "arithmetic") && !Text.Contains(l, "overflow") && Text.Contains(l, "gas"))
    ensures c == "other" <==>
      !Text.Contains(Text.Lower(check), "reentrancy") && !Text.Contains(Text.Lower(check), "access")
      && !Text.Contains(Text.Lower(check), "modifier") && !Text.Contains(Text.Lower(check), "arithmetic")
      && !Text.Contains(Text.Lower(check), "overflow") && !Text.Contains(Text.Lower(check), "gas")
  {
    var l := Text.Lower(check);
    if Text.Contains(l, "reentrancy") then "reentrancy"
    else if Text.Contains(l, "access") || Text.Contains(l, "modifier") then "access-control"
    else if Text.Contains(l, "arithmetic") || Text.Contains(l, "overflow") then "arithmetic"
    else if Text.Contains(l, "gas") then "gas"
    else "other"
  }

  /** `_categorize_mythril_finding`: by SWC identifier. */
  function CategorizeMythril(swcId: string): (c: string)
    ensures c in Categories && c != "gas"
    ensures c == "reentrancy" <==> swcId == "SWC-107"
    ensures c == "arithmetic" <==> swcId == "SWC-101"
    ensures c == "access-control" <==> swcId in {"SWC-104", "SWC-105", "SWC-115"}
    ensures c == "other" <==> swcId !in {"SWC-107", "SWC-101", "SWC-104", "SWC-105", "SWC-115"}
  {
    if swcId == "SWC-107" then "reentrancy"
    else if swcId == "SWC-101" then "arithmetic"
    else if swcId in {"SWC-104", "SWC-105", "SWC-115"} then "access-control"
    else "other"
  }

  /** `_categorize_semgrep_finding`: reentrancy, then access control, then arithmetic, by
      the keywords of the lower-cased check id. */
  function CategorizeSemgrep(checkId: string): (c: string)
    ensures c in Categories && c != "gas"
    ensures var l := Text.Lower(checkId);
      (c == "reentrancy" <==> Text.Contains(l, "reentrancy"))
      && (c == "access-control" <==> !Text.Contains(l, "reentrancy") && Text.Contains(l, "access"))
      && (c == "arithmetic" <==>
            !Text.Contains(l, "reentrancy") && !Text.Contains(l, "access")
            && (Text.Contains(l, "overflow") || Text.Contains(l, "underflow")))
    ensures c == "other" <==>
      !Text.Contains(Text.Lower(checkId), "reentrancy") && !Text.Contains(Text.Lower(checkId), "access")
      && !Text.Contains(Text.Lower(checkId), "overflow") && !Text.Contains(Text.Lower(checkId), "underflow")
  {
    var l := Text.Lower(checkId);
    if Text.Contains(l, "reentrancy") then "reentrancy"
    else if Text.Contains(l, "access") then "access-control"
    else if Text.Contains(l, "overflow") || Text.Contains(l, "underflow") then "arithmetic"
    else "other"
  }

  // The maps as the lookup tables and keyword lists they are written as

  /** The confidence table of `_map_slither_confidence`. */
  const SlitherConfidences: map<string, real> := map["High" := 0.9, "Medium" := 0.7, "Low" := 0.5]

  /** The confidence map is a lookup in its table with 0.5 as the default. */
  lemma SlitherConfidenceIsLookup(confidence: string)
    ensures MapSlitherConfidence(confidence)
         == if confidence in SlitherConfidences then SlitherConfidences[confidence] else 0.5
  {
  }

  /** The SWC table of `_categorize_mythril_finding`. */
  const SwcCategories: map<string, string> := map[
    "SWC-107" := "reentrancy", "SWC-101" := "arithmetic", "SWC-104" := "access-control",
    "SWC-105" := "access-control", "SWC-115" := "access-control"]

  /** The Mythril categoriser is a lookup in the SWC table with "other" as the default. */
  lemma MythrilCategoryIsLookup(swcId: string)
    ensures CategorizeMythril(swcId) == if swcId in SwcCategories then SwcCategories[swcId] else "other"
  {
  }

  /** A category with the keywords that select it. */
  datatype KeywordGroup = KeywordGroup(keywords: seq<string>, category: string)

  predicate HitsGroup(l: string, g: KeywordGroup) {
    exists k :: k in g.keywords && Text.Contains(l, k)
  }

  /** The category of the first group from position `i` with a keyword in `l`, else "other". */
  function FirstGroupFrom(l: string, groups: seq<KeywordGroup>, i: nat): string
    decreases |groups| - i
  {
    if i >= |groups| then "other"
    else if HitsGroup(l, groups[i]) then groups[i].category
    else FirstGroupFrom(l, groups, i + 1)
  }

  const SlitherGroups: seq<KeywordGroup> := [
    KeywordGroup(["reentrancy"], "reentrancy"), KeywordGroup(["access", "modifier"], "access-control"),
    KeywordGroup(["arithmetic", "overflow"], "arithmetic"), KeywordGroup(["gas"], "gas")]

  const SemgrepGroups: seq<KeywordGroup> := [
    KeywordGroup(["reentrancy"], "reentrancy"), KeywordGroup(["access"], "access-control"),
    KeywordGroup(["overflow", "underflow"], "arithmetic")]

  lemma HitsTwo(l: string, a: string, b: string, c: string)
    ensures HitsGroup(l, KeywordGroup([a, b], c)) <==> Text.Contains(l, a) || Text.Contains(l, b)
  {
    if Text.Contains(l, a) { assert a in [a, b]; }
    if Text.Contains(l, b) { assert b in [a, b]; }
  }

  lemma HitsOne(l: string, a: string, c: string)
    ensures HitsGroup(l, KeywordGroup([a], c)) <==> Text.Contains(l, a)
  {
    if Text.Contains(l, a) { assert a in [a]; }
  }

  /** The Slither categoriser takes the first keyword group the lower-cased name hits. */
  lemma SlitherCategoryIsFirstGroup(check: string)
    ensures CategorizeSlither(check) == FirstGroupFrom(Text.Lower(check), SlitherGroups, 0)
  {
    var l := Text.Lower(check);
    HitsOne(l, "reentrancy", "reentrancy");
    HitsTwo(l, "access", "modifier", "access-control");
    HitsTwo(l, "arithmetic", "overflow", "arithmetic");
    HitsOne(l, "gas", "gas");
    assert FirstGroupFrom(l, SlitherGroups, 4) == "other";
  }

  /** The Semgrep categoriser takes the first keyword group the lower-cased id hits. */
  lemma SemgrepCategoryIsFirstGroup(checkId: string)
    ensures CategorizeSemgrep(checkId) == FirstGroupFrom(Text.Lower(checkId), SemgrepGroups, 0)
  {
    var l := Text.Lower(checkId);
    HitsOne(l, "reentrancy", "reentrancy");
    HitsOne(l, "access", "access-control");
    HitsTwo(l, "overflow", "underflow", "arithmetic");
    assert FirstGroupFrom(l, SemgrepGroups, 3) == "other";
  }

  /** `_get_slither_recommendation`: the check name inside a fixed sentence. */
  function SlitherRecommendation(check: string): (r: string)
    ensures |r| == |check| + 50
    ensures r[..12] == "Address the " && r[12..12 + |check|] == check
    ensures r[12 + |check|..] == " issue identified by Slither analysis."
  {
    "Address the " + check + " issue identified by Slither analysis."
  }

  const MythrilDefaultRecommendation := "Review and address the identified security issue."

  /** `_get_mythril_recommendation`: a fixed advice for four SWC identifiers. */
  function MythrilRecommendation(swcId: string): (r: string)
    ensures r == MythrilDefaultRecommendation <==> swcId !in {"SWC-107", "SWC-101", "SWC-104", "SWC-105"}
  {
    if swcId == "SWC-107" then "Implement reentrancy guard or use checks-effects-interactions pattern"
    else if swcId == "SWC-101" then "Use SafeMath library or Solidity 0.8+ built-in overflow protection"
    else if swcId == "SWC-104" then "Implement proper access control mechanisms"
    else if swcId == "SWC-105" then "Validate all external calls and handle failures appropriately"
    else MythrilDefaultRecommendation
  }

  const SemgrepRecommendation := "Review and address the identified pattern"

  // ---------------------------------------------------------------------------
  // Reports and parsers

  /** One element of a Slither detector: `source_mapping.lines` (`None` when the mapping or
      its lines are absent) and the element's name. */
  datatype SlitherElement = SlitherElement(lines: Option<seq<int>>, name: Option<string>)

  datatype SlitherDetector = SlitherDetector(
    check: Option<string>, description: Option<string>, impact: Option<string>,
    confidence: Option<string>, elements: seq<SlitherElement>)

  /** `results.detectors` of Slither's report (empty when absent). */
  datatype SlitherReport = SlitherReport(detectors: seq<SlitherDetector>)

  datatype MythrilIssue = MythrilIssue(
    title: Option<string>, description: Option<string>, severity: Option<string>,
    swcId: Option<string>, lineno: Option<int>, functionName: Option<string>)

  datatype MythrilReport = MythrilReport(issues: seq<MythrilIssue>)

  datatype SemgrepResult = SemgrepResult(
    checkId: Option<string>, message: Option<string>, severity: Option<string>, startLine: Option<int>)

  datatype SemgrepReport = SemgrepReport(results: seq<SemgrepResult>)

  /** A finding dictionary as a tool parser builds it. */
  function ToolFinding(title: string, description: string, severity: string, category: string,
                       confidence: real, tool: string, recommendation: string,
                       line: Option<int>, functionName: Option<string>): FindingPayload {
    FindingPayload(Some(title), Some(description), Some(recommendation), Some(severity), Some(category),
                   line, functionName, None, Some(tool), Some(confidence), None)
  }

  /** The location of a Slither finding: the first line and the name of the first element.
      Indexing an explicitly empty line list raises, which is the `Failure`. */
  function SlitherLocation(elements: seq<SlitherElement>): Result<(Option<int>, Option<string>), string> {
    if |elements| == 0 then Success((None, None))
    else
      var first := elements[0];
      if first.lines.None? then Success((None, first.name))
      else if |first.lines.value| == 0 then Failure("IndexError: list index out of range")
      else Success((Some(first.lines.value[0]), first.name))
  }

  /** One Slither detector as a finding: the check name as title (its category and
      recommendation come from it too), the impact as severity with "Low" by default, the
      confidence with "Medium" by default, and the first element's first line and name. */
  function ParseSlitherDetector(d: SlitherDetector): (r: Result<FindingPayload, string>)
    ensures r.Failure? <==> |d.elements| > 0 && d.elements[0].lines == Some([])
    ensures r.Success? ==> r.value.tool == Some("slither") && r.value.title == Some(d.check.GetOr("Unknown Issue"))
    ensures r.Success? ==>
      r.value.description == Some(d.description.GetOr(""))
      && r.value.severity == Some(MapSlitherSeverity(d.impact.GetOr("Low")))
      && r.value.category == Some(CategorizeSlither(d.check.GetOr("")))
      && r.value.confidence == Some(MapSlitherConfidence(d.confidence.GetOr("Medium")))
      && r.value.recommendation == Some(SlitherRecommendation(d.check.GetOr("")))
    ensures r.Success? && |d.elements| == 0 ==> r.value.lineNumber.None? && r.value.functionName.None?
    ensures r.Success? && |d.elements| > 0 ==>
      r.value.functionName == d.elements[0].name
      && r.value.lineNumber == (if d.elements[0].lines.None? then None else Some(d.elements[0].lines.value[0]))
    ensures r.Success? ==> WellFormedToolFinding(r.value)
  {
    var loc :- SlitherLocation(d.elements);
    Success(ToolFinding(
      d.check.GetOr("Unknown Issue"), d.description.GetOr(""),
      MapSlitherSeverity(d.impact.GetOr("Low")), CategorizeSlither(d.check.GetOr("")),
      MapSlitherConfidence(d.confidence.GetOr("Medium")), "slither",
      SlitherRecommendation(d.check.GetOr("")), loc.0, loc.1))
  }

  /** `_parse_slither_results`: one finding per detector, in order; the first detector whose
      location cannot be read makes the whole parse raise. */
  function ParseSlither(ds: seq<SlitherDetector>): (r: Result<seq<FindingPayload>, string>)
    ensures r.Success? <==> forall i :: 0 <= i < |ds| ==> ParseSlitherDetector(ds[i]).Success?
    ensures r.Success? ==>
      (|r.value| == |ds| && forall i :: 0 <= i < |ds| ==> r.value[i] == ParseSlitherDetector(ds[i]).value)
  {
    if |ds| == 0 then Success([])
    else
      var f :- ParseSlitherDetector(ds[0]);
      var rest :- ParseSlither(ds[1..]);
      assert forall i :: 1 <= i < |ds| ==> ds[1..][i - 1] == ds[i];
      Success([f] + rest)
  }

  /** One Mythril issue as a finding: the title with "Unknown Issue" by default, the severity
      with "Low" by default, the category and recommendation from the SWC id, a fixed
      confidence of 0.8, and the issue's line and function. */
  function ParseMythrilIssue(i: MythrilIssue): (f: FindingPayload)
    ensures f.tool == Some("mythril") && f.confidence == Some(0.8) && f.lineNumber == i.lineno
    ensures f.title == Some(i.title.GetOr("Unknown Issue")) && f.description == Some(i.description.GetOr(""))
    ensures f.severity == Some(MapMythrilSeverity(i.severity.GetOr("Low")))
    ensures f.category == Some(CategorizeMythril(i.swcId.GetOr("")))
    ensures f.recommendation == Some(MythrilRecommendation(i.swcId.GetOr("")))
    ensures f.functionName == i.functionName
  {
    var severity := MapMythrilSeverity(i.severity.GetOr("Low"));
    var category := CategorizeMythril(i.swcId.GetOr(""));
    ToolFinding(
      i.title.GetOr("Unknown Issue"), i.description.GetOr(""), severity, category,
      0.8, "mythril", MythrilRecommendation(i.swcId.GetOr("")), i.lineno, i.functionName)
  }

  lemma MythrilIssueWellFormed(i: MythrilIssue)
    ensures WellFormedToolFinding(ParseMythrilIssue(i))
  {
    var f := ParseMythrilIssue(i);
    assert f.tool.value in {"slither", "mythril", "semgrep"};
    assert f.severity.value in {"high", "medium", "low"};
    assert f.category.value in Categories;
  }

  /** `_parse_mythril_results`. */
  function ParseMythril(issues: seq<MythrilIssue>): (r: seq<FindingPayload>)
    ensures |r| == |issues| && forall k :: 0 <= k < |issues| ==> r[k] == ParseMythrilIssue(issues[k])
  {
    seq(|issues|, k requires 0 <= k < |issues| => ParseMythrilIssue(issues[k]))
  }

  /** A Semgrep finding's title: the last dot-separated piece of its check id. */
  function SemgrepTitle(checkId: Option<string>): (t: string)
    ensures forall i :: 0 <= i < |t| ==> t[i] != '.'
    ensures var s := checkId.GetOr("Unknown Issue"); |t| <= |s| && t == s[|s| - |t|..]
    ensures var s := checkId.GetOr("Unknown Issue"); |t| < |s| ==> s[|s| - |t| - 1] == '.'
  {
    Text.AfterLastIsSuffix(checkId.GetOr("Unknown Issue"), '.');
    Text.AfterLast(checkId.GetOr("Unknown Issue"), '.')
  }

  /** One Semgrep result as a finding: the title from the check id, the message as
      description, the severity with "INFO" by default, the category from the check id, a
      fixed confidence of 0.7 and recommendation, the start line, and no function name. */
  function ParseSemgrepResult(r: SemgrepResult): (f: FindingPayload)
    ensures f.tool == Some("semgrep") && f.confidence == Some(0.7) && f.lineNumber == r.startLine
    ensures f.title == Some(SemgrepTitle(r.checkId)) && f.description == Some(r.message.GetOr(""))
    ensures f.severity == Some(MapSemgrepSeverity(r.severity.GetOr("INFO")))
    ensures f.category == Some(CategorizeSemgrep(r.checkId.GetOr("")))
    ensures f.recommendation == Some(SemgrepRecommendation) && f.functionName.None?
    ensures WellFormedToolFinding(f)
  {
    ToolFinding(
      SemgrepTitle(r.checkId), r.message.GetOr(""), MapSemgrepSeverity(r.severity.GetOr("INFO")),
      CategorizeSemgrep(r.checkId.GetOr("")), 0.7, "semgrep", SemgrepRecommendation, r.startLine, None)
  }

  /** `_parse_semgrep_results`. */
  function ParseSemgrep(rs: seq<SemgrepResult>): (r: seq<FindingPayload>)
    ensures |r| == |rs| && forall k :: 0 <= k < |rs| ==> r[k] == ParseSemgrepResult(rs[k])
  {
    seq(|rs|, k requires 0 <= k < |rs| => ParseSemgrepResult(rs[k]))
  }

  // ---------------------------------------------------------------------------
  // Runners

  /** A tool process: it timed out, failed to start, or exited with a code and an output that
      was empty (`None`), not JSON (`Some(None)`) or a decoded report. */
  datatype Process<R> = TimedOut | Crashed | Exited(code: int, output: Option<Option<R>>)

  /** `_run_slither`: any non-empty output is parsed whatever the exit code; every error
      yields no findings. */
  function RunSlither(p: Process<SlitherReport>): (r: seq<FindingPayload>)
    ensures (p.Exited? && p.output.Some? && p.output.value.Some?
             && ParseSlither(p.output.value.value.detectors).Success?) ==>
      r == ParseSlither(p.output.value.value.detectors).value
    ensures !(p.Exited? && p.output.Some? && p.output.value.Some?) ==> r == []
  {
    if p.Exited? && p.output.Some? && p.output.value.Some? then
      match ParseSlither(p.output.value.value.detectors)
      case Success(fs) => fs
      case Failure(_) => []
    else []
  }

  /** One detector whose first element lists no lines costs every Slither finding of the run. */
  lemma SlitherEmptyLinesDropsAll(p: Process<SlitherReport>, k: int)
    requires p.Exited? && p.output.Some? && p.output.value.Some?
    requires 0 <= k < |p.output.value.value.detectors|
    requires var es := p.output.value.value.detectors[k].elements; |es| > 0 && es[0].lines == Some([])
    ensures RunSlither(p) == []
  {
    assert ParseSlitherDetector(p.output.value.value.detectors[k]).Failure?;
  }

  /** `_run_mythril`: a non-zero exit code yields no findings. */
  function RunMythril(p: Process<MythrilReport>): (r: seq<FindingPayload>)
    ensures (p.Exited? && p.code != 0) ==> r == []
    ensures p.Exited? && p.code == 0 && p.output.Some? && p.output.value.Some? ==>
      r == ParseMythril(p.output.value.value.issues)
  {
    if p.Exited? && p.code == 0 && p.output.Some? && p.output.value.Some? then
      ParseMythril(p.output.value.value.issues)
    else []
  }

  /** `_run_semgrep`: output is parsed whatever the exit code. */
  function RunSemgrep(p: Process<SemgrepReport>): (r: seq<FindingPayload>)
    ensures p.Exited? && p.output.Some? && p.output.value.Some? ==> r == ParseSemgrep(p.output.value.value.results)
    ensures !(p.Exited? && p.output.Some? && p.output.value.Some?) ==> r == []
  {
    if p.Exited? && p.output.Some? && p.output.value.Some? then ParseSemgrep(p.output.value.value.results)
    else []
  }

  /** `_run_security_analysis`: Slither's findings, then Mythril's when Mythril is installed,
      then Semgrep's. The runners catch their own errors, so none is skipped. */
  function SecurityFindings(slither: Process<SlitherReport>, mythrilAvailable: bool,
                            mythril: Process<MythrilReport>, semgrep: Process<SemgrepReport>)
    : (r: seq<FindingPayload>)
    ensures |r| == |RunSlither(slither)| + (if mythrilAvailable then |RunMythril(mythril)| else 0)
                   + |RunSemgrep(semgrep)|
    ensures r[..|RunSlither(slither)|] == RunSlither(slither)
    ensures r[|r| - |RunSemgrep(semgrep)|..] == RunSemgrep(semgrep)
    ensures forall f :: f in r <==>
      f in RunSlither(slither) || (mythrilAvailable && f in RunMythril(mythril)) || f in RunSemgrep(semgrep)
  {
    RunSlither(slither) + (if mythrilAvailable then RunMythril(mythril) else []) + RunSemgrep(semgrep)
  }

  /** Every finding a tool parser produces names its tool, a known severity and category, and
      a confidence in (0, 1], and carries no source tag yet. */
  predicate WellFormedToolFinding(f: FindingPayload) {
    f.tool.Some? && f.tool.value in {"slither", "mythril", "semgrep"}
    && f.severity.Some? && f.severity.value in {"high", "medium", "low"}
    && f.category.Some? && f.category.value in Categories
    && f.confidence.Some? && 0.0 < f.confidence.value <= 1.0
    && f.title.Some? && f.source.None?
  }

  lemma SecurityFindingsWellFormed(slither: Process<SlitherReport>, mythrilAvailable: bool,
                                   mythril: Process<MythrilReport>, semgrep: Process<SemgrepReport>)
    ensures var fs := SecurityFindings(slither, mythrilAvailable, mythril, semgrep);
      forall i :: 0 <= i < |fs| ==> WellFormedToolFinding(fs[i])
  {
    var s := RunSlither(slither);
    var m := if mythrilAvailable then RunMythril(mythril) else [];
    var g := RunSemgrep(semgrep);
    SlitherFindingsWellFormed(slither);
    MythrilFindingsWellFormed(mythril);
    SemgrepFindingsWellFormed(semgrep);
    AllWellFormedConcat(s, m);
    AllWellFormedConcat(s + m, g);
  }

  predicate AllWellFormed(fs: seq<FindingPayload>) {
    forall i :: 0 <= i < |fs| ==> WellFormedToolFinding(fs[i])
  }

  lemma AllWellFormedConcat(a: seq<FindingPayload>, b: seq<FindingPayload>)
    requires AllWellFormed(a) && AllWellFormed(b)
    ensures AllWellFormed(a + b)
  {
    forall i | 0 <= i < |a + b| ensures WellFormedToolFinding((a + b)[i]) {
      if i >= |a| { assert (a + b)[i] == b[i - |a|]; }
    }
  }

  lemma MythrilFindingsWellFormed(p: Process<MythrilReport>)
    ensures AllWellFormed(RunMythril(p))
  {
    if p.Exited? && p.code == 0 && p.output.Some? && p.output.value.Some? {
      var issues := p.output.value.value.issues;
      forall k | 0 <= k < |issues| ensures WellFormedToolFinding(RunMythril(p)[k]) {
        MythrilIssueWellFormed(issues[k]);
      }
    }
  }

  lemma SemgrepFindingsWellFormed(p: Process<SemgrepReport>)
    ensures AllWellFormed(RunSemgrep(p))
  {
  }

  lemma SlitherFindingsWellFormed(p: Process<SlitherReport>)
    ensures AllWellFormed(RunSlither(p))
  {
    if p.Exited? && p.output.Some? && p.output.value.Some? {
      var ds := p.output.value.value.detectors;
      if ParseSlither(ds).Success? {
        assert forall i :: 0 <= i < |ds| ==> ParseSlitherDetector(ds[i]).Success?;
      }
    }
  }

  // ---------------------------------------------------------------------------
  // The service

  const DefaultStaticTypes := ["security", "gas"]

  /** The `tools_used` of the security section, listed whether or not Mythril is installed. */
  const SecurityTools := ["slither", "mythril", "semgrep"]

  /** `analyze_contract`: an empty type list means security and gas; only the security,
      gas and compliance types produce a section. The gas report parser and the compliance
      rules produce nothing, so both sections are always empty. */
  function AnalyzeStatic(types: seq<string>, slither: Process<SlitherReport>, mythrilAvailable: bool,
                         mythril: Process<MythrilReport>, semgrep: Process<SemgrepReport>): (r: ToolResults)
    ensures r.security.Some? <==> "security" in (if |types| == 0 then DefaultStaticTypes else types)
    ensures r.risk.None?
    ensures FindingsOf(r) == if r.security.Some? then SecurityFindings(slither, mythrilAvailable, mythril, semgrep) else []
    ensures r.security.Some? ==> r.security.value.toolsUsed == Some(["slither", "mythril", "semgrep"])
  {
    var ts := if |types| == 0 then DefaultStaticTypes else types;
    ToolResults(
      if "security" in ts then Some(SecuritySection(Some(SecurityFindings(slither, mythrilAvailable, mythril, semgrep)), Some(SecurityTools))) else None,
      None,
      if "gas" in ts then Some(GasSection(Some([]))) else None,
      if "compliance" in ts then Some(ComplianceSection(Some([]))) else None)
  }

  /** Mythril is listed among the tools used when it is not installed, although none of its
      findings is included then. */
  lemma MythrilListedWhenAbsent(types: seq<string>, slither: Process<SlitherReport>,
                                mythril: Process<MythrilReport>, semgrep: Process<SemgrepReport>)
    requires "security" in (if |types| == 0 then DefaultStaticTypes else types)
    ensures var r := AnalyzeStatic(types, slither, false, mythril, semgrep);
      r.security.Some? && "mythril" in r.security.value.toolsUsed.GetOr([])
      && FindingsOf(r) == RunSlither(slither) + RunSemgrep(semgrep)
  {
  }

  /** Static analysis contributes findings only: no risks, gas optimisations or compliance
      issues, whatever types are asked for. */
  lemma StaticContributesFindingsOnly(types: seq<string>, slither: Process<SlitherReport>, mythrilAvailable: bool,
                                      mythril: Process<MythrilReport>, semgrep: Process<SemgrepReport>)
    ensures var r := AnalyzeStatic(types, slither, mythrilAvailable, mythril, semgrep);
      RisksOf(r) == [] && OptimizationsOf(r) == [] && ComplianceIssuesOf(r) == []
  {
  }

  /** In a comprehensive run the static findings are all tagged as static and every saved
      static finding's tool column reads "static_analysis", not the tool that found it. */
  lemma StaticFindingsSavedAsStatic(
    types: seq<string>, slither: Process<SlitherReport>, mythrilAvailable: bool,
    mythril: Process<MythrilReport>, semgrep: Process<SemgrepReport>, ai: Option<ToolResults>,
    contractId: string, now: real)
    ensures var st := AnalyzeStatic(types, slither, mythrilAvailable, mythril, semgrep);
      var m := A.MergeAnalysisResults(Some(st), ai);
      forall i :: 0 <= i < |m.findings| && A.FindingKey(m.findings[i]) in Seqs.Keys(FindingsOf(st), A.FindingKey) ==>
        A.SaveFinding(m.findings[i], "", contractId, now).tool == "static_analysis"
  {
    var st := AnalyzeStatic(types, slither, mythrilAvailable, mythril, semgrep);
    A.MergeStaticWins(Some(st), ai);
  }
}

=== FILE: text.dfy ===
/** The string operations the source relies on, restricted to ASCII:
    `str.lower`, `str.upper`, `str.isupper`/`islower`/`isdigit`, `str.strip`,
    `str.split(sep)`, `sep.join(parts)`, the `in` substring test and `str(n)` for a
    non-negative integer. */
module Text {

  predicate IsUpperChar(c: char) { 'A' <= c <= 'Z' }
  predicate IsLowerChar(c: char) { 'a' <= c <= 'z' }
  predicate IsDigitChar(c: char) { '0' <= c <= '9' }

  function LowerChar(c: char): char {
    if IsUpperChar(c) then (c as int + 32) as char else c
  }

  function UpperChar(c: char): char {
    if IsLowerChar(c) then (c as int - 32) as char else c
  }

  /** `s.lower()` on ASCII text. */
  function Lower(s: string): (r: string)
    ensures |r| == |s|
    ensures forall i :: 0 <= i < |s| ==> r[i] == LowerChar(s[i])
  {
    seq(|s|, i requires 0 <= i < |s| => LowerChar(s[i]))
  }

  /** `s.upper()` on ASCII text. */
  function Upper(s: string): (r: string)
    ensures |r| == |s|
    ensures forall i :: 0 <= i < |s| ==> r[i] == UpperChar(s[i])
  {
    seq(|s|, i requires 0 <= i < |s| => UpperChar(s[i]))
  }

  /** Lower-casing twice is lower-casing once. */
  lemma LowerIdempotent(s: string)
    ensures Lower(Lower(s)) == Lower(s)
  {
    assert forall i :: 0 <= i < |s| ==> LowerChar(LowerChar(s[i])) == LowerChar(s[i]);
  }

  predicate HasUpper(s: string) { exists i :: 0 <= i < |s| && IsUpperChar(s[i]) }
  predicate HasLower(s: string) { exists i :: 0 <= i < |s| && IsLowerChar(s[i]) }
  predicate HasDigit(s: string) { exists i :: 0 <= i < |s| && IsDigitChar(s[i]) }

  /** Python's `sub in s`. */
  predicate Contains(s: string, sub: string) {
    sub <= s || (|s| > 0 && Contains(s[1..], sub))
  }

  /** The ASCII characters for which `str.isspace()` holds. */
  predicate IsSpace(c: char) {
    c == ' ' || (9 <= c as int <= 13) || (28 <= c as int <= 31)
  }

  predicate AllSpace(s: string) { forall i :: 0 <= i < |s| ==> IsSpace(s[i]) }

  /** The number of whitespace characters `s` starts with. */
  function LeadingSpaces(s: string): (n: nat)
    ensures n <= |s|
    ensures forall i :: 0 <= i < n ==> IsSpace(s[i])
    ensures n < |s| ==> !IsSpace(s[n])
  {
    if |s| > 0 && IsSpace(s[0]) then 1 + LeadingSpaces(s[1..]) else 0
  }

  /** The number of whitespace characters `s` ends with. */
  function TrailingSpaces(s: string): (n: nat)
    ensures n <= |s|
    ensures forall i :: |s| - n <= i < |s| ==> IsSpace(s[i])
    ensures n < |s| ==> !IsSpace(s[|s| - n - 1])
  {
    if |s| > 0 && IsSpace(s[|s| - 1]) then 1 + TrailingSpaces(s[..|s| - 1]) else 0
  }

  /** `s.strip()`: leading and trailing whitespace removed. */
  function Strip(s: string): string {
    var t := s[LeadingSpaces(s)..];
    t[..|t| - TrailingSpaces(t)]
  }

  /** `not s.strip()` holds exactly for the all-whitespace strings (the empty one included). */
  lemma StripEmptyIffAllSpace(s: string)
    ensures Strip(s) == [] <==> AllSpace(s)
  {
    var n := LeadingSpaces(s);
    var t := s[n..];
    if AllSpace(s) {
      assert n == |s|;
    }
    if n < |s| {
      assert t[0] == s[n];
      assert TrailingSpaces(t) < |t|;
    }
  }

  /** `s.split(sep)` for a one-character separator: never empty, and the pieces
      hold no separator. */
  function Split(s: string, sep: char): (parts: seq<string>)
    ensures |parts| >= 1
    ensures forall k, i :: 0 <= k < |parts| && 0 <= i < |parts[k]| ==> parts[k][i] != sep
  {
    if |s| == 0 then [""]
    else
      var rest := Split(s[1..], sep);
      if s[0] == sep then [""] + rest
      else [[s[0]] + rest[0]] + rest[1..]
  }

  /** `sep.join(parts)`. */
  function Join(parts: seq<string>, sep: string): string {
    if |parts| == 0 then ""
    else if |parts| == 1 then parts[0]
    else parts[0] + sep + Join(parts[1..], sep)
  }

  /** Splitting on a character and joining with it gives the original string back. */
  lemma {:induction false} JoinSplit(s: string, sep: char)
    ensures Join(Split(s, sep), [sep]) == s
  {
    if |s| > 0 {
      var rest := Split(s[1..], sep);
      JoinSplit(s[1..], sep);
      if s[0] == sep {
        assert Split(s, sep) == [""] + rest;
        assert ([""] + rest)[1..] == rest;
      } else {
        var parts := [[s[0]] + rest[0]] + rest[1..];
        assert Split(s, sep) == parts;
        if |rest| == 1 {
          assert Join(rest, [sep]) == rest[0];
        } else {
          assert parts[1..] == rest[1..];
          assert Join(rest, [sep]) == rest[0] + [sep] + Join(rest[1..], [sep]);
        }
      }
    }
  }

  /** `s.split(sep)` for a non-empty separator string: scanning left to right, every
      occurrence of `sep` ends a piece. */
  function SplitOn(s: string, sep: string): (parts: seq<string>)
    requires |sep| > 0
    ensures |parts| >= 1
    decreases |s|
  {
    if |s| == 0 then [""]
    else if sep <= s then [""] + SplitOn(s[|sep|..], sep)
    else
      var rest := SplitOn(s[1..], sep);
      [[s[0]] + rest[0]] + rest[1..]
  }

  /** Text without the separator's first character is a single piece. */
  lemma {:induction false} SplitOnWithout(p: string, sep: string)
    requires |sep| > 0 && sep[0] !in p
    ensures SplitOn(p, sep) == [p]
  {
    if |p| > 0 {
      assert sep[0] !in p[1..];
      SplitOnWithout(p[1..], sep);
      assert !(sep <= p) by { assert p[0] != sep[0]; }
      assert [p[0]] + p[1..] == p;
    }
  }

  /** A piece followed by the separator is split off as the first piece. */
  lemma {:induction false} SplitOnFirst(p: string, sep: string, t: string)
    requires |sep| > 0 && sep[0] !in p
    ensures SplitOn(p + sep + t, sep) == [p] + SplitOn(t, sep)
  {
    var s := p + sep + t;
    if |p| == 0 {
      assert s == sep + t;
      assert sep <= s;
      assert s[|sep|..] == t;
    } else {
      assert sep[0] !in p[1..];
      SplitOnFirst(p[1..], sep, t);
      assert !(sep <= s) by { assert s[0] == p[0] && p[0] != sep[0]; }
      assert s[1..] == p[1..] + sep + t;
      assert [p[0]] + p[1..] == p;
    }
  }

  /** Joining pieces that do not contain the separator's first character and splitting
      again gives the pieces back. */
  lemma {:induction false} SplitOnJoin(parts: seq<string>, sep: string)
    requires |sep| > 0 && |parts| > 0
    requires forall k :: 0 <= k < |parts| ==> sep[0] !in parts[k]
    ensures SplitOn(Join(parts, sep), sep) == parts
  {
    if |parts| == 1 {
      SplitOnWithout(parts[0], sep);
    } else {
      var rest := parts[1..];
      assert forall k :: 0 <= k < |rest| ==> sep[0] !in rest[k] by {
        forall k | 0 <= k < |rest| ensures sep[0] !in rest[k] {
          assert rest[k] == parts[k + 1];
        }
      }
      SplitOnJoin(rest, sep);
      assert Join(parts, sep) == parts[0] + sep + Join(rest, sep);
      SplitOnFirst(parts[0], sep, Join(rest, sep));
      assert [parts[0]] + rest == parts;
    }
  }

  /** The number of pieces is one more than the number of separators. */
  lemma {:induction false} SplitCount(s: string, sep: char)
    ensures |Split(s, sep)| == CountChar(s, sep) + 1
  {
    if |s| > 0 {
      SplitCount(s[1..], sep);
    }
  }

  function CountChar(s: string, c: char): nat {
    if |s| == 0 then 0 else (if s[0] == c then 1 else 0) + CountChar(s[1..], c)
  }

  /** `s.split(sep)[-1]`: the text after the last separator, or all of `s` when it has none. */
  function AfterLast(s: string, sep: char): string {
    var parts := Split(s, sep);
    parts[|parts| - 1]
  }

  lemma {:induction false} AfterLastIsSuffix(s: string, sep: char)
    ensures var t := AfterLast(s, sep);
      |t| <= |s| && t == s[|s| - |t|..]
      && (forall i :: 0 <= i < |t| ==> t[i] != sep)
      && (|t| < |s| ==> s[|s| - |t| - 1] == sep)
  {
    if |s| > 0 {
      var tail := s[1..];
      AfterLastIsSuffix(tail, sep);
      var t' := AfterLast(tail, sep);
      AfterLastStep(s, sep);
      if s[0] != sep && |Split(tail, sep)| == 1 {
        assert AfterLast(s, sep) == s by {
          JoinSplit(tail, sep);
          assert [s[0]] + tail == s;
        }
      } else {
        if s[0] != sep && |t'| == |tail| {
          assert t' == tail;
          NoSepCount(tail, sep);
          SplitCount(tail, sep);
          assert false;
        }
        TailSuffix(s, |t'|);
      }
    }
  }

  /** How the last piece of a non-empty string relates to the last piece of its tail. */
  lemma AfterLastStep(s: string, sep: char)
    requires |s| > 0
    ensures var rest := Split(s[1..], sep);
      if s[0] != sep && |rest| == 1 then AfterLast(s, sep) == [s[0]] + rest[0]
      else AfterLast(s, sep) == AfterLast(s[1..], sep)
  {
    var rest := Split(s[1..], sep);
    if s[0] == sep {
      assert Split(s, sep) == [""] + rest;
    } else {
      assert Split(s, sep) == [[s[0]] + rest[0]] + rest[1..];
    }
  }

  /** A suffix of the tail is the same suffix of the whole string. */
  lemma TailSuffix<T>(s: seq<T>, n: nat)
    requires 0 < |s| && n <= |s| - 1
    ensures s[1..][|s| - 1 - n..] == s[|s| - n..]
    ensures n < |s| - 1 ==> s[1..][|s| - 1 - n - 1] == s[|s| - n - 1]
  {
  }

  /** A string without the separator is its own last piece. */
  lemma {:induction false} AfterLastWithoutSep(s: string, sep: char)
    requires forall i :: 0 <= i < |s| ==> s[i] != sep
    ensures AfterLast(s, sep) == s
  {
    if |s| > 0 {
      AfterLastWithoutSep(s[1..], sep);
      assert Split(s[1..], sep) == [s[1..]] by {
        SplitCount(s[1..], sep);
        NoSepCount(s[1..], sep);
      }
      assert [s[0]] + s[1..] == s;
    }
  }

  lemma {:induction false} NoSepCount(s: string, sep: char)
    requires forall i :: 0 <= i < |s| ==> s[i] != sep
    ensures CountChar(s, sep) == 0
  {
    if |s| > 0 {
      NoSepCount(s[1..], sep);
    }
  }

  function DigitChar(d: nat): char
    requires d < 10
  {
    (48 + d) as char
  }

  /** `str(n)` for a non-negative integer: its decimal digits, most significant first. */
  function NatToString(n: nat): (r: string)
    ensures |r| >= 1
    ensures forall i :: 0 <= i < |r| ==> IsDigitChar(r[i])
    decreases n
  {
    if n < 10 then [DigitChar(n)] else NatToString(n / 10) + [DigitChar(n % 10)]
  }

  /** Decimal digits are no full stop. */
  lemma DigitsDotFree(s: string)
    requires forall i :: 0 <= i < |s| ==> IsDigitChar(s[i])
    ensures '.' !in s
  {
  }

  /** Reading decimal digits back, the reference inverse of `NatToString`. */
  function ParseDecimal(s: string): int {
    if |s| == 0 then 0 else 10 * ParseDecimal(s[..|s| - 1]) + (s[|s| - 1] as int - 48)
  }

  /** `str(n)` is decimal notation: parsing it back gives `n`, and it has no leading zero. */
  lemma {:induction false} NatToStringRoundTrip(n: nat)
    ensures ParseDecimal(NatToString(n)) == n
    ensures n > 0 ==> NatToString(n)[0] != '0'
    decreases n
  {
    if n >= 10 {
      NatToStringRoundTrip(n / 10);
      var s := NatToString(n);
      assert s[..|s| - 1] == NatToString(n / 10);
      assert s[0] == NatToString(n / 10)[0];
    }
  }

  /** Distinct numbers have distinct decimal renderings. */
  lemma NatToStringInjective(m: nat, n: nat)
    requires NatToString(m) == NatToString(n)
    ensures m == n
  {
    NatToStringRoundTrip(m);
    NatToStringRoundTrip(n);
  }
}

=== FILE: wrappers.dfy ===
/** Failure-compatible wrappers used across the model.
    `Option` stands for a dictionary key that may be absent (`dict.get`), and
    `Result` for an operation that either returns a value or raises. */
module Wrappers {

  datatype Option<+T> = None | Some(value: T) {

    /** The value, or `default` when absent: Python's `d.get(key, default)`. */
    function GetOr(default: T): T {
      match this
      case Some(v) => v
      case None => default
    }

    predicate IsFailure() {
      None?
    }

    function PropagateFailure<U>(): Option<U>
      requires None?
    {
      None
    }

    function Extract(): T
      requires Some?
    {
      value
    }
  }

  datatype Result<+R, +E> = Success(value: R) | Failure(error: E) {

    predicate IsFailure() {
      Failure?
    }

    function PropagateFailure<U>(): Result<U, E>
      requires Failure?
    {
      Failure(error)
    }

    function Extract(): R
      requires Success?
    {
      value
    }
  }
}
